=== FILE: README.md ===
# jsonmodoki's JSON reader, modelled in Dafny

jsonmodoki reads a NUL-terminated C string and returns a tree. It works in
two stages:

- `lexer_lex` turns the whole text into a linked list of tokens. It has
  three keyword matchers, a nine-state number machine and a twelve-state
  string machine.
- A recursive-descent parser builds nodes from that list. It has a
  three-state array loop and a five-state object loop.

Lexemes accumulate in a growable byte buffer (`string_t` of string.c).

This project models that pipeline as pure functions over immutable data and
proves what each stage promises:

| file | module | models |
|---|---|---|
| chars.dfy | `Chars` | octets, `EOF`, the `case_*` character classes, `strlen` |
| types.dfy | `Types` | `error_t`, `token_t`, `node_t` (jsonmodoki.h) |
| bytesource.dfy | `ByteSource` | `file_new_with_string`, `file_read`, `file_unread` (string source) |
| scan.dfy | `Scan` | the `lexer_expected` and `lexer_peek_end_value` macros |
| stringbuf.dfy | `StringBuf` | `string_new`, `string_add_char`, `string_add_string` |
| unicode.dfy | `Unicode` | `hexctoi`, the surrogate tests, `utf16_to_utf32`, `utf32_to_utf8`, `utf16_to_utf8` |
| numberlexer.dfy | `NumberLexer` | `lexer_lex_number` |
| stringlexer.dfy | `StringLexer` | `lexer_lex_string` |
| lexer.dfy | `Lexer` | `lexer_lex_null/true/false` and the dispatch loop `lexer_lex` |
| tokencursor.dfy | `TokenCursor` | `lexer_read`, `lexer_unread` |
| syntax.dfy | `Syntax` | the JSON value grammar as a token sequence (the parser's reference) |
| parser.dfy | `Parser` | `parser_parse_value`, `parser_parse_array`, `parser_parse_object` |
| parseerrors.dfy | `ParseErrors` | where a failed parse records its error |
| reader.dfy | `Reader` | `parser_parse`, as written and corrected |
| examples.dfy | `Examples` | a few accepted numbers from test.c, and edge cases that show each error path and where ordinals fall |

## How each stage is stated

- **Reference definitions.** Each machine is paired with a definition that
  has no machine in it, and a lemma ties the two together:
  - numbers: `IsNumber`, the regular grammar of section 6 of RFC 8259;
  - strings: `Body`, the string grammar of section 7 of RFC 8259, restricted
    to the raw octets the code admits;
  - whole lexer: `Tokenize`, which scans the text by index;
  - parser: `Emit`, the token sequence a value is written as;
  - UTF-8: `DecodeUtf8`, the RFC 3629 decoder.
- **`strtod`.** Number conversion is the parameter `conv: seq<Byte> -> bool`,
  which says whether `strtod` accepts the lexeme. The number token keeps the
  accepted lexeme instead of a `double`.
- **`BUG()` guards.** The two `BUG()` guards of `file_unread` and of
  `lexer_unread` are preconditions. Every call site is proved to meet them,
  so the guards can never fire.
- **`parser_expected`.** It can only fail if the next token lacks the expected
  tag. That is excluded by the precondition `NextIs`: the only callers have
  just pushed that very token back.

## Behaviour worth knowing (the model follows the code)

- **Token ordinals.** A token's ordinal is the 1-based position of its first
  character: the keyword letter, the first number character, the opening
  quote, or the punctuation character. It is not the position after that
  character.
- **Trailing tokens.** When tokens remain after the value, `parser_parse`
  leaves the error as the initial GENERAL/0, not SUCCESS
  (jsonmodoki.c:1033, 1301-1306).
- **Empty text.** An empty text parses to SUCCESS with a NULL root
  (`Examples.EmptyText`).
- **String payloads.** A string token's payload is not checked as UTF-8. Raw
  octets are range-checked one at a time, so a lone 0xC2 passes through
  (`Examples.LoneLeadOctet`). `\u0000` appends a 0 octet
  (`Examples.EscapedNul`).

## Model

| member | source | states |
|---|---|---|
| Chars.CStrLen | jsonmodoki.c:16-25 | the text a C string holds ends at its first NUL: no NUL before the length, a NUL at it if the array is longer |
| ByteSource.FromString | jsonmodoki.c:16-25 | a fresh source is valid, holds the text up to the NUL, and starts at ordinal 0 with nothing pushed back |
| ByteSource.Read | jsonmodoki.c:31-58 | a read yields the next octet, or EOF once the text is used up, and the ordinal goes up by one in both cases; pushing the character straight back restores the upcoming text, the consumed count and the ordinal |
| ByteSource.ReadSplits | jsonmodoki.c:31-58 | a read splits the upcoming text into the octet read and the rest; EOF is read only when nothing is upcoming |
| ByteSource.Unread | jsonmodoki.c:61-67 | pushing back fills the one-slot stack and lowers the ordinal by one; its BUG guards (slot full, ordinal 0) are the precondition |
| Scan.Expect | jsonmodoki.c:111-126 | `lexer_expected` succeeds exactly when the next character is the one wanted, and then consumes it; otherwise it records a general error at the ordinal of the character read |
| Scan.PeekEndValue | jsonmodoki.c:130-148 | the peek succeeds exactly when whitespace, `,`, `]`, `}`, `:` or EOF comes next; it pushes that character back so nothing is consumed, and otherwise errors at the ordinal of the character read |
| StringBuf.New | string.c:6-13 | `string_new` gives length 0, capacity 16, a NUL at index 0 and empty content |
| StringBuf.AddChar | string.c:16-25 | `string_add_char` appends the octet `c` truncated to a char at the old length, keeps every earlier octet, rewrites the NUL after the content, keeps length below capacity, and doubles the capacity exactly when length + 1 reaches it |
| StringBuf.AddChars | string.c:16-25 | appending octets one by one makes the content the old content followed by them |
| StringBuf.AddString | string.c:28-34 | `string_add_string` makes the content old ++ str up to its NUL, with the length growing by strlen(str) |
| StringBuf.BuildShape | string.c:6-25 | a buffer built by appends holds exactly the octets appended; its capacity is always 16·2^k and at most twice what the content needs (or 16) |
| Unicode.HexToInt | jsonmodoki.c:541-551 | `hexctoi` returns -1 or a digit value below 16 |
| Unicode.HexToIntInverts | jsonmodoki.c:541-551 | `hexctoi` inverts the hex digits of either case, and returns -1 exactly for characters that are not hex digits |
| Unicode.Utf16ToUtf32 | jsonmodoki.c:474-490 | a unit that is not a high surrogate passes through (count 1); a high surrogate with no low one gives -1; a pair gives the code point 0x10000 + (hi & 0x3FF) << 10 + (lo & 0x3FF) in 0x10000..0x10FFFF, whose surrogates are the pair again (count 2) |
| Unicode.Utf16PairRoundTrip | jsonmodoki.c:474-490 | every supplementary code point splits into a surrogate pair that `utf16_to_utf32` puts back together (section 2.2 of RFC 2781) |
| Unicode.Utf32ToUtf8 | jsonmodoki.c:493-519 | `utf32_to_utf8` fails exactly on surrogates and values above 0x10FFFF, and otherwise emits 1, 2, 3 or 4 octets by range |
| Unicode.Utf32ToUtf8Decodes | jsonmodoki.c:493-519 | the octets emitted are well-formed UTF-8 (section 3 of RFC 3629) and decode to the code point |
| Unicode.Utf8Canonical | jsonmodoki.c:493-519 | every well-formed UTF-8 sequence is what `utf32_to_utf8` emits for its decoded value, so the encoder is onto well-formed UTF-8 |
| Unicode.Utf16ToUtf8 | jsonmodoki.c:530-538 | `utf16_to_utf8` encodes a single non-surrogate unit, fails on a lone low surrogate or an unpaired high one, and encodes a pair as one 4-octet sequence |
| Unicode.Utf16ToUtf8Decodes | jsonmodoki.c:530-538 | the octets `utf16_to_utf8` produces decode to the unit, or to the pair's code point |
| NumberLexer.Step | jsonmodoki.c:282-446 | one arm of the number machine never appends EOF, and it finishes exactly in the accepting states on an end-of-value character |
| NumberLexer.MachineAcceptsNumbers | jsonmodoki.c:255-447 | the nine-state machine accepts exactly `-?(0\|[1-9][0-9]*)(\.[0-9]+)?([eE][+-]?[0-9]+)?` |
| NumberLexer.LoopSound | jsonmodoki.c:276-447 | a lexeme the loop accepts is in the machine's language and is followed by a character that ends a value |
| NumberLexer.LoopComplete | jsonmodoki.c:276-447 | a word in the machine's language followed by an end-of-value character is accepted whole |
| NumberLexer.Loop | jsonmodoki.c:276-447 | the loop reads exactly what the machine run over the text by index (`HaltAt`) appends before it finishes, and a refusal is recorded at the ordinal of the character the run refuses |
| NumberLexer.LexNumber | jsonmodoki.c:255-459 | a number token is produced exactly when the number machine, run over the upcoming text, finishes a lexeme that `strtod` accepts; the token's ordinal is that of the first character, and the follower is pushed back; otherwise the general error names exactly the character the machine refuses (EOF counted as one past the end), or the lexeme's last character when `strtod` refuses it |
| NumberLexer.LexNumberComplete | jsonmodoki.c:255-459 | a number-grammar word followed by an end-of-value character gives a token of exactly that word when `strtod` accepts it, and otherwise an error at the ordinal of the word's last character |
| NumberLexer.NumberAvoidsEnd | jsonmodoki.c:255-447 | no number lexeme contains a character that ends a value |
| StringLexer.Step | jsonmodoki.c:590-811 | one arm of the string machine keeps the surrogate and partial-unit invariants of the state it moves to |
| StringLexer.Accumulate | jsonmodoki.c:669-714 | `v \|= hex << shift` for the k-th hex digit fills the next four bits only, so the unit stays 16 bits wide and the later digits' bits stay clear |
| StringLexer.LoopRuns | jsonmodoki.c:582-811 | reading from the byte source and running the same machine over the text by index give the same octets and stop at the same place; a failure is recorded at the ordinal of the character where the run gets stuck |
| StringLexer.RunMatchesBody | jsonmodoki.c:590-811 | the twelve-state machine decodes exactly the string grammar and gets stuck on the same character: raw octets 0x20, 0x21, 0x23–0x5B, 0x5D–0xBF and 0xC2–0xF4 copied; the eight two-character escapes one octet each; `\uXXXX` of either case as UTF-8; a high surrogate only with a `\u` low surrogate right after it; any other octet, and the end of the text, refused where they stand |
| StringLexer.UnicodeRuns | jsonmodoki.c:669-809 | after `\u` the machine reads four hex digits and then either appends a non-surrogate unit's UTF-8, or waits for `\u` plus a low surrogate and appends the pair's 4-octet UTF-8, or fails |
| StringLexer.LexString | jsonmodoki.c:554-816 | a string token starts at the opening quote, consumes through the closing quote, and is followed by a character that ends a value; an error is general and names exactly the character where the string grammar gets stuck (EOF counted as one past the end), or the character after the closing quote when it does not end a value |
| StringLexer.LexStringMatchesBody | jsonmodoki.c:554-816 | `lexer_lex_string` yields a token exactly when the string grammar reads a string and an end-of-value character follows; the token holds the decoded octets at the quote's ordinal, and the source stops just after the closing quote; otherwise the general error names the character where the grammar gets stuck, or the one after the closing quote |
| Lexer.MatchWordSpec | jsonmodoki.c:217-252 | the chain of `lexer_expected` calls succeeds exactly when the word is next, and then consumes it; otherwise it errors at the ordinal just past the longest matching prefix |
| Lexer.LexKeyword | jsonmodoki.c:217-252 | `null`, `true` and `false` give a token at the ordinal of their first letter exactly when the word is next and an end-of-value character follows it (so `nullx` fails); the follower is not consumed; an error names the first character that does not fit |
| Lexer.KeywordAgrees | jsonmodoki.c:217-252 | a keyword lexer succeeds exactly when its word is the whole run of characters up to the next end of value |
| Lexer.NumberAgrees | jsonmodoki.c:255-459 | the number lexer succeeds exactly when the run up to the next end of value is in the number grammar and `strtod` accepts it, and then it consumes that run |
| Lexer.StringAgrees | jsonmodoki.c:554-816 | the string lexer succeeds exactly when the string grammar reads a string body and an end-of-value character follows, and then it consumes through the closing quote; a failure names the character where the grammar stops (`StringStop`) |
| Lexer.LexLexeme | jsonmodoki.c:834-864 | each sub-lexer `lexer_lex` hands over to either yields a token placed at its own text, at the ordinal of the character pushed back, or errors within what it read |
| Lexer.LexemeAgrees | jsonmodoki.c:834-864 | the sub-lexer `lexer_lex` picks gives the token of the lexeme the syntax reads there and stops where it ends, or fails at the ordinal of the character where the lexeme goes wrong |
| Lexer.LexPass | jsonmodoki.c:819-898 | one pass of the loop records SUCCESS exactly at EOF, at ordinal length + 1; skips whitespace; makes a punctuation character its token on the spot; records a general error at the ordinal of a character that starts no token; and any token sits at the character just read |
| Lexer.PassAgrees | jsonmodoki.c:819-898 | each pass of `lexer_lex` does what the token syntax says about the text at that place: end, blank, the same lexeme up to the same index, or a general error naming exactly the character where the syntax goes wrong |
| Lexer.LexFrom | jsonmodoki.c:819-898 | the loop keeps the tokens it has in text order, each placed at its own text, and records SUCCESS only past the end of the text |
| Lexer.Lex | jsonmodoki.c:819-898 | the tokens of `lexer_lex` are in strictly increasing ordinal order, each at its own text, all before the error's ordinal, and SUCCESS is recorded at length + 1 |
| Lexer.LexTokenizes | jsonmodoki.c:819-898 | `lexer_lex` succeeds exactly when the text scans as a sequence of tokens, and then its token list is exactly that sequence |
| TokenCursor.Open | jsonmodoki.c:1029-1034 | a fresh parser sees the whole token list pending, with nothing pushed back |
| TokenCursor.ReadToken | jsonmodoki.c:901-914 | `lexer_read` hands out the pushed-back token first and then the list in order; it gives NULL exactly when nothing is pending; the counter goes up by one |
| TokenCursor.UnreadToken | jsonmodoki.c:917-923 | `lexer_unread` puts the token in front of the pending ones, and the next read gives it back; its BUG guards are the precondition |
| TokenCursor.ListLeftPending | jsonmodoki.c:1302 | with nothing pushed back, `tokencurr != NULL` holds exactly when tokens are pending |
| Parser.ParseValue | jsonmodoki.c:1262-1290 | every parse function leaves the pushback slot empty and consumes at least one token when it builds a node |
| Parser.ScalarEmits | jsonmodoki.c:1268-1279 | null, bool, number and string tokens become nodes of their own ordinal that stand for exactly that token; no other token does |
| Parser.ValueSound | jsonmodoki.c:1054-1290 | a node built consumed exactly the tokens of its value (the node written back as tokens), numbers its array elements 0, 1, 2, … in order, and gives every element wrapper its value's ordinal; the node and every node nested in it carry the ordinal of the first token of what they stand for, read off the pending tokens (`Placed`) |
| Parser.ArrayLoopSoundness | jsonmodoki.c:1072-1146 | the array loop keeps the elements it has and appends new ones in token order; after `,` it needs another element; each new element's value sits at the first token of that value among the tokens the loop reads |
| Parser.ObjectLoopSoundness | jsonmodoki.c:1167-1259 | the object loop keeps the members it has and appends new ones in token order, each under the string token read before its `:`, with duplicate names kept; each new member's value sits at the first token after its `:` |
| Parser.ValueComplete | jsonmodoki.c:1054-1290 | the tokens of any value, whatever follows them, are parsed back into exactly that value, and the parse stops right after them |
| Parser.ArrayLoopComplete | jsonmodoki.c:1072-1146 | from any state, the tokens of the remaining elements and the closing `]` are read into exactly those elements |
| Parser.ObjectLoopComplete | jsonmodoki.c:1167-1259 | from any state, the tokens of the remaining members and the closing `}` are read into exactly those members |
| ParseErrors.ValueBlamed | jsonmodoki.c:1047-1051 | a failed parse's general error names the last token it read, and is 0 exactly when its last read found no token (the counter then shows one read more than the tokens consumed); `parser_parse_value` records nothing exactly when no token is left |
| ParseErrors.ArrayLoopBlamed | jsonmodoki.c:1072-1146 | every failure inside an array records an error: the ordinal of the last token read, or 0 exactly when the failing read found the list used up |
| ParseErrors.ObjectLoopBlamed | jsonmodoki.c:1167-1259 | every failure inside an object records an error: the ordinal of the last token read, or 0 exactly when the failing read found the list used up |
| ParseErrors.ErrorNamesToken | jsonmodoki.c:1293-1307 | after the parse, a nonzero error ordinal is the ordinal of one of the tokens |
| Reader.TrailingCommaSucceeds | jsonmodoki.c:1293-1307 | as written, the tokens of `[1,]` end as SUCCESS with no root; the corrected decision reports the general error at the `]` |
| Reader.StrictAgrees | jsonmodoki.c:1293-1307 | the corrected decision returns the same root, and differs from the one as written exactly when that one reports SUCCESS with no root |
| Reader.StrictSound | jsonmodoki.c:1293-1307 | with the corrected decision, SUCCESS means a root was built and the whole token list is exactly that value's tokens |
| Reader.StrictComplete | jsonmodoki.c:1293-1307 | the token list of any value parses to exactly that value with SUCCESS |
| Reader.ParseTokensComplete | jsonmodoki.c:1293-1307 | on the tokens of a value, the decision as written and the corrected one agree: SUCCESS/0 with that value as the root |
| Reader.LexErrorReported | jsonmodoki.c:1295-1299 | a text that does not scan as tokens is reported with the lexer's own general error and no root |
| Reader.ParseStrictSound | jsonmodoki.c:1293-1307 | from text to tree: SUCCESS means the text scans as tokens that are exactly the root's tokens |
| Reader.ParseStrictComplete | jsonmodoki.c:1293-1307 | a text whose tokens are those of a value parses to exactly that value with SUCCESS/0 |
| Examples.NumbersRejected | jsonmodoki.c:255-447 | `01`, `-`, `1.`, `1e+`, `.5` and `+1` are not numbers |
| Examples.FullNumberAccepted | jsonmodoki.c:255-447 | `-6.25e-2` is a number |
| Examples.KeywordRunsOn | jsonmodoki.c:217-227 | `nullx` fails at ordinal 5, the character that does not end the value |
| Examples.LeadingZeroRefused | jsonmodoki.c:322-340 | `01` fails at ordinal 2, the digit after the leading zero, before `strtod` is asked |
| Examples.UnclosedString | jsonmodoki.c:580-586 | `"a` with no closing quote fails at ordinal 3, the EOF read after the `a` |
| Examples.StrayPlus | jsonmodoki.c:891-895 | ` +` lexes to no tokens and a general error at ordinal 2, the plus sign |
| Examples.EscapedNul | jsonmodoki.c:669-731 | `\u0000` appends a single 0 octet |
| Examples.LoneLeadOctet | jsonmodoki.c:590-598 | a raw 0xC2 with no continuation octet is copied as it is |
| Examples.EmptyText | jsonmodoki.c:1293-1307 | an empty text is SUCCESS with no root as written, and a general error at 0 when corrected |
| Examples.NestedArrayPlaced | jsonmodoki.c:1054-1146 | the tokens of `[[1]]` parse to an outer array at ordinal 1, its element wrapper and the inner array at 2, and the inner element and number at 3 |
| Examples.ArrayCutShort | jsonmodoki.c:1072-1146 | the tokens of `[1` fail with the error 0 recorded after one read past the list, and end as SUCCESS/0 as written and GENERAL/0 when corrected |
| Examples.ObjectCutShort | jsonmodoki.c:1167-1259 | the tokens of `{"a":1` fail the same way: error 0 after one read past the list, SUCCESS/0 as written and GENERAL/0 when corrected |

## Left out

- The `FILE_TAG_FILE` branch of `file_read` (jsonmodoki.c:42-44): it is real file I/O. Only the in-memory string source is modelled.
- `strtod` and the `double` payload (jsonmodoki.c:449-458): floating point. Whether `strtod` accepts a lexeme is the parameter `conv`, and a number token holds its lexeme.
- `logmsg` diagnostics, util.c (allocation, logging) and debug.c (printing): side effects only. Allocation is taken to succeed.
- `BUG()` → `exit(1)`: process termination is not modelled. The guards are preconditions, proved met everywhere.
- The failure branch of `parser_expected` (jsonmodoki.c:1002-1026): it is unreachable from its callers, which the precondition `NextIs` records.
- Memory ownership: nothing is freed, keys alias token buffers, and `tokbuf` is re-created per token. None of this matters under value semantics.
- `lexer_t`'s linked list (`tokenhead`, `tokentail`, `lexer_add_token`) is a sequence, and `node_t`'s sibling lists (`head`, `tail`, `next`) are sequences of elements. An empty array or object is an empty sequence, which is `head == NULL`.
- The `int` → `char` conversion in `string_add_char` is modelled as `c % 256`. `Accumulate` works with exact integers, which is sound because no digit overlaps another's bits, so `|` is `+`.
- Ordinals are unbounded naturals; `size_t` overflow is not modelled.

## Findings

| source | as written | input that shows it | evidently intended | confidence | as-written member | corrected member |
|---|---|---|---|---|---|---|
| jsonmodoki.c:1301-1306 | `parser_parse` sets SUCCESS whenever the token list is used up after `parser_parse_value`, without looking at the root node or at the error the parse recorded | `[1,]` (also `[1` and the empty text): SUCCESS with a NULL root | SUCCESS only when a value was built from all the tokens, with the recorded general error kept otherwise | not executed | Reader.TrailingCommaSucceeds | Reader.StrictSound |

=== FILE: bytesource.dfy ===
/**
  The in-memory byte source of jsonmodoki.c (`file_t` with FILE_TAG_STRING):
  the text, a read index, a one-slot pushback stack and the ordinal, which
  counts every character handed out, EOF included, and goes back by one on
  every pushback.
 */
module ByteSource {
  import opened Chars
  import opened Types

  datatype Source = Source(input: seq<Byte>, index: nat, slot: Option<Char>, ordinal: nat)

  /**
    The representation invariant: the index stays within the text, and a
    pushed-back character is the one most recently taken from the text (EOF
    only once the text is used up).
   */
  predicate SourceValid(s: Source) {
    s.index <= |s.input|
    && match s.slot
      case None => true
      case Some(c) =>
        if c == EOF then s.index == |s.input| else 0 < s.index && s.input[s.index - 1] == c
  }

  /** How many octets of the text have been handed out and not pushed back. */
  function Consumed(s: Source): nat
    requires SourceValid(s)
  {
    if s.slot.Some? && s.slot.value != EOF then s.index - 1 else s.index
  }

  /** The octets the next reads will hand out, in order, before EOF. */
  function Upcoming(s: Source): seq<Byte>
    requires SourceValid(s)
  {
    s.input[Consumed(s)..]
  }

  /** The ordinal is the count of octets consumed (no EOF read is outstanding). */
  predicate Synced(s: Source)
    requires SourceValid(s)
  {
    s.ordinal == Consumed(s)
  }

  /**
    `s1` comes from `s` by reads and pushbacks that leave no EOF outstanding:
    same text, and the ordinal moved by exactly the octets consumed.
   */
  predicate Advances(s: Source, s1: Source) {
    SourceValid(s) && SourceValid(s1) && s1.input == s.input
    && Consumed(s) <= Consumed(s1)
    && s1.ordinal == s.ordinal + (Consumed(s1) - Consumed(s))
  }

  /** `file_new_with_string`: the text runs up to the C string's NUL. */
  function FromString(str: seq<Byte>): (s: Source)
    ensures SourceValid(s) && Synced(s)
    ensures Upcoming(s) == str[..CStrLen(str)]
    ensures s.ordinal == 0 && s.slot.None?
  {
    Source(str[..CStrLen(str)], 0, None, 0)
  }

  /**
    `file_read`: the pushed-back character if there is one, else the next
    octet of the text, else EOF; the ordinal goes up by one in every case.
    Pushing the character straight back restores what later reads see.
   */
  function Read(s: Source): (r: (Char, Source))
    requires SourceValid(s)
    ensures SourceValid(r.1) && r.1.input == s.input
    ensures r.1.slot.None? && r.1.ordinal == s.ordinal + 1
    ensures r.0 == HeadOrEof(Upcoming(s))
    ensures Consumed(r.1) == if r.0 == EOF then Consumed(s) else Consumed(s) + 1
    ensures Upcoming(r.1) == if r.0 == EOF then [] else Upcoming(s)[1..]
    ensures SourceValid(Unread(r.1, r.0))
    ensures Upcoming(Unread(r.1, r.0)) == Upcoming(s)
    ensures Consumed(Unread(r.1, r.0)) == Consumed(s)
    ensures Unread(r.1, r.0).ordinal == s.ordinal
  {
    match s.slot
    case Some(c) => (c, s.(slot := None, ordinal := s.ordinal + 1))
    case None =>
      if s.index == |s.input| then (EOF, s.(ordinal := s.ordinal + 1))
      else (s.input[s.index], s.(index := s.index + 1, ordinal := s.ordinal + 1))
  }

  /** A read that yields an octet takes it off the front of the upcoming text. */
  lemma ReadSplits(s: Source)
    requires SourceValid(s)
    ensures Read(s).0 != EOF ==> Upcoming(s) == [Read(s).0 as Byte] + Upcoming(Read(s).1)
    ensures Read(s).0 == EOF ==> Upcoming(s) == []
  {
    var u := Upcoming(s);
    if u != [] {
      assert u == [u[0]] + u[1..];
    }
  }

  /** Reading an octet advances by one; reading and pushing straight back advances by none. */
  lemma ReadAdvances(s: Source)
    requires SourceValid(s)
    ensures Read(s).0 != EOF ==> Advances(s, Read(s).1)
    ensures Advances(s, Unread(Read(s).1, Read(s).0))
  {
  }

  /** How much is left to read, in terms of how much has been consumed. */
  lemma UpcomingLength(s: Source)
    requires SourceValid(s)
    ensures |Upcoming(s)| == |s.input| - Consumed(s)
  {
  }

  lemma AdvancesTrans(s0: Source, s1: Source, s2: Source)
    requires Advances(s0, s1) && Advances(s1, s2)
    ensures Advances(s0, s2)
  {
  }

  /**
    `file_unread`. Its two BUG guards (the slot is already full; nothing has
    been read) are the precondition, so every caller is proved never to trip
    them.
   */
  function Unread(s: Source, c: Char): (r: Source)
    requires s.slot.None? && s.ordinal > 0
    ensures r.slot == Some(c) && r.input == s.input && r.index == s.index
    ensures r.ordinal + 1 == s.ordinal
  {
    s.(slot := Some(c), ordinal := s.ordinal - 1)
  }
}

=== FILE: chars.dfy ===
/**
  Characters as the reader sees them: octets of the input text, the EOF
  sentinel `file_read` returns past the end, and the character classes the
  lexer's `case_*` macros spell out (jsonmodoki.c:73-100).
 */
module Chars {

  /** One octet of input (an `unsigned char`). */
  type Byte = x: int | 0 <= x < 0x100

  /** What `file_read` returns: an octet as `unsigned char`, or EOF. */
  type Char = x: int | -1 <= x < 0x100

  const EOF: Char := -1

  const QUOTE: Byte := '"' as int
  const BACKSLASH: Byte := '\\' as int

  /** `case_whitespace`: space, tab, line feed, carriage return. */
  predicate IsWhitespace(c: int) {
    c == ' ' as int || c == '\t' as int || c == '\n' as int || c == '\r' as int
  }

  /** `case_digit`. */
  predicate IsDigit(c: int) {
    '0' as int <= c <= '9' as int
  }

  /** `case_end_value`: what may follow a keyword, a number or a string. */
  predicate IsEndValue(c: int) {
    IsWhitespace(c) || c == ',' as int || c == ']' as int || c == '}' as int
    || c == ':' as int || c == EOF
  }

  /** The character a reader obtains next from the unread text `u`. */
  function HeadOrEof(u: seq<Byte>): Char {
    if |u| == 0 then EOF else u[0]
  }

  /** The next character of `u` (EOF included) ends a value. */
  predicate EndValueNext(u: seq<Byte>) {
    IsEndValue(HeadOrEof(u))
  }

  /** `strlen`: the number of octets before the first NUL, or all of them. */
  function CStrLen(s: seq<Byte>): (n: nat)
    ensures n <= |s|
    ensures forall i :: 0 <= i < n ==> s[i] != 0
    ensures n < |s| ==> s[n] == 0
  {
    if |s| == 0 || s[0] == 0 then 0 else 1 + CStrLen(s[1..])
  }
}

=== FILE: examples.dfy ===
/**
  Concrete inputs and what the model does with them: the edges of the
  number grammar, a keyword followed by more letters, escapes the string
  machine accepts or refuses, where lexing a bad number, an unclosed string
  or a stray character stops, an empty text, and token lists that stop
  inside an array or an object.
 */
module Examples {
  import opened Chars
  import opened Types
  import opened ByteSource
  import opened NumberLexer
  import opened StringLexer
  import opened Lexer
  import opened TokenCursor
  import opened Syntax
  import opened Parser
  import opened Reader

  /** Lexemes the number machine accepts: a lone zero, an integer, a negative fraction. */
  lemma NumbersAccepted()
    ensures IsNumber(['0' as int])
    ensures IsNumber(['4' as int, '2' as int])
    ensures IsNumber(['-' as int, '0' as int, '.' as int, '5' as int])
  {
  }

  /** An exponent with a sign after the mark. */
  lemma SignedExponentAccepted()
    ensures IsNumber(['1' as int, 'E' as int, '+' as int, '9' as int])
  {
  }

  /** Sign, fraction and signed exponent together. */
  lemma FullNumberAccepted()
    ensures IsNumber(['-' as int, '6' as int, '.' as int, '2' as int, '5' as int, 'e' as int, '-' as int, '2' as int])
  {
    var w := ['-' as int, '6' as int, '.' as int, '2' as int, '5' as int, 'e' as int, '-' as int, '2' as int];
    var u := ['6' as int, '.' as int, '2' as int, '5' as int, 'e' as int, '-' as int, '2' as int];
    var f := ['.' as int, '2' as int, '5' as int, 'e' as int, '-' as int, '2' as int];
    var d := ['2' as int, '5' as int, 'e' as int, '-' as int, '2' as int];
    var x := ['e' as int, '-' as int, '2' as int];
    assert w[1..] == u && u[1..] == f && f[1..] == d && f[3..] == x;
    assert DigitSpan(f) == 0;
    assert DigitSpan(d) == 2 by {
      assert d[1..][1..] == x && DigitSpan(x) == 0;
      assert DigitSpan(d[1..]) == 1;
    }
    assert IsExp(x) by {
      assert x[1..][1..] == ['2' as int];
    }
  }

  /** Lexemes it refuses: a leading zero before digits, a bare sign, a dot or exponent with no digits, a plus sign. */
  lemma NumbersRejected()
    ensures !IsNumber(['0' as int, '1' as int])
    ensures !IsNumber(['-' as int])
    ensures !IsNumber(['1' as int, '.' as int])
    ensures !IsNumber(['1' as int, 'e' as int, '+' as int])
    ensures !IsNumber(['.' as int, '5' as int])
    ensures !IsNumber(['+' as int, '1' as int])
  {
  }

  /** `nullx`: the four letters match but the fifth character does not end a value; the error names ordinal 5. */
  lemma KeywordRunsOn()
    ensures var s := FromString(['n' as int, 'u' as int, 'l' as int, 'l' as int, 'x' as int]);
            LexKeyword(s, NULL_WORD, NullToken) == Err(Error(ErrorGeneral, 5))
  {
    var str := ['n' as int, 'u' as int, 'l' as int, 'l' as int, 'x' as int];
    assert CStrLen(str) == 5;
    assert str[..5] == str;
    var s := FromString(str);
    assert Upcoming(s) == str;
    assert NULL_WORD <= str && str[4..] == ['x' as int];
    assert !EndValueNext(str[4..]);
    assert s.ordinal == 0;
  }

  /** `nul` at the end of the text: three letters match, so the error names ordinal 4. */
  lemma KeywordCutShort()
    ensures var s := FromString(['n' as int, 'u' as int, 'l' as int]);
            LexKeyword(s, NULL_WORD, NullToken) == Err(Error(ErrorGeneral, 4))
  {
  }

  /** `null]`: the bracket ends the value, so the keyword is lexed as token 1. */
  lemma KeywordBeforeBracket()
    ensures var s := FromString(['n' as int, 'u' as int, 'l' as int, 'l' as int, ']' as int]);
            var r := LexKeyword(s, NULL_WORD, NullToken);
            r.Ok? && r.value.0 == Token(1, NullToken)
  {
  }

  /** `\u0000"` decodes to a single NUL octet inside the string. */
  lemma EscapedNul()
    ensures Body([BACKSLASH, 'u' as int, '0' as int, '0' as int, '0' as int, '0' as int, QUOTE], 0) == Closed([0], 7)
  {
    var u := [BACKSLASH, 'u' as int, '0' as int, '0' as int, '0' as int, '0' as int, QUOTE];
    assert HexAt(u, 2) && Hex4(u, 2) == 0;
    assert Unit(u, 0) == Closed([0], 6);
    assert Body(u, 6) == Closed([], 7);
    assert [0] + [] == [0];
  }

  /** A raw lead octet 0xC2 with no continuation octet is copied through: the payload is not checked as UTF-8. */
  lemma LoneLeadOctet()
    ensures Body([0xC2, QUOTE], 0) == Closed([0xC2], 2)
  {
    var u := [0xC2, QUOTE];
    assert Body(u, 1) == Closed([], 2);
    assert [0xC2] + [] == [0xC2];
  }

  /** A control character inside a string is refused where it stands. */
  lemma ControlRefused()
    ensures Body([0x0A, QUOTE], 0) == Stuck(0)
  {
  }

  /** A high surrogate escape with no low surrogate after it is refused at the character after it. */
  lemma LoneHighSurrogate()
    ensures Body([BACKSLASH, 'u' as int, 'd' as int, '8' as int, '0' as int, '0' as int, QUOTE], 0) == Stuck(6)
  {
  }

  /** `01`: the machine refuses the second digit after a leading zero, so the error names ordinal 2, whatever `strtod` says. */
  lemma LeadingZeroRefused(conv: seq<Byte> -> bool)
    ensures LexNumber(conv, FromString(['0' as int, '1' as int])) == Err(Error(ErrorGeneral, 2))
  {
    var str := ['0' as int, '1' as int];
    assert CStrLen(str) == 2;
    assert str[..2] == str;
    var s := FromString(str);
    assert Upcoming(s) == str && s.ordinal == 0;
    assert HaltAt(Begin, str) == Refused(1);
  }

  /** `"a` with no closing quote: the grammar is stuck at the end of the text, so the error names ordinal 3. */
  lemma UnclosedString()
    ensures LexString(FromString([QUOTE, 'a' as int])) == Err(Error(ErrorGeneral, 3))
  {
    var str := [QUOTE, 'a' as int];
    assert CStrLen(str) == 2;
    assert str[..2] == str;
    var s := FromString(str);
    assert Upcoming(s) == str && s.ordinal == 0 && Consumed(s) == 0;
    assert Body(str, 2) == Stuck(2);
    assert Body(str, 1) == Stuck(2);
    assert StringStop(s) == 2;
    LexStringMatchesBody(s);
  }

  /** ` +`: a plus sign starts no token, so lexing stops at its ordinal, 2, with no tokens. */
  lemma StrayPlus(conv: seq<Byte> -> bool)
    ensures Lex(conv, [' ' as int, '+' as int]) == Lexed([], Error(ErrorGeneral, 2))
  {
    var str := [' ' as int, '+' as int];
    assert CStrLen(str) == 2;
    assert str[..2] == str;
    var s := FromString(str);
    var p := LexPass(conv, s);
    assert p.Skip? && Consumed(p.next) == 1;
    assert LexPass(conv, p.next) == Stop(Error(ErrorGeneral, 2));
    assert LexFrom(conv, p.next, []) == Lexed([], Error(ErrorGeneral, 2));
    assert LexFrom(conv, s, []) == LexFrom(conv, p.next, []);
  }

  /** An empty text lexes to no tokens and, as written, parses to SUCCESS with no root. */
  lemma EmptyText(conv: seq<Byte> -> bool)
    ensures Parse(conv, []) == Outcome(None, Error(Success, 0))
    ensures ParseStrict(conv, []) == Outcome(None, Error(ErrorGeneral, 0))
  {
    LexTokenizes(conv, []);
  }

  /** The tokens of `[[1]]`, each at its own character. */
  function NestedArray(): seq<Token> {
    [Token(1, BeginArray), Token(2, BeginArray), Token(3, NumberToken([0x31])), Token(4, EndArray), Token(5, EndArray)]
  }

  /**
    `[[1]]`: the inner array sits at ordinal 2 and the number at 3, and each
    element wrapper at its value's ordinal, as the soundness and
    completeness of the parser force.
   */
  lemma NestedArrayPlaced()
    ensures ParseValue(Open(NestedArray())).Done?
    ensures ParseValue(Open(NestedArray())).node
            == ArrayNode(1, [ArrayElem(2, 0, ArrayNode(2, [ArrayElem(3, 0, NumberNode(3, [0x31]))]))])
  {
    var ts := NestedArray();
    var c := Open(ts);
    var one := VNumber([0x31]);
    var inner := VArray([one]);
    var v := VArray([inner]);
    NestedKinds();
    ValueComplete(c, v, []);
    ValueSound(c);
    var r := ParseValue(c);
    assert Pending(c) == ts;
    OuterShape(r.node, ts);
  }

  /** The kinds of the tokens of `[[1]]` are what `[[1]]` writes. */
  lemma NestedKinds()
    ensures Kinds(NestedArray()) == Emit(VArray([VArray([VNumber([0x31])])])) + []
  {
    var one := VNumber([0x31]);
    var inner := VArray([one]);
    assert Elements([one]) == [NumberToken([0x31])];
    assert Elements([inner]) == Emit(inner) == [BeginArray, NumberToken([0x31]), EndArray];
  }

  /** A node that strips to `[[1]]` and is placed on the tokens of `[[1]]`. */
  lemma OuterShape(n: Node, ts: seq<Token>)
    requires ts == NestedArray()
    requires Strip(n) == VArray([VArray([VNumber([0x31])])])
    requires Placed(n, ts) && WellFormed(n)
    ensures n == ArrayNode(1, [ArrayElem(2, 0, ArrayNode(2, [ArrayElem(3, 0, NumberNode(3, [0x31]))]))])
  {
    assert |n.elems| == 1;
    var e := n.elems[0];
    assert StripElems(n.elems) == [Strip(e.val)];
    assert ElemsPlaced(n.elems, ts[1..]);
    InnerShape(e.val, ts[1..]);
    assert e == ArrayElem(2, 0, e.val);
  }

  /** A node that strips to `[1]` and is placed on tokens starting `[` at 2, `1` at 3. */
  lemma InnerShape(m: Node, ts: seq<Token>)
    requires |ts| >= 2 && ts[0].ordinal == 2 && ts[1].ordinal == 3
    requires Strip(m) == VArray([VNumber([0x31])])
    requires Placed(m, ts) && WellFormed(m)
    ensures m == ArrayNode(2, [ArrayElem(3, 0, NumberNode(3, [0x31]))])
  {
    assert |m.elems| == 1;
    var e := m.elems[0];
    assert StripElems(m.elems) == [Strip(e.val)];
    assert ElemsPlaced(m.elems, ts[1..]);
    assert Placed(e.val, ts[1..]);
    assert e.val.ordinal == 3 && Strip(e.val) == VNumber([0x31]);
    assert e.val == NumberNode(3, [0x31]);
    assert e == ArrayElem(3, 0, e.val);
  }

  /** The tokens of `[1`. */
  function OpenArray(): seq<Token> {
    [Token(1, BeginArray), Token(2, NumberToken([0x31]))]
  }

  /**
    `[1`: after the element the array loop reads NULL, which the cursor
    counts one past the two tokens, and records ordinal 0; as written that
    is a SUCCESS at 0 with no root.
   */
  lemma ArrayCutShort()
    ensures ParseValue(Open(OpenArray())) == Failed(Some(0), Cursor(OpenArray(), 2, None, 3))
    ensures ParseTokens(OpenArray()) == Outcome(None, Error(Success, 0))
    ensures ParseTokensStrict(OpenArray()) == Outcome(None, Error(ErrorGeneral, 0))
  {
    var ts := OpenArray();
    var c2 := Cursor(ts, 2, None, 2);
    var one := [ArrayElem(2, 0, NumberNode(2, [0x31]))];
    assert ArrayLoop(c2, AfterValue, 1, one) == Failed(Some(0), Cursor(ts, 2, None, 3));
    assert ParseValue(UnreadToken(c2, ts[1])) == Done(NumberNode(2, [0x31]), c2);
    assert ArrayLoop(Cursor(ts, 1, None, 1), AfterBeginArray, 1, []) == Failed(Some(0), Cursor(ts, 2, None, 3));
    assert ParseValue(Open(ts)) == ParseArray(UnreadToken(Cursor(ts, 1, None, 1), ts[0]));
  }

  /** The tokens of `{"a":1`: the name's ordinal is its opening quote. */
  function OpenObject(): seq<Token> {
    [Token(1, BeginObject), Token(2, StringToken([0x61])), Token(5, NameSep), Token(6, NumberToken([0x31]))]
  }

  /** `{"a":1`: after the member the object loop reads NULL and records ordinal 0. */
  lemma ObjectCutShort()
    ensures ParseValue(Open(OpenObject())) == Failed(Some(0), Cursor(OpenObject(), 4, None, 5))
    ensures ParseTokens(OpenObject()) == Outcome(None, Error(Success, 0))
    ensures ParseTokensStrict(OpenObject()) == Outcome(None, Error(ErrorGeneral, 0))
  {
    var ts := OpenObject();
    var c4 := Cursor(ts, 4, None, 4);
    var one := [ObjectElem(6, [0x61], NumberNode(6, [0x31]))];
    assert ObjectLoop(c4, AfterMember, 1, one) == Failed(Some(0), Cursor(ts, 4, None, 5));
    assert ParseValue(UnreadToken(c4, ts[3])) == Done(NumberNode(6, [0x31]), c4);
    assert ObjectLoop(Cursor(ts, 3, None, 3), AfterNameSep([0x61]), 1, []) == Failed(Some(0), Cursor(ts, 4, None, 5));
    assert ObjectLoop(Cursor(ts, 1, None, 1), AfterBeginObject, 1, []) == Failed(Some(0), Cursor(ts, 4, None, 5));
    assert ParseValue(Open(ts)) == ParseObject(UnreadToken(Cursor(ts, 1, None, 1), ts[0]));
  }
}

=== FILE: lexer.dfy ===
/**
  The keyword lexers and the dispatch loop `lexer_lex` (jsonmodoki.c:217-252,
  818-898). The loop reads a character, skips whitespace, makes a token of
  each punctuation character on the spot, and for the first character of a
  keyword, number or string pushes it back and hands over to the sub-lexer.
  It stops at EOF with SUCCESS or at the first error.
 */
module Lexer {
  import opened Chars
  import opened Types
  import opened ByteSource
  import opened Scan
  import opened NumberLexer
  import opened StringLexer

  const NULL_WORD: seq<Byte> := ['n' as int, 'u' as int, 'l' as int, 'l' as int]
  const TRUE_WORD: seq<Byte> := ['t' as int, 'r' as int, 'u' as int, 'e' as int]
  const FALSE_WORD: seq<Byte> := ['f' as int, 'a' as int, 'l' as int, 's' as int, 'e' as int]

  /** The length of the longest common prefix of `w` and `u`. */
  function CommonPrefix(w: seq<Byte>, u: seq<Byte>): (n: nat)
    ensures n <= |w| && n <= |u|
    ensures forall i :: 0 <= i < n ==> w[i] == u[i]
    ensures n < |w| && n < |u| ==> w[n] != u[n]
  {
    if |w| == 0 || |u| == 0 || w[0] != u[0] then 0 else 1 + CommonPrefix(w[1..], u[1..])
  }

  /** A word starts `[w[0]] + u1` exactly when its tail starts `u1`. */
  lemma PrefixStep(w: seq<Byte>, u: seq<Byte>, u1: seq<Byte>)
    requires |w| > 0 && u == [w[0]] + u1
    ensures w <= u <==> w[1..] <= u1
    ensures w[1..] <= u1 ==> u1[|w| - 1..] == u[|w|..]
    ensures CommonPrefix(w, u) == 1 + CommonPrefix(w[1..], u1)
  {
    assert u[1..] == u1;
    if w[1..] <= u1 {
      assert w == [w[0]] + w[1..];
    }
  }

  /** Each `lexer_expected` of a keyword in turn: the octets of `w`, one by one. */
  function MatchWord(s: Source, w: seq<Byte>): (r: Result<Source>)
    requires SourceValid(s)
    decreases |w|
  {
    if |w| == 0 then Ok(s)
    else
      var e := Expect(s, w[0]);
      if e.Err? then Err(e.error) else MatchWord(e.value, w[1..])
  }

  /**
    The octets match exactly when `w` is a prefix of the text, and then the
    text continues after `w`; otherwise the error names the first octet
    that differs, or the end of the text.
   */
  lemma {:induction false} MatchWordSpec(s: Source, w: seq<Byte>)
    requires SourceValid(s)
    ensures Matched(s, w, MatchWord(s, w))
    decreases |w|
  {
    if |w| > 0 {
      var e := Expect(s, w[0]);
      if e.Err? {
        MatchMiss(s, w);
      } else {
        MatchWordSpec(e.value, w[1..]);
        MatchRest(s, e.value, w, MatchWord(e.value, w[1..]));
      }
    }
  }

  /** What matching the octets of `w` from `s` promises of its result `r`. */
  predicate Matched(s: Source, w: seq<Byte>, r: Result<Source>)
    requires SourceValid(s)
  {
    && (r.Ok? <==> w <= Upcoming(s))
    && (r.Ok? ==> Advances(s, r.value) && Upcoming(r.value) == Upcoming(s)[|w|..]
                  && (|w| > 0 ==> r.value.slot.None?))
    && (r.Err? ==> r.error == Error(ErrorGeneral, s.ordinal + CommonPrefix(w, Upcoming(s)) + 1))
  }

  /** A first octet that is not the next character fails at once, at the character read. */
  lemma MatchMiss(s: Source, w: seq<Byte>)
    requires SourceValid(s) && |w| > 0 && Expect(s, w[0]).Err?
    ensures Matched(s, w, Err(Expect(s, w[0]).error))
  {
  }

  /** After the first octet matched, what the rest of the word found holds for the whole word. */
  lemma MatchRest(s: Source, s1: Source, w: seq<Byte>, r: Result<Source>)
    requires SourceValid(s) && |w| > 0 && Expect(s, w[0]) == Ok(s1)
    requires Matched(s1, w[1..], r) && (|w| == 1 ==> r == Ok(s1))
    ensures Matched(s, w, r)
  {
    PrefixStep(w, Upcoming(s), Upcoming(s1));
    if r.Ok? {
      AdvancesTrans(s, s1, r.value);
    }
  }

  /**
    `lexer_lex_null`, `lexer_lex_true` and `lexer_lex_false`: the keyword,
    then a character that ends a value, which is pushed back. The token's
    ordinal is that of the keyword's first letter; an error's is that of the
    first character that does not fit.
   */
  function LexKeyword(s: Source, w: seq<Byte>, kind: TokenKind): (r: Result<(Token, Source)>)
    requires SourceValid(s) && |w| > 0
    ensures KeywordLexed(s, w, kind, r)
  {
    var m := MatchWord(s, w);
    MatchWordSpec(s, w);
    if m.Err? then Err(m.error)
    else
      var p := PeekEndValue(m.value);
      KeywordEnd(s, w, m.value, p);
      if p.Err? then Err(p.error)
      else Ok((Token(s.ordinal + 1, kind), p.value))
  }

  /**
    What a keyword lexer promises: it succeeds exactly when the keyword is
    next and an end of value follows it, and then the text continues after
    the keyword; a failure names the first character that does not fit.
   */
  predicate KeywordLexed(s: Source, w: seq<Byte>, kind: TokenKind, r: Result<(Token, Source)>)
    requires SourceValid(s)
  {
    && (r.Ok? <==> w <= Upcoming(s) && EndValueNext(Upcoming(s)[|w|..]))
    && (r.Ok? ==> && Advances(s, r.value.1) && r.value.0 == Token(s.ordinal + 1, kind)
                  && Upcoming(r.value.1) == Upcoming(s)[|w|..])
    && (r.Err? ==> r.error == Error(ErrorGeneral, s.ordinal + 1 +
                                (if w <= Upcoming(s) then |w| else CommonPrefix(w, Upcoming(s)))))
  }

  /** Past a matched keyword the ordinal has moved by its length, and the peek after it keeps the text's place. */
  lemma KeywordEnd(s: Source, w: seq<Byte>, m: Source, p: Result<Source>)
    requires SourceValid(s) && Advances(s, m) && w <= Upcoming(s) && Upcoming(m) == Upcoming(s)[|w|..]
    requires p.Ok? ==> Advances(m, p.value) && Upcoming(p.value) == Upcoming(m)
    ensures m.ordinal == s.ordinal + |w|
    ensures p.Ok? ==> Advances(s, p.value) && Upcoming(p.value) == Upcoming(s)[|w|..]
  {
    UpcomingLength(s);
    UpcomingLength(m);
    if p.Ok? {
      AdvancesTrans(s, m, p.value);
    }
  }

  /** The token a punctuation character stands for on its own. */
  function Punctuation(c: int): Option<TokenKind> {
    if c == '[' as int then Some(BeginArray)
    else if c == '{' as int then Some(BeginObject)
    else if c == ']' as int then Some(EndArray)
    else if c == '}' as int then Some(EndObject)
    else if c == ':' as int then Some(NameSep)
    else if c == ',' as int then Some(ValueSep)
    else None
  }

  /** The characters `lexer_lex` hands to a sub-lexer after pushing them back. */
  predicate StartsLexeme(c: int) {
    c == 'n' as int || c == 't' as int || c == 'f' as int || IsDigit(c) || c == '-' as int || c == QUOTE
  }

  /** The text of the token kind `k` begins at index `i` of `u`. */
  predicate TextAt(u: seq<Byte>, i: nat, k: TokenKind) {
    && i < |u|
    && match k
       case NullToken => NULL_WORD <= u[i..]
       case BoolToken(b) => (if b then TRUE_WORD else FALSE_WORD) <= u[i..]
       case NumberToken(lexeme) => IsNumber(lexeme) && lexeme <= u[i..]
       case StringToken(_) => u[i] == QUOTE
       case _ => Punctuation(u[i]) == Some(k)
  }

  /** A token's 1-based ordinal points at its own text in `u`. */
  predicate TokenAtText(u: seq<Byte>, t: Token) {
    t.ordinal >= 1 && TextAt(u, t.ordinal - 1, t.kind)
  }

  predicate Increasing(ts: seq<Token>) {
    forall i, j :: 0 <= i < j < |ts| ==> ts[i].ordinal < ts[j].ordinal
  }

  /** Tokens in text order, each at its own text, none past ordinal `n`. */
  predicate TokensUpTo(u: seq<Byte>, ts: seq<Token>, n: nat) {
    && Increasing(ts)
    && forall i :: 0 <= i < |ts| ==> TokenAtText(u, ts[i]) && ts[i].ordinal <= n
  }

  /** A token placed at ordinal `n + 1` extends a list that stops at `n`. */
  lemma Extend(u: seq<Byte>, ts: seq<Token>, n: nat, t: Token, m: nat)
    requires TokensUpTo(u, ts, n) && TokenAtText(u, t) && t.ordinal == n + 1 <= m
    ensures TokensUpTo(u, ts + [t], m)
  {
  }

  /** What a sub-lexer guarantees to `lexer_lex`. */
  predicate LexemeOutcome(s: Source, r: Result<(Token, Source)>)
    requires SourceValid(s)
  {
    && (r.Ok? ==> && Advances(s, r.value.1) && Consumed(r.value.1) > Consumed(s)
                  && r.value.0.ordinal == s.ordinal + 1 && TextAt(s.input, Consumed(s), r.value.0.kind))
    && (r.Err? ==> r.error.kind == ErrorGeneral && s.ordinal < r.error.ordinal <= s.ordinal + |Upcoming(s)| + 1)
  }

  /** The three keyword tokens and their words. */
  predicate IsKeyword(w: seq<Byte>, kind: TokenKind) {
    || (w == NULL_WORD && kind == NullToken)
    || (w == TRUE_WORD && kind == BoolToken(true))
    || (w == FALSE_WORD && kind == BoolToken(false))
  }

  lemma KeywordOutcome(s: Source, w: seq<Byte>, kind: TokenKind)
    requires SourceValid(s) && IsKeyword(w, kind)
    ensures LexemeOutcome(s, LexKeyword(s, w, kind))
  {
    KeywordResult(s, w, kind, LexKeyword(s, w, kind));
  }

  /** Any result with the keyword lexer's guarantees is a lexeme outcome. */
  lemma KeywordResult(s: Source, w: seq<Byte>, kind: TokenKind, r: Result<(Token, Source)>)
    requires SourceValid(s) && IsKeyword(w, kind) && KeywordLexed(s, w, kind, r)
    ensures LexemeOutcome(s, r)
  {
    UpcomingLength(s);
    if r.Ok? {
      UpcomingLength(r.value.1);
      assert Upcoming(s) == s.input[Consumed(s)..];
    }
  }

  lemma NumberOutcome(conv: seq<Byte> -> bool, s: Source)
    requires SourceValid(s)
    ensures LexemeOutcome(s, LexNumber(conv, s))
  {
    var r := LexNumber(conv, s);
    if r.Ok? {
      var lexeme := r.value.0.kind.lexeme;
      assert |lexeme| > 0;
      assert lexeme <= Upcoming(s);
      assert Upcoming(s) == s.input[Consumed(s)..];
    }
  }

  lemma StringOutcome(s: Source)
    requires SourceValid(s)
    ensures LexemeOutcome(s, LexString(s))
  {
  }

  /** The sub-lexer the `switch` of `lexer_lex` selects for a character pushed back at `s`. */
  function LexLexeme(conv: seq<Byte> -> bool, s: Source, c: Byte): (r: Result<(Token, Source)>)
    requires SourceValid(s) && HeadOrEof(Upcoming(s)) == c && StartsLexeme(c)
    ensures LexemeOutcome(s, r)
  {
    if c == 'n' as int then KeywordOutcome(s, NULL_WORD, NullToken); LexKeyword(s, NULL_WORD, NullToken)
    else if c == 't' as int then KeywordOutcome(s, TRUE_WORD, BoolToken(true)); LexKeyword(s, TRUE_WORD, BoolToken(true))
    else if c == 'f' as int then KeywordOutcome(s, FALSE_WORD, BoolToken(false)); LexKeyword(s, FALSE_WORD, BoolToken(false))
    else if c == QUOTE then StringOutcome(s); LexString(s)
    else NumberOutcome(conv, s); LexNumber(conv, s)
  }

  /** What `lexer_lex` leaves behind: the token list and the error record. */
  datatype Lexed = Lexed(tokens: seq<Token>, error: Error)

  /**
    The tokens come in text order, each at its own text, all before the place
    where lexing stopped; SUCCESS is recorded only past the end of the text.
   */
  predicate LexedWell(u: seq<Byte>, r: Lexed) {
    && 1 <= r.error.ordinal <= |u| + 1
    && TokensUpTo(u, r.tokens, r.error.ordinal - 1)
    && (r.error.kind == Success ==> r.error.ordinal == |u| + 1)
  }

  /** What one pass of the loop body of `lexer_lex` does. */
  datatype Pass = Stop(error: Error) | Skip(next: Source) | Add(token: Token, next: Source)

  /** The source a pass continues from stays in step and has less left to read. */
  predicate Continues(s: Source, s1: Source)
    requires SourceValid(s)
  {
    SourceValid(s1) && Synced(s1) && s1.input == s.input && |Upcoming(s1)| < |Upcoming(s)|
  }

  /**
    One pass of the `for (;;)` body: read a character and act on it. An
    error or SUCCESS is recorded after the characters read so far, SUCCESS
    only at EOF; a token added sits at the character just read.
   */
  function LexPass(conv: seq<Byte> -> bool, s: Source): (p: Pass)
    requires SourceValid(s) && Synced(s)
    ensures p.Stop? ==> && Consumed(s) < p.error.ordinal <= |s.input| + 1
                        && (p.error.kind == Success <==> Upcoming(s) == [])
                        && (p.error.kind == Success ==> p.error.ordinal == |s.input| + 1)
    ensures p.Skip? ==> Continues(s, p.next) && IsWhitespace(s.input[Consumed(s)])
    ensures p.Add? ==> && Continues(s, p.next) && p.token.ordinal == Consumed(s) + 1
                       && TokenAtText(s.input, p.token) && Consumed(p.next) >= p.token.ordinal
    ensures var i := Consumed(s);
            i < |s.input| && !IsWhitespace(s.input[i]) && !StartsLexeme(s.input[i]) && Punctuation(s.input[i]).None?
            ==> p == Stop(Error(ErrorGeneral, i + 1))
  {
    var (c, s1) := Read(s);
    if c == EOF then Stop(Error(Success, s1.ordinal))
    else if IsWhitespace(c) then
      ReadAdvances(s);
      Skip(s1)
    else if StartsLexeme(c) then
      var s2 := Unread(s1, c);
      var sub := LexLexeme(conv, s2, c);
      LexemeStep(s, c, s1, sub);
      if sub.Err? then Stop(sub.error) else Add(sub.value.0, sub.value.1)
    else if Punctuation(c).Some? then
      PunctuationStep(s, c, s1);
      Add(Token(s1.ordinal, Punctuation(c).value), s1)
    else
      UpcomingLength(s);
      Stop(Error(ErrorGeneral, s1.ordinal))
  }

  /** A sub-lexer's outcome, from the character `lexer_lex` pushed back, is a pass's outcome. */
  lemma LexemeStep(s: Source, c: Byte, s1: Source, r: Result<(Token, Source)>)
    requires SourceValid(s) && Synced(s) && Read(s) == (c, s1) && LexemeOutcome(Unread(s1, c), r)
    ensures Upcoming(s) != []
    ensures r.Err? ==> Consumed(s) < r.error.ordinal <= |s.input| + 1 && r.error.kind != Success
    ensures r.Ok? ==> && Continues(s, r.value.1) && r.value.0.ordinal == Consumed(s) + 1
                      && TokenAtText(s.input, r.value.0) && Consumed(r.value.1) >= r.value.0.ordinal
  {
    UpcomingLength(s);
    if r.Ok? {
      UpcomingLength(r.value.1);
    }
  }

  /** A punctuation character is a token on its own, at the character just read. */
  lemma PunctuationStep(s: Source, c: Byte, s1: Source)
    requires SourceValid(s) && Synced(s) && Read(s) == (c, s1) && Punctuation(c).Some?
    ensures Continues(s, s1) && s1.ordinal == Consumed(s) + 1 && Consumed(s1) >= s1.ordinal
    ensures TokenAtText(s.input, Token(s1.ordinal, Punctuation(c).value))
  {
    UpcomingLength(s);
    UpcomingLength(s1);
    assert s.input[Consumed(s)] == c;
  }

  /** The `for (;;)` loop of `lexer_lex`, with the tokens added so far. */
  function LexFrom(conv: seq<Byte> -> bool, s: Source, acc: seq<Token>): (r: Lexed)
    requires SourceValid(s) && Synced(s) && TokensUpTo(s.input, acc, Consumed(s))
    ensures acc <= r.tokens
    ensures LexedWell(s.input, r)
    decreases |Upcoming(s)|
  {
    match LexPass(conv, s)
    case Stop(e) => Lexed(acc, e)
    case Skip(s1) => LexFrom(conv, s1, acc)
    case Add(t, s1) =>
      Extend(s.input, acc, Consumed(s), t, Consumed(s1));
      LexFrom(conv, s1, acc + [t])
  }

  /** `lexer_new_with_string` followed by `lexer_lex`. */
  function Lex(conv: seq<Byte> -> bool, text: seq<Byte>): (r: Lexed)
    ensures LexedWell(text[..CStrLen(text)], r)
  {
    LexFrom(conv, FromString(text), [])
  }

  // The token syntax stated over the text by index, without a byte source,
  // a pushback slot or a state machine: each lexeme is a keyword, the
  // number grammar or the string grammar, up to the next end of value.

  /** The longest prefix of `u` that holds no character ending a value. */
  function Word(u: seq<Byte>): (w: seq<Byte>)
    ensures w <= u
    ensures forall k :: 0 <= k < |w| ==> !IsEndValue(w[k])
    ensures EndValueNext(u[|w|..])
  {
    if |u| == 0 || IsEndValue(u[0]) then [] else [u[0]] + Word(u[1..])
  }

  /** A word free of end-of-value characters is the `Word` exactly when a character ending a value follows it. */
  lemma {:induction false} WordIs(u: seq<Byte>, w: seq<Byte>)
    requires forall k :: 0 <= k < |w| ==> !IsEndValue(w[k])
    ensures Word(u) == w <==> w <= u && EndValueNext(u[|w|..])
    decreases |w|
  {
    if w <= u && EndValueNext(u[|w|..]) && |w| > 0 {
      WordIs(u[1..], w[1..]);
      assert u[1..][|w| - 1..] == u[|w|..];
      assert w[1..] <= u[1..];
      assert w == [u[0]] + w[1..];
    }
  }

  /** What the token syntax says about the text at `i`. */
  datatype Scanned = AtEnd | Blank | Lexeme(kind: TokenKind, next: nat) | Bad(at: nat)

  /** Where a keyword lexer fails at `i`: the first character that differs, or the one after the keyword. */
  function KeywordStop(w: seq<Byte>, u: seq<Byte>, i: nat): nat
    requires i <= |u|
  {
    i + if w <= u[i..] then |w| else CommonPrefix(w, u[i..])
  }

  /** The string lexeme whose opening quote is at `i`: its body and the index after it, or where it goes wrong. */
  function StringScan(u: seq<Byte>, i: nat): (r: Scanned)
    requires i < |u|
    ensures r.Lexeme? ==> i < r.next <= |u|
    ensures r.Bad? ==> i <= r.at <= |u|
  {
    var b := Body(u, i + 1);
    if b.Closed? && EndValueNext(u[b.next..]) then Lexeme(StringToken(b.out), b.next)
    else Bad(if b.Stuck? then b.at else b.next)
  }

  /** The number lexeme at `i`: the word there when it is a number `strtod` takes, else where it goes wrong. */
  function NumberScan(conv: seq<Byte> -> bool, u: seq<Byte>, i: nat): (r: Scanned)
    requires i <= |u|
  {
    var w := Word(u[i..]);
    if IsNumber(w) && conv(w) then Lexeme(NumberToken(w), i + |w|)
    else Bad(i + NumberStop(u[i..]))
  }

  /** The keyword lexeme `w` at `i`: the keyword when the word there is `w`, else where it goes wrong. */
  function KeywordScan(w: seq<Byte>, kind: TokenKind, u: seq<Byte>, i: nat): Scanned
    requires i <= |u|
  {
    if Word(u[i..]) == w then Lexeme(kind, i + |w|) else Bad(KeywordStop(w, u, i))
  }

  /**
    The lexeme that starts with the character at `i` (one that `lexer_lex`
    hands to a sub-lexer): its token kind and the index after it, or the
    index of the character where the lexeme goes wrong.
   */
  function LexemeAt(conv: seq<Byte> -> bool, u: seq<Byte>, i: nat): (r: Scanned)
    requires i < |u|
    ensures r.Lexeme? || r.Bad?
    ensures r.Lexeme? ==> i < r.next <= |u|
    ensures r.Bad? ==> i <= r.at <= |u|
  {
    if u[i] == 'n' as int then KeywordScan(NULL_WORD, NullToken, u, i)
    else if u[i] == 't' as int then KeywordScan(TRUE_WORD, BoolToken(true), u, i)
    else if u[i] == 'f' as int then KeywordScan(FALSE_WORD, BoolToken(false), u, i)
    else if u[i] == QUOTE then StringScan(u, i)
    else NumberScan(conv, u, i)
  }

  function ScanAt(conv: seq<Byte> -> bool, u: seq<Byte>, i: nat): (r: Scanned)
    requires i <= |u|
    ensures r.Lexeme? ==> i < r.next <= |u|
  {
    if i == |u| then AtEnd
    else if IsWhitespace(u[i]) then Blank
    else if StartsLexeme(u[i]) then LexemeAt(conv, u, i)
    else if Punctuation(u[i]).Some? then Lexeme(Punctuation(u[i]).value, i + 1)
    else Bad(i)
  }

  /** The tokens of `u` from index `i` on, or None if some character does not fit. */
  function Tokenize(conv: seq<Byte> -> bool, u: seq<Byte>, i: nat): Option<seq<Token>>
    requires i <= |u|
    decreases |u| - i
  {
    match ScanAt(conv, u, i)
    case AtEnd => Some([])
    case Blank => Tokenize(conv, u, i + 1)
    case Lexeme(k, j) =>
      var rest := Tokenize(conv, u, j);
      if rest.Some? then Some([Token(i + 1, k)] + rest.value) else None
    case Bad(_) => None
  }

  /** A keyword lexer succeeds exactly on its word standing alone. */
  lemma KeywordAgrees(s: Source, w: seq<Byte>, kind: TokenKind)
    requires SourceValid(s) && IsKeyword(w, kind)
    ensures LexKeyword(s, w, kind).Ok? <==> Word(Upcoming(s)) == w
    ensures LexKeyword(s, w, kind).Ok? ==> Consumed(LexKeyword(s, w, kind).value.1) == Consumed(s) + |w|
  {
    WordIs(Upcoming(s), w);
    var r := LexKeyword(s, w, kind);
    if r.Ok? {
      UpcomingLength(s);
      UpcomingLength(r.value.1);
    }
  }

  /** What the number lexer reads is the word at the front, and a number. */
  lemma NumberSound(conv: seq<Byte> -> bool, s: Source)
    requires SourceValid(s) && LexNumber(conv, s).Ok?
    ensures var r := LexNumber(conv, s);
            && r.value.0.kind == NumberToken(Word(Upcoming(s)))
            && Consumed(r.value.1) == Consumed(s) + |Word(Upcoming(s))|
  {
    var u := Upcoming(s);
    var r := LexNumber(conv, s);
    var lexeme := r.value.0.kind.lexeme;
    NumberAvoidsEnd(lexeme);
    CancelPrefix(lexeme, u[|lexeme|..], Upcoming(r.value.1));
    WordIs(u, lexeme);
    UpcomingLength(s);
    UpcomingLength(r.value.1);
  }

  /** The number lexer succeeds exactly on a number standing alone that `strtod` accepts. */
  lemma NumberAgrees(conv: seq<Byte> -> bool, s: Source)
    requires SourceValid(s)
    ensures var w := Word(Upcoming(s));
            LexNumber(conv, s).Ok? <==> IsNumber(w) && conv(w)
    ensures var w := Word(Upcoming(s));
            LexNumber(conv, s).Ok? ==> (&& LexNumber(conv, s).value.0.kind == NumberToken(w)
                                       && Consumed(LexNumber(conv, s).value.1) == Consumed(s) + |w|)
  {
    var u := Upcoming(s);
    var w := Word(u);
    if LexNumber(conv, s).Ok? {
      NumberSound(conv, s);
    } else if IsNumber(w) && conv(w) {
      PrefixSplit(w, u);
      LexNumberComplete(conv, s, w, u[|w|..]);
    }
  }

  /** The string lexer succeeds exactly on a string of the grammar standing alone. */
  lemma StringAgrees(s: Source)
    requires SourceValid(s) && HeadOrEof(Upcoming(s)) == QUOTE
    ensures var b := Body(s.input, Consumed(s) + 1);
            LexString(s).Ok? <==> b.Closed? && EndValueNext(s.input[b.next..])
    ensures var b := Body(s.input, Consumed(s) + 1);
            LexString(s).Ok? ==> (&& LexString(s).value.0.kind == StringToken(b.out)
                                 && Consumed(LexString(s).value.1) == b.next)
    ensures LexString(s).Err? ==> LexString(s).error == Error(ErrorGeneral, s.ordinal + 1 + StringStop(s) - Consumed(s))
  {
    LexStringMatchesBody(s);
    assert StringAt(s) == Body(s.input, Consumed(s) + 1);
    if LexString(s).Ok? {
      LexedStringEnds(LexString(s), s);
    }
  }

  lemma LexedStringEnds(r: Result<(Token, Source)>, s: Source)
    requires SourceValid(s) && LexedString(r, s) && r.Ok? && r.value.1.input == s.input
    ensures Consumed(r.value.1) == StringAt(s).next
  {
    UpcomingLength(r.value.1);
  }

  /**
    A sub-lexer's outcome and the syntax's lexeme agree: same token kind,
    same end; or both fail, and the error names the character the syntax
    points at.
   */
  predicate SameLexeme(s: Source, r: Result<(Token, Source)>, l: Scanned)
    requires SourceValid(s)
  {
    && (r.Ok? <==> l.Lexeme?)
    && (r.Ok? ==> r.value.0.kind == l.kind && SourceValid(r.value.1) && Consumed(r.value.1) == l.next)
    && (r.Err? ==> l.Bad? && r.error.kind == ErrorGeneral && r.error.ordinal + Consumed(s) == s.ordinal + 1 + l.at)
  }

  /** A keyword lexer reads exactly the keyword lexeme of the syntax. */
  lemma KeywordLexeme(s: Source, w: seq<Byte>, kind: TokenKind)
    requires SourceValid(s) && IsKeyword(w, kind)
    ensures SameLexeme(s, LexKeyword(s, w, kind), KeywordScan(w, kind, s.input, Consumed(s)))
  {
    KeywordAgrees(s, w, kind);
    KeywordSame(s, w, kind, LexKeyword(s, w, kind));
  }

  lemma KeywordSame(s: Source, w: seq<Byte>, kind: TokenKind, r: Result<(Token, Source)>)
    requires SourceValid(s) && KeywordLexed(s, w, kind, r)
    requires r.Ok? <==> Word(Upcoming(s)) == w
    requires r.Ok? ==> Consumed(r.value.1) == Consumed(s) + |w|
    ensures SameLexeme(s, r, KeywordScan(w, kind, s.input, Consumed(s)))
  {
    assert s.input[Consumed(s)..] == Upcoming(s);
  }

  /** The number lexer reads exactly the number lexeme of the syntax. */
  lemma NumberLexeme(conv: seq<Byte> -> bool, s: Source)
    requires SourceValid(s)
    ensures SameLexeme(s, LexNumber(conv, s), NumberScan(conv, s.input, Consumed(s)))
  {
    NumberAgrees(conv, s);
    NumberSame(conv, s, LexNumber(conv, s));
  }

  lemma NumberSame(conv: seq<Byte> -> bool, s: Source, r: Result<(Token, Source)>)
    requires SourceValid(s)
    requires var w := Word(Upcoming(s));
             && (r.Ok? <==> IsNumber(w) && conv(w))
             && (r.Ok? ==> r.value.0.kind == NumberToken(w) && SourceValid(r.value.1)
                           && Consumed(r.value.1) == Consumed(s) + |w|)
             && (r.Err? ==> r.error == Error(ErrorGeneral, s.ordinal + 1 + NumberStop(Upcoming(s))))
    ensures SameLexeme(s, r, NumberScan(conv, s.input, Consumed(s)))
  {
    assert s.input[Consumed(s)..] == Upcoming(s);
  }

  /** The string lexer reads exactly the string lexeme of the syntax. */
  lemma StringLexeme(s: Source)
    requires SourceValid(s) && HeadOrEof(Upcoming(s)) == QUOTE
    ensures SameLexeme(s, LexString(s), StringScan(s.input, Consumed(s)))
  {
    StringAgrees(s);
    StringSame(s, LexString(s), Body(s.input, Consumed(s) + 1));
  }

  lemma StringSame(s: Source, r: Result<(Token, Source)>, b: Decoded)
    requires SourceValid(s) && HeadOrEof(Upcoming(s)) == QUOTE && b == Body(s.input, Consumed(s) + 1)
    requires r.Ok? <==> b.Closed? && EndValueNext(s.input[b.next..])
    requires r.Ok? ==> && r.value.0.kind == StringToken(b.out) && SourceValid(r.value.1)
                       && Consumed(r.value.1) == b.next
    requires r.Err? ==> r.error == Error(ErrorGeneral, s.ordinal + 1 + StringStop(s) - Consumed(s))
    ensures SameLexeme(s, r, StringScan(s.input, Consumed(s)))
  {
    assert StringAt(s) == b;
  }

  /** The sub-lexer `lexer_lex` picks reads exactly the lexeme of the token syntax. */
  lemma LexemeAgrees(conv: seq<Byte> -> bool, s: Source, c: Byte)
    requires SourceValid(s) && HeadOrEof(Upcoming(s)) == c && StartsLexeme(c)
    ensures SameLexeme(s, LexLexeme(conv, s, c), LexemeAt(conv, s.input, Consumed(s)))
  {
    assert s.input[Consumed(s)..] == Upcoming(s);
    if c == 'n' as int {
      KeywordLexeme(s, NULL_WORD, NullToken);
    } else if c == 't' as int {
      KeywordLexeme(s, TRUE_WORD, BoolToken(true));
    } else if c == 'f' as int {
      KeywordLexeme(s, FALSE_WORD, BoolToken(false));
    } else if c == QUOTE {
      StringLexeme(s);
    } else {
      NumberLexeme(conv, s);
    }
  }

  /**
    One pass of `lexer_lex` does what the token syntax says about the
    character it reads, and an error names the character the syntax
    points at.
   */
  lemma PassAgrees(conv: seq<Byte> -> bool, s: Source)
    requires SourceValid(s) && Synced(s)
    ensures PassMatches(LexPass(conv, s), ScanAt(conv, s.input, Consumed(s)), Consumed(s))
  {
    var i := Consumed(s);
    if i < |s.input| && !IsWhitespace(s.input[i]) && StartsLexeme(s.input[i]) {
      PassLexeme(conv, s);
    }
  }

  /**
    A pass `p` at index `i` does what the token syntax says there: end,
    blank, the lexeme up to its end, or a general error at the ordinal of
    the character where the syntax goes wrong.
   */
  predicate PassMatches(p: Pass, l: Scanned, i: nat) {
    match l
    case AtEnd => p.Stop? && p.error.kind == Success
    case Blank => p.Skip? && SourceValid(p.next) && Consumed(p.next) == i + 1
    case Lexeme(k, j) => p.Add? && p.token == Token(i + 1, k) && SourceValid(p.next) && Consumed(p.next) == j
    case Bad(at) => p == Stop(Error(ErrorGeneral, at + 1))
  }

  /** A pass on a character that starts a lexeme is what the sub-lexer gives. */
  lemma PassLexeme(conv: seq<Byte> -> bool, s: Source)
    requires SourceValid(s) && Synced(s)
    requires Consumed(s) < |s.input| && !IsWhitespace(s.input[Consumed(s)]) && StartsLexeme(s.input[Consumed(s)])
    ensures PassMatches(LexPass(conv, s), LexemeAt(conv, s.input, Consumed(s)), Consumed(s))
  {
    var (c, s1) := Read(s);
    var s2 := Unread(s1, c);
    var r := LexLexeme(conv, s2, c);
    LexemeAgrees(conv, s2, c);
    assert LexPass(conv, s) == if r.Err? then Stop(r.error) else Add(r.value.0, r.value.1);
    LexemePass(s2, r, LexemeAt(conv, s.input, Consumed(s)));
  }

  lemma LexemePass(s: Source, r: Result<(Token, Source)>, l: Scanned)
    requires SourceValid(s) && Synced(s) && LexemeOutcome(s, r) && SameLexeme(s, r, l)
    ensures PassMatches(if r.Err? then Stop(r.error) else Add(r.value.0, r.value.1), l, Consumed(s))
  {
  }

  /** The outcome of lexing, after a token, against the syntax's tokens after it. */
  predicate LexesAs(r: Lexed, acc: seq<Token>, t: Option<seq<Token>>) {
    && (r.error.kind == Success <==> t.Some?)
    && (t.Some? ==> r.tokens == acc + t.value)
  }

  lemma LexesAfter(r: Lexed, acc: seq<Token>, t: Token, rest: Option<seq<Token>>)
    requires LexesAs(r, acc + [t], rest)
    ensures LexesAs(r, acc, if rest.Some? then Some([t] + rest.value) else None)
  {
    if rest.Some? {
      assert acc + [t] + rest.value == acc + ([t] + rest.value);
    }
  }

  /**
    `lexer_lex` ends in SUCCESS exactly when the rest of the text is a run
    of tokens of the token syntax, and then it has added exactly those.
   */
  lemma {:induction false} LexFromTokenizes(conv: seq<Byte> -> bool, s: Source, acc: seq<Token>)
    requires SourceValid(s) && Synced(s) && TokensUpTo(s.input, acc, Consumed(s))
    ensures LexesAs(LexFrom(conv, s, acc), acc, Tokenize(conv, s.input, Consumed(s)))
    decreases |Upcoming(s)|
  {
    PassAgrees(conv, s);
    match LexPass(conv, s)
    case Stop(e) =>
    case Skip(s1) =>
      LexFromTokenizes(conv, s1, acc);
    case Add(t, s1) =>
      Extend(s.input, acc, Consumed(s), t, Consumed(s1));
      LexFromTokenizes(conv, s1, acc + [t]);
      LexesAfter(LexFrom(conv, s1, acc + [t]), acc, t, Tokenize(conv, s.input, Consumed(s1)));
  }

  /** The whole reader's lexer: SUCCESS exactly on text the token syntax covers, with its tokens. */
  lemma LexTokenizes(conv: seq<Byte> -> bool, text: seq<Byte>)
    ensures var u := text[..CStrLen(text)];
            var t := Tokenize(conv, u, 0);
            && (Lex(conv, text).error.kind == Success <==> t.Some?)
            && (t.Some? ==> Lex(conv, text).tokens == t.value)
  {
    LexFromTokenizes(conv, FromString(text), []);
  }
}

=== FILE: numberlexer.dfy ===
/**
  `lexer_lex_number` (jsonmodoki.c:254-459): a nine-state machine over the
  number grammar of section 6 of RFC 8259. Every accepted octet goes into the
  token buffer (which then holds exactly those octets, see
  `StringBuf.FreshAddChars`); an end-of-value character in an accepting state is pushed
  back and ends the lexeme, which `strtod` then converts. The conversion is
  the parameter `conv`: it says whether `strtod` accepts the whole lexeme
  without a range error.
 */
module NumberLexer {
  import opened Chars
  import opened Types
  import opened ByteSource

  /** `enum state` of `lexer_lex_number`. */
  datatype State =
    | Begin
    | AfterMinus
    | AfterZero
    | IntDigitRest
    | FracDigitFirst
    | FracDigitRest
    | ExpBegin
    | ExpDigitFirst
    | ExpDigitRest

  /** What one `switch` arm does: append and move on, stop at the end of the value, or fail. */
  datatype Action = Append(next: State) | Finish | Reject

  /** The states with a `case_end_value` arm. */
  predicate Accepting(st: State) {
    st.AfterZero? || st.IntDigitRest? || st.FracDigitRest? || st.ExpDigitRest?
  }

  predicate IsExpMark(c: int) {
    c == 'e' as int || c == 'E' as int
  }

  predicate IsSign(c: int) {
    c == '+' as int || c == '-' as int
  }

  /** The body of the `for (;;)` loop: the arm of `switch (st)` that character `c` selects. */
  function Step(st: State, c: Char): (a: Action)
    ensures c == EOF ==> !a.Append?
    ensures a.Finish? <==> Accepting(st) && IsEndValue(c)
  {
    match st
    case Begin =>
      if c == '-' as int then Append(AfterMinus)
      else if c == '0' as int then Append(AfterZero)
      else if IsDigit(c) then Append(IntDigitRest)
      else Reject
    case AfterMinus =>
      if c == '0' as int then Append(AfterZero)
      else if IsDigit(c) then Append(IntDigitRest)
      else Reject
    case AfterZero =>
      if c == '.' as int then Append(FracDigitFirst)
      else if IsExpMark(c) then Append(ExpBegin)
      else if IsEndValue(c) then Finish
      else Reject
    case IntDigitRest =>
      if IsDigit(c) then Append(IntDigitRest)
      else if c == '.' as int then Append(FracDigitFirst)
      else if IsExpMark(c) then Append(ExpBegin)
      else if IsEndValue(c) then Finish
      else Reject
    case FracDigitFirst =>
      if IsDigit(c) then Append(FracDigitRest) else Reject
    case FracDigitRest =>
      if IsDigit(c) then Append(FracDigitRest)
      else if IsExpMark(c) then Append(ExpBegin)
      else if IsEndValue(c) then Finish
      else Reject
    case ExpBegin =>
      if IsSign(c) then Append(ExpDigitFirst)
      else if IsDigit(c) then Append(ExpDigitRest)
      else Reject
    case ExpDigitFirst =>
      if IsDigit(c) then Append(ExpDigitRest) else Reject
    case ExpDigitRest =>
      if IsDigit(c) then Append(ExpDigitRest)
      else if IsEndValue(c) then Finish
      else Reject
  }

  /** The state the machine reaches by appending every octet of `w`, if it gets that far. */
  function Walk(st: State, w: seq<Byte>): Option<State>
    decreases |w|
  {
    if |w| == 0 then Some(st)
    else match Step(st, w[0])
      case Append(next) => Walk(next, w[1..])
      case _ => None
  }

  /** From `st`, the machine appends all of `w` and may then stop at an end of value. */
  predicate AcceptsFrom(st: State, w: seq<Byte>) {
    var f := Walk(st, w);
    f.Some? && Accepting(f.value)
  }

  // The number grammar of section 6 of RFC 8259, stated independently of the machine:
  //   number = [ minus ] int [ frac ] [ exp ]
  //   int    = zero / ( digit1-9 *DIGIT )
  //   frac   = decimal-point 1*DIGIT
  //   exp    = e [ minus / plus ] 1*DIGIT

  predicate AllDigits(w: seq<Byte>) {
    forall i :: 0 <= i < |w| ==> IsDigit(w[i])
  }

  /** The length of the longest all-digit prefix of `w`. */
  function DigitSpan(w: seq<Byte>): (n: nat)
    ensures n <= |w|
    ensures AllDigits(w[..n])
    ensures n < |w| ==> !IsDigit(w[n])
  {
    if |w| == 0 || !IsDigit(w[0]) then 0 else 1 + DigitSpan(w[1..])
  }

  /** `[ minus / plus ] 1*DIGIT`. */
  predicate ExpTail(t: seq<Byte>) {
    if |t| > 0 && IsSign(t[0]) then |t| > 1 && AllDigits(t[1..]) else |t| > 0 && AllDigits(t)
  }

  /** `exp`. */
  predicate IsExp(w: seq<Byte>) {
    |w| > 0 && IsExpMark(w[0]) && ExpTail(w[1..])
  }

  /** `[ frac ] [ exp ]`: the fraction's digits run up to the first non-digit. */
  predicate IsFracExp(w: seq<Byte>) {
    || |w| == 0
    || IsExp(w)
    || (w[0] == '.' as int && var k := DigitSpan(w[1..]); k > 0 && (1 + k == |w| || IsExp(w[1 + k..])))
  }

  /** `int [ frac ] [ exp ]`. */
  predicate IsUnsignedNumber(u: seq<Byte>) {
    && |u| > 0
    && IsDigit(u[0])
    && if u[0] == '0' as int then IsFracExp(u[1..]) else IsFracExp(u[1 + DigitSpan(u[1..])..])
  }

  /** `number`. */
  predicate IsNumber(w: seq<Byte>) {
    if |w| > 0 && w[0] == '-' as int then IsUnsignedNumber(w[1..]) else IsUnsignedNumber(w)
  }

  /** What follows the fraction's first digit: more digits, then an optional exponent. */
  predicate FracRest(w: seq<Byte>) {
    var k := DigitSpan(w);
    k == |w| || IsExp(w[k..])
  }

  lemma {:induction false} ExpDigitRestLanguage(w: seq<Byte>)
    ensures AcceptsFrom(ExpDigitRest, w) <==> AllDigits(w)
    decreases |w|
  {
    if |w| > 0 {
      ExpDigitRestLanguage(w[1..]);
      if IsDigit(w[0]) {
        assert AllDigits(w) <==> AllDigits(w[1..]) by {
          if AllDigits(w[1..]) {
            forall i | 0 <= i < |w| ensures IsDigit(w[i]) {
              if i > 0 { assert w[i] == w[1..][i - 1]; }
            }
          }
        }
      }
    }
  }

  lemma ExpBeginLanguage(w: seq<Byte>)
    ensures AcceptsFrom(ExpBegin, w) <==> ExpTail(w)
  {
    if |w| > 0 {
      ExpDigitRestLanguage(w[1..]);
      if IsSign(w[0]) && |w| > 1 {
        ExpDigitRestLanguage(w[2..]);
        assert Walk(ExpBegin, w) == Walk(ExpDigitFirst, w[1..]);
        assert Walk(ExpDigitFirst, w[1..]) == if IsDigit(w[1]) then Walk(ExpDigitRest, w[2..]) else None;
        assert w[1..][1..] == w[2..];
        if AllDigits(w[1..]) {
          assert IsDigit(w[1..][0]);
        }
        if IsDigit(w[1]) && AllDigits(w[2..]) {
          forall i | 0 <= i < |w[1..]| ensures IsDigit(w[1..][i]) {
            if i > 0 { assert w[1..][i] == w[2..][i - 1]; }
          }
        }
      } else if IsDigit(w[0]) {
        assert Walk(ExpBegin, w) == Walk(ExpDigitRest, w[1..]);
        if AllDigits(w) {
          forall i | 0 <= i < |w[1..]| ensures IsDigit(w[1..][i]) {
            assert w[1..][i] == w[i + 1];
          }
        }
        if AllDigits(w[1..]) {
          forall i | 0 <= i < |w| ensures IsDigit(w[i]) {
            if i > 0 { assert w[i] == w[1..][i - 1]; }
          }
        }
      } else if IsSign(w[0]) {
        assert Walk(ExpBegin, w) == Some(ExpDigitFirst);
      } else {
        assert Walk(ExpBegin, w) == None;
      }
    }
  }

  /** An exponent is the only way out of the fraction and integer digit states besides the end. */
  lemma ExpMarkLanguage(st: State, w: seq<Byte>)
    requires st == IntDigitRest || st == FracDigitRest || st == AfterZero
    requires |w| > 0 && IsExpMark(w[0])
    ensures AcceptsFrom(st, w) <==> IsExp(w)
  {
    ExpBeginLanguage(w[1..]);
  }

  lemma {:induction false} FracDigitRestLanguage(w: seq<Byte>)
    ensures AcceptsFrom(FracDigitRest, w) <==> FracRest(w)
    decreases |w|
  {
    if |w| > 0 {
      if IsDigit(w[0]) {
        FracDigitRestLanguage(w[1..]);
        var k := DigitSpan(w[1..]);
        assert DigitSpan(w) == 1 + k;
        assert w[1 + k..] == w[1..][k..];
      } else if IsExpMark(w[0]) {
        ExpMarkLanguage(FracDigitRest, w);
        assert w[0..] == w;
      }
    }
  }

  lemma FracDigitFirstLanguage(w: seq<Byte>)
    ensures AcceptsFrom(FracDigitFirst, w) <==> |w| > 0 && IsDigit(w[0]) && FracRest(w[1..])
  {
    if |w| > 0 {
      FracDigitRestLanguage(w[1..]);
    }
  }

  /** The fraction branch shared by the zero and the integer digit states. */
  lemma PointLanguage(st: State, w: seq<Byte>)
    requires st == IntDigitRest || st == AfterZero
    requires |w| > 0 && w[0] == '.' as int
    ensures AcceptsFrom(st, w) <==> IsFracExp(w)
  {
    FracDigitFirstLanguage(w[1..]);
    var k := DigitSpan(w[1..]);
    if |w| > 1 && IsDigit(w[1]) {
      assert w[1..][1..] == w[2..];
      assert DigitSpan(w[2..]) == k - 1;
      assert w[2..][k - 1..] == w[1 + k..];
    }
  }

  lemma {:induction false} IntDigitRestLanguage(w: seq<Byte>)
    ensures AcceptsFrom(IntDigitRest, w) <==> IsFracExp(w[DigitSpan(w)..])
    decreases |w|
  {
    if |w| > 0 {
      if IsDigit(w[0]) {
        IntDigitRestLanguage(w[1..]);
        var k := DigitSpan(w[1..]);
        assert w[1 + k..] == w[1..][k..];
      } else if w[0] == '.' as int {
        PointLanguage(IntDigitRest, w);
      } else if IsExpMark(w[0]) {
        ExpMarkLanguage(IntDigitRest, w);
      }
    }
  }

  lemma AfterZeroLanguage(w: seq<Byte>)
    ensures AcceptsFrom(AfterZero, w) <==> IsFracExp(w)
  {
    if |w| > 0 {
      if w[0] == '.' as int {
        PointLanguage(AfterZero, w);
      } else if IsExpMark(w[0]) {
        ExpMarkLanguage(AfterZero, w);
      }
    }
  }

  lemma AfterMinusLanguage(w: seq<Byte>)
    ensures AcceptsFrom(AfterMinus, w) <==> IsUnsignedNumber(w)
  {
    if |w| > 0 {
      AfterZeroLanguage(w[1..]);
      IntDigitRestLanguage(w[1..]);
      var k := DigitSpan(w[1..]);
      assert w[1..][k..] == w[1 + k..];
    }
  }

  /**
    The machine and the grammar agree: from the initial state it accepts
    exactly the numbers of section 6 of RFC 8259.
   */
  lemma MachineAcceptsNumbers(w: seq<Byte>)
    ensures AcceptsFrom(Begin, w) <==> IsNumber(w)
  {
    if |w| > 0 {
      AfterMinusLanguage(w[1..]);
      AfterMinusLanguage(w);
    }
  }

  /** The machine appends no character that could end a value. */
  lemma {:induction false} WalkAvoidsEnd(st: State, w: seq<Byte>)
    requires Walk(st, w).Some?
    ensures forall k :: 0 <= k < |w| ==> !IsEndValue(w[k])
    decreases |w|
  {
    if |w| > 0 {
      var a := Step(st, w[0]);
      assert !IsEndValue(w[0]) by {
        assert a.Append?;
      }
      WalkAvoidsEnd(a.next, w[1..]);
      forall k | 1 <= k < |w|
        ensures !IsEndValue(w[k])
      {
        assert w[k] == w[1..][k - 1];
      }
    }
  }

  /** So a number contains no whitespace, comma, bracket, brace or colon. */
  lemma NumberAvoidsEnd(w: seq<Byte>)
    requires IsNumber(w)
    ensures forall k :: 0 <= k < |w| ==> !IsEndValue(w[k])
  {
    MachineAcceptsNumbers(w);
    WalkAvoidsEnd(Begin, w);
  }

  /** Where the machine stops on a text: it refuses the character at `at`, or finishes after appending `len` octets. */
  datatype Halt = Refused(at: nat) | Finished(len: nat)

  /**
    The machine run over the text `u` from state `st`, EOF after it: where it
    refuses a character, or how much it appends before it finishes at an end
    of value. No source and no buffer are involved.
   */
  function HaltAt(st: State, u: seq<Byte>): (h: Halt)
    ensures h.Refused? ==> h.at <= |u|
    ensures h.Finished? ==> h.len <= |u| && (!Accepting(st) ==> h.len > 0)
    decreases |u|
  {
    match Step(st, HeadOrEof(u))
    case Append(next) =>
      (match HaltAt(next, u[1..])
       case Refused(n) => Refused(n + 1)
       case Finished(n) => Finished(n + 1))
    case Finish => Finished(0)
    case Reject => Refused(0)
  }

  /**
    The `for (;;)` loop from state `st`: reads, appends while the machine
    says so, and on an end of value pushes the character back. The result
    holds the octets the loop appends to the token buffer. It stops where
    `HaltAt` says, and an error carries the ordinal of the character refused.
   */
  function Loop(s: Source, st: State): (r: Result<(seq<Byte>, Source)>)
    requires SourceValid(s)
    ensures r.Ok? ==>
              && Advances(s, r.value.1)
              && Upcoming(s) == r.value.0 + Upcoming(r.value.1)
              && HaltAt(st, Upcoming(s)) == Finished(|r.value.0|)
    ensures r.Err? ==> && r.error.kind == ErrorGeneral && HaltAt(st, Upcoming(s)).Refused?
                       && r.error.ordinal == s.ordinal + 1 + HaltAt(st, Upcoming(s)).at
    decreases |Upcoming(s)|
  {
    var (c, s1) := Read(s);
    match Step(st, c)
    case Append(next) =>
      var r := Loop(s1, next);
      ReadSplits(s);
      ReadAdvances(s);
      HaltAppend(st, next, Upcoming(s), Upcoming(s1));
      var b: Byte := c;
      if r.Ok? then
        AdvancesTrans(s, s1, r.value.1);
        ConsThenWord(Upcoming(s), b, Upcoming(s1), r.value.0, Upcoming(r.value.1));
        Ok(([b] + r.value.0, r.value.1))
      else r
    case Finish =>
      ReadAdvances(s);
      Ok(([], Unread(s1, c)))
    case Reject =>
      Err(Error(ErrorGeneral, s1.ordinal))
  }

  /** Appending the first octet moves the halting point one further on. */
  lemma HaltAppend(st: State, next: State, u: seq<Byte>, u1: seq<Byte>)
    requires Step(st, HeadOrEof(u)) == Append(next) && u1 == u[1..]
    ensures var h := HaltAt(next, u1);
            HaltAt(st, u) == if h.Refused? then Refused(h.at + 1) else Finished(h.len + 1)
  {
  }

  /** What the loop appends is a word the machine accepts from `st`, and an end of value follows it. */
  lemma {:induction false} LoopSound(s: Source, st: State)
    requires SourceValid(s)
    requires Loop(s, st).Ok?
    ensures AcceptsFrom(st, Loop(s, st).value.0)
    ensures EndValueNext(Upcoming(Loop(s, st).value.1))
    decreases |Upcoming(s)|
  {
    var (c, s1) := Read(s);
    var a := Step(st, c);
    if a.Append? {
      LoopSound(s1, a.next);
      var w := Loop(s1, a.next).value.0;
      assert ([c] + w)[1..] == w;
    }
  }

  /** Lexing a number at the front of `u` makes a token: the machine finishes, and `strtod` accepts what it appended. */
  predicate NumberLexes(conv: seq<Byte> -> bool, u: seq<Byte>) {
    var h := HaltAt(Begin, u);
    h.Finished? && conv(u[..h.len])
  }

  /**
    Where lexing a number at the front of `u` fails, as an index into `u`:
    the character the machine refuses, or the lexeme's last character when
    `strtod` turns the lexeme down.
   */
  function NumberStop(u: seq<Byte>): nat {
    match HaltAt(Begin, u)
    case Refused(n) => n
    case Finished(len) => len - 1
  }

  /**
    `lexer_lex_number`: on success the token holds the longest prefix the
    machine appends, which is a number of the grammar, is followed by an end
    of value and is accepted by `strtod`; its ordinal is the position of the
    number's first character. The end-of-value character is pushed back.
    It fails exactly when `NumberLexes` does not hold, at `NumberStop`.
   */
  function LexNumber(conv: seq<Byte> -> bool, s: Source): (r: Result<(Token, Source)>)
    requires SourceValid(s)
    ensures r.Ok? ==>
              && Advances(s, r.value.1)
              && r.value.0.ordinal == s.ordinal + 1
              && r.value.0.kind.NumberToken?
              && IsNumber(r.value.0.kind.lexeme)
              && conv(r.value.0.kind.lexeme)
              && Upcoming(s) == r.value.0.kind.lexeme + Upcoming(r.value.1)
              && EndValueNext(Upcoming(r.value.1))
    ensures r.Ok? <==> NumberLexes(conv, Upcoming(s))
    ensures r.Err? ==> r.error == Error(ErrorGeneral, s.ordinal + 1 + NumberStop(Upcoming(s)))
    ensures r.Err? ==> s.ordinal < r.error.ordinal <= s.ordinal + |Upcoming(s)| + 1
  {
    var l := Loop(s, Begin);
    if l.Err? then Decide(conv, s, l)
    else
      LoopSound(s, Begin);
      MachineAcceptsNumbers(l.value.0);
      LoopStops(s, l.value.0, l.value.1);
      Decide(conv, s, l)
  }

  /** A loop that appended `w` took exactly `w` off the front and read that many characters. */
  lemma LoopStops(s: Source, w: seq<Byte>, s1: Source)
    requires SourceValid(s) && Advances(s, s1) && Upcoming(s) == w + Upcoming(s1)
    ensures Upcoming(s)[..|w|] == w && s1.ordinal == s.ordinal + |w|
  {
    UpcomingLength(s);
    UpcomingLength(s1);
  }

  /** The end of `lexer_lex_number`: a loop error stands, otherwise `strtod` decides on the appended octets. */
  function Decide(conv: seq<Byte> -> bool, s: Source, l: Result<(seq<Byte>, Source)>): Result<(Token, Source)> {
    if l.Err? then Err(l.error)
    else if conv(l.value.0) then Ok((Token(s.ordinal + 1, NumberToken(l.value.0)), l.value.1))
    else Err(Error(ErrorGeneral, l.value.1.ordinal))
  }

  /** The loop appends every octet of an accepted word followed by an end of value. */
  lemma {:induction false} LoopComplete(s: Source, st: State, w: seq<Byte>, rest: seq<Byte>)
    requires SourceValid(s)
    requires Upcoming(s) == w + rest
    requires AcceptsFrom(st, w) && EndValueNext(rest)
    ensures Loop(s, st).Ok? && Loop(s, st).value.0 == w
    decreases |w|
  {
    var (c, s1) := Read(s);
    if |w| == 0 {
      assert Upcoming(s) == rest;
    } else {
      ReadSplits(s);
      HeadOfWord(Upcoming(s), c, Upcoming(s1), w, rest);
      LoopComplete(s1, Step(st, c).next, w[1..], rest);
      ConsTail(w);
    }
  }

  /**
    Conversely to the contract of `LexNumber`: a number followed by an end of
    value is lexed in full, and the outcome then depends only on `strtod`.
   */
  lemma LexNumberComplete(conv: seq<Byte> -> bool, s: Source, w: seq<Byte>, rest: seq<Byte>)
    requires SourceValid(s)
    requires Upcoming(s) == w + rest
    requires IsNumber(w) && EndValueNext(rest)
    ensures conv(w) ==> LexNumber(conv, s).Ok?
    ensures conv(w) ==> LexNumber(conv, s).value.0 == Token(s.ordinal + 1, NumberToken(w))
    ensures conv(w) ==> Upcoming(LexNumber(conv, s).value.1) == rest
    ensures !conv(w) ==> LexNumber(conv, s) == Err(Error(ErrorGeneral, s.ordinal + |w|))
  {
    NumberLexed(s, w, rest);
    LexNumberDecides(conv, s);
    Decided(conv, s, Loop(s, Begin), w, rest);
  }

  /** The decision on a loop that appended `w` and stopped before `rest`. */
  lemma Decided(conv: seq<Byte> -> bool, s: Source, l: Result<(seq<Byte>, Source)>, w: seq<Byte>, rest: seq<Byte>)
    requires l.Ok? && l.value.0 == w && SourceValid(l.value.1)
    requires Upcoming(l.value.1) == rest && l.value.1.ordinal == s.ordinal + |w|
    ensures var r := Decide(conv, s, l);
            && (conv(w) ==> r.Ok? && r.value.0 == Token(s.ordinal + 1, NumberToken(w)) && Upcoming(r.value.1) == rest)
            && (!conv(w) ==> r == Err(Error(ErrorGeneral, s.ordinal + |w|)))
  {
  }

  /** `LexNumber` is the loop followed by the decision. */
  lemma LexNumberDecides(conv: seq<Byte> -> bool, s: Source)
    requires SourceValid(s)
    ensures LexNumber(conv, s) == Decide(conv, s, Loop(s, Begin))
  {
  }

  /** The loop run by `LexNumber` over a number followed by an end of value. */
  lemma NumberLexed(s: Source, w: seq<Byte>, rest: seq<Byte>)
    requires SourceValid(s)
    requires Upcoming(s) == w + rest
    requires IsNumber(w) && EndValueNext(rest)
    ensures Loop(s, Begin).Ok? && Loop(s, Begin).value.0 == w
    ensures Upcoming(Loop(s, Begin).value.1) == rest && Loop(s, Begin).value.1.ordinal == s.ordinal + |w|
  {
    MachineAcceptsNumbers(w);
    LoopComplete(s, Begin, w, rest);
    LoopEnd(s, Loop(s, Begin).value.1, w, rest);
  }

  /** Where a loop that appended `w` stops: the rest of the text, `|w|` reads on. */
  lemma LoopEnd(s: Source, s1: Source, w: seq<Byte>, rest: seq<Byte>)
    requires SourceValid(s) && Advances(s, s1)
    requires Upcoming(s) == w + Upcoming(s1) && Upcoming(s) == w + rest
    ensures Upcoming(s1) == rest && s1.ordinal == s.ordinal + |w|
  {
    CancelPrefix(w, Upcoming(s1), rest);
    UpcomingLength(s);
    UpcomingLength(s1);
  }

  // Splitting the upcoming text around the lexeme the machine reads.

  /** Taking an octet and then a word off the front of `u` takes their concatenation. */
  lemma ConsThenWord(u: seq<Byte>, b: Byte, u1: seq<Byte>, w: seq<Byte>, rest: seq<Byte>)
    requires u == [b] + u1 && u1 == w + rest
    ensures u == ([b] + w) + rest
  {
  }

  /** Taking an octet off the front of `w + rest` takes the first octet of `w`. */
  lemma HeadOfWord(u: seq<Byte>, b: Byte, u1: seq<Byte>, w: seq<Byte>, rest: seq<Byte>)
    requires u == [b] + u1 && u == w + rest && |w| > 0
    ensures b == w[0] && u1 == w[1..] + rest
  {
    assert u[0] == b;
    assert u1 == u[1..];
    assert w + rest == [w[0]] + (w[1..] + rest);
  }

  lemma ConsTail(w: seq<Byte>)
    requires |w| > 0
    ensures [w[0]] + w[1..] == w
  {
  }

  lemma CancelPrefix(w: seq<Byte>, a: seq<Byte>, b: seq<Byte>)
    requires w + a == w + b
    ensures a == b
  {
    assert a == (w + a)[|w|..];
    assert b == (w + b)[|w|..];
  }

  /** A prefix and what follows it make up the whole. */
  lemma PrefixSplit(w: seq<Byte>, u: seq<Byte>)
    requires w <= u
    ensures u == w + u[|w|..]
  {
    assert u[..|w|] == w;
  }
}

=== FILE: parseerrors.dfy ===
/**
  Where a failed parse records its error (jsonmodoki.c:1047-1051): the
  general error names the last token the parse read, or ordinal 0 when it
  ran off the end of the token list. Every parse function only consumes a
  prefix of the pending tokens, so "the last token read" is the token just
  before what is left.

  `parser_parse_value` returns NULL without recording anything exactly when
  there is no token at all; inside an array or object every failure records
  an error.
 */
module ParseErrors {
  import opened Chars
  import opened Types
  import opened TokenCursor
  import opened Parser
  import opened Reader

  /** `q` is what is left of `p` after some tokens were read off its front. */
  predicate IsSuffix(q: seq<Token>, p: seq<Token>) {
    |q| <= |p| && p[|p| - |q|..] == q
  }

  /**
    After a parse that started with pending tokens `p`, left `q` and made
    `counted` reads (`lexer_read` bumps the counter even when it hands out
    NULL): at most one read found no token, and only a failure at the end
    of the list made it. A recorded error names the last token read, or is
    0 exactly when the failing read found no token; nothing is recorded
    only after such a read.
   */
  predicate BlamedIn(p: seq<Token>, q: seq<Token>, counted: int, r: Parsed) {
    && IsSuffix(q, p)
    && (counted == |p| - |q| || (counted == |p| - |q| + 1 && q == [] && r.Failed?))
    && (r.Failed? && r.recorded.None? ==> counted == |p| - |q| + 1)
    && (r.Failed? && r.recorded.Some? ==>
          if counted == |p| - |q| then |q| < |p| && p[|p| - |q| - 1].ordinal == r.recorded.value
          else r.recorded.value == 0)
  }

  /** `Blamed` with the reads counted by the cursor's `ordinal`. */
  predicate Blamed(cur: Cursor, r: Parsed)
    requires CursorValid(cur) && CursorValid(r.cur)
  {
    BlamedIn(Pending(cur), Pending(r.cur), r.cur.ordinal - cur.ordinal, r)
  }

  /** A failure that recorded an error. */
  predicate Reported(r: Parsed) {
    r.Failed? ==> r.recorded.Some?
  }

  lemma SuffixTrans(a: seq<Token>, b: seq<Token>, c: seq<Token>)
    requires IsSuffix(b, a) && IsSuffix(c, b)
    ensures IsSuffix(c, a)
    ensures |c| < |b| ==> a[|a| - |c| - 1] == b[|b| - |c| - 1]
  {
    var d := |a| - |b|;
    assert a[d..] == b;
    forall i | 0 <= i < |c|
      ensures a[|a| - |c|..][i] == c[i]
    {
      assert a[d..][|b| - |c| + i] == b[|b| - |c| + i];
    }
    if |c| < |b| {
      assert a[d..][|b| - |c| - 1] == b[|b| - |c| - 1];
    }
  }

  /** A parse that continues on what an earlier step left keeps blaming within the whole. */
  lemma Chain(p: seq<Token>, q: seq<Token>, s: seq<Token>, k: int, r: Parsed)
    requires IsSuffix(q, p) && BlamedIn(q, s, k, r)
    ensures BlamedIn(p, s, |p| - |q| + k, r)
  {
    SuffixTrans(p, q, s);
  }

  /** Reading one token leaves a suffix, and that token is the last one read. */
  lemma ReadSuffix(cur: Cursor)
    requires CursorValid(cur)
    ensures IsSuffix(Pending(ReadToken(cur).1), Pending(cur))
    ensures ReadToken(cur).0.Some? ==>
              var p := Pending(cur);
              p[|p| - |Pending(ReadToken(cur).1)| - 1] == ReadToken(cur).0.value
  {
    var p := Pending(cur);
    var q := Pending(ReadToken(cur).1);
    if ReadToken(cur).0.Some? {
      assert p == [ReadToken(cur).0.value] + q;
      assert p[1..] == q;
    } else {
      assert p == [] && q == [];
    }
  }

  /** A parse that goes on after one token was read blames within the whole. */
  lemma ReadThenBlamed(cur: Cursor, r: Parsed)
    requires CursorValid(cur) && CursorValid(r.cur) && ReadToken(cur).0.Some?
    requires Blamed(ReadToken(cur).1, r)
    ensures Blamed(cur, r)
  {
    ReadSuffix(cur);
    var c1 := ReadToken(cur).1;
    Chain(Pending(cur), Pending(c1), Pending(r.cur), r.cur.ordinal - c1.ordinal, r);
  }

  /** Pushing the token just read back restores what is pending and the count. */
  lemma PushedBackBlamed(cur: Cursor, r: Parsed)
    requires CursorValid(cur) && CursorValid(r.cur) && ReadToken(cur).0.Some?
    requires Blamed(UnreadToken(ReadToken(cur).1, ReadToken(cur).0.value), r)
    ensures Blamed(cur, r)
  {
  }

  /** Failing on the token just read, or at the end of the list, blames correctly. */
  lemma RejectBlamed(cur: Cursor)
    requires CursorValid(cur)
    ensures Blamed(cur, Failed(Some(ErrorAt(ReadToken(cur).0)), ReadToken(cur).1))
  {
    ReadSuffix(cur);
  }

  /** `parser_parse_value`: NULL with no error exactly on an empty list; otherwise any error names the last token read. */
  lemma {:induction false} ValueBlamed(cur: Cursor)
    requires CursorValid(cur)
    ensures Blamed(cur, ParseValue(cur))
    ensures ParseValue(cur).Failed? && ParseValue(cur).recorded.None? <==> Pending(cur) == []
    decreases Remaining(cur), 1
  {
    var (t, c1) := ReadToken(cur);
    ReadSuffix(cur);
    if t.Some? && t.value.kind.BeginArray? {
      assert ParseValue(cur) == ParseArray(UnreadToken(c1, t.value));
      ArrayBlamed(UnreadToken(c1, t.value));
    } else if t.Some? && t.value.kind.BeginObject? {
      assert ParseValue(cur) == ParseObject(UnreadToken(c1, t.value));
      ObjectBlamed(UnreadToken(c1, t.value));
    } else {
      assert ParseValue(cur) == Leaf(t, c1);
    }
  }

  lemma {:induction false} ArrayBlamed(cur: Cursor)
    requires CursorValid(cur) && NextIs(cur, BeginArray)
    ensures Blamed(cur, ParseArray(cur)) && Reported(ParseArray(cur))
    decreases Remaining(cur), 0
  {
    var (t, c1) := ReadToken(cur);
    ReadSuffix(cur);
    ArrayLoopBlamed(c1, AfterBeginArray, t.value.ordinal, []);
    ReadThenBlamed(cur, ParseArray(cur));
  }

  lemma {:induction false} ArrayLoopBlamed(cur: Cursor, st: ArrayState, ordinal: nat, elems: seq<ArrayElem>)
    requires CursorValid(cur) && cur.slot.None?
    ensures Blamed(cur, ArrayLoop(cur, st, ordinal, elems)) && Reported(ArrayLoop(cur, st, ordinal, elems))
    decreases Remaining(cur), 4
  {
    if ReadToken(cur).0.None? {
      RejectBlamed(cur);
    } else {
      ArrayArmBlamed(cur, st, ordinal, elems);
    }
  }

  /** One turn of the loop on the token read: the arm `ArrayStep` picks. */
  lemma {:induction false} ArrayArmBlamed(cur: Cursor, st: ArrayState, ordinal: nat, elems: seq<ArrayElem>)
    requires CursorValid(cur) && cur.slot.None? && ReadToken(cur).0.Some?
    ensures Blamed(cur, ArrayLoop(cur, st, ordinal, elems)) && Reported(ArrayLoop(cur, st, ordinal, elems))
    decreases Remaining(cur), 3
  {
    var (t, c1) := ReadToken(cur);
    var r := ArrayLoop(cur, st, ordinal, elems);
    match ArrayStep(st, t.value.kind)
    case CloseArray =>
      ReadSuffix(cur);
    case ArrayValue =>
      ArrayElementBlamed(c1, t.value, ordinal, elems);
      PushedBackBlamed(cur, r);
    case ArrayGoto(st1) =>
      ArrayLoopBlamed(c1, st1, ordinal, elems);
      assert r == ArrayLoop(c1, st1, ordinal, elems);
      ReadThenBlamed(cur, r);
    case ArrayReject =>
      RejectBlamed(cur);
  }

  lemma {:induction false} ArrayElementBlamed(c1: Cursor, tok: Token, ordinal: nat, elems: seq<ArrayElem>)
    requires CursorValid(c1) && c1.slot.None? && c1.ordinal > 0
    ensures Blamed(UnreadToken(c1, tok), ArrayElement(c1, tok, ordinal, elems))
    ensures Reported(ArrayElement(c1, tok, ordinal, elems))
    decreases Remaining(c1) + 1, 2
  {
    var c2 := UnreadToken(c1, tok);
    ValueBlamed(c2);
    var v := ParseValue(c2);
    if v.Done? {
      var e := ArrayElem(tok.ordinal, |elems|, v.node);
      ArrayLoopBlamed(v.cur, AfterValue, ordinal, elems + [e]);
      var r := ArrayLoop(v.cur, AfterValue, ordinal, elems + [e]);
      Chain(Pending(c2), Pending(v.cur), Pending(r.cur), r.cur.ordinal - v.cur.ordinal, r);
    }
  }

  lemma {:induction false} ObjectBlamed(cur: Cursor)
    requires CursorValid(cur) && NextIs(cur, BeginObject)
    ensures Blamed(cur, ParseObject(cur)) && Reported(ParseObject(cur))
    decreases Remaining(cur), 0
  {
    var (t, c1) := ReadToken(cur);
    ReadSuffix(cur);
    ObjectLoopBlamed(c1, AfterBeginObject, t.value.ordinal, []);
    ReadThenBlamed(cur, ParseObject(cur));
  }

  lemma {:induction false} ObjectLoopBlamed(cur: Cursor, st: ObjectState, ordinal: nat, members: seq<ObjectElem>)
    requires CursorValid(cur) && cur.slot.None?
    ensures Blamed(cur, ObjectLoop(cur, st, ordinal, members)) && Reported(ObjectLoop(cur, st, ordinal, members))
    decreases Remaining(cur), 4
  {
    if ReadToken(cur).0.None? {
      RejectBlamed(cur);
    } else {
      ObjectArmBlamed(cur, st, ordinal, members);
    }
  }

  /** One turn of the loop on the token read: the arm `ObjectStep` picks. */
  lemma {:induction false} ObjectArmBlamed(cur: Cursor, st: ObjectState, ordinal: nat, members: seq<ObjectElem>)
    requires CursorValid(cur) && cur.slot.None? && ReadToken(cur).0.Some?
    ensures Blamed(cur, ObjectLoop(cur, st, ordinal, members)) && Reported(ObjectLoop(cur, st, ordinal, members))
    decreases Remaining(cur), 3
  {
    var (t, c1) := ReadToken(cur);
    var r := ObjectLoop(cur, st, ordinal, members);
    match ObjectStep(st, t.value.kind)
    case CloseObject =>
      ReadSuffix(cur);
    case ObjectValue(name) =>
      ObjectMemberBlamed(c1, t.value, name, ordinal, members);
      PushedBackBlamed(cur, r);
    case ObjectGoto(st1) =>
      ObjectLoopBlamed(c1, st1, ordinal, members);
      assert r == ObjectLoop(c1, st1, ordinal, members);
      ReadThenBlamed(cur, r);
    case ObjectReject =>
      RejectBlamed(cur);
  }

  lemma {:induction false} ObjectMemberBlamed(c1: Cursor, tok: Token, name: seq<Byte>, ordinal: nat, members: seq<ObjectElem>)
    requires CursorValid(c1) && c1.slot.None? && c1.ordinal > 0
    ensures Blamed(UnreadToken(c1, tok), ObjectMember(c1, tok, name, ordinal, members))
    ensures Reported(ObjectMember(c1, tok, name, ordinal, members))
    decreases Remaining(c1) + 1, 2
  {
    var c2 := UnreadToken(c1, tok);
    ValueBlamed(c2);
    var v := ParseValue(c2);
    if v.Done? {
      var e := ObjectElem(tok.ordinal, name, v.node);
      ObjectLoopBlamed(v.cur, AfterMember, ordinal, members + [e]);
      var r := ObjectLoop(v.cur, AfterMember, ordinal, members + [e]);
      Chain(Pending(c2), Pending(v.cur), Pending(r.cur), r.cur.ordinal - v.cur.ordinal, r);
    }
  }

  /**
    `parser_parse` after a successful lex: a general error with a nonzero
    ordinal names a token of the list, whether the decision is the one as
    written or the corrected one.
   */
  lemma ErrorNamesToken(tokens: seq<Token>)
    ensures var e := ParseTokens(tokens).error;
            e.ordinal != 0 ==> exists i :: 0 <= i < |tokens| && tokens[i].ordinal == e.ordinal
    ensures var e := ParseTokensStrict(tokens).error;
            e.ordinal != 0 ==> exists i :: 0 <= i < |tokens| && tokens[i].ordinal == e.ordinal
  {
    RecordedNamesToken(tokens);
    var o := Recorded(ParseValue(Open(tokens))).ordinal;
    assert ParseTokens(tokens).error.ordinal == o;
    assert ParseTokensStrict(tokens).error.ordinal in {0, o};
  }

  /** The error `parser_parse_value` leaves in `p->error` is 0 or names a token. */
  lemma RecordedNamesToken(tokens: seq<Token>)
    ensures var o := Recorded(ParseValue(Open(tokens))).ordinal;
            o != 0 ==> exists i :: 0 <= i < |tokens| && tokens[i].ordinal == o
  {
    var c := Open(tokens);
    ValueBlamed(c);
    var r := ParseValue(c);
    if r.Failed? && r.recorded.Some? && r.recorded.value != 0 {
      var i := |tokens| - |Pending(r.cur)| - 1;
      assert tokens[i].ordinal == r.recorded.value;
    }
  }
}

=== FILE: parser.dfy ===
/**
  The recursive-descent parser of jsonmodoki.c (jsonmodoki.c:1028-1307):
  `parser_parse_value` on one token, the three-state loop of
  `parser_parse_array`, the five-state loop of `parser_parse_object`, and
  `parser_parse`, which lexes the whole text first and then parses one
  value from the token list.

  A failing parse function returns NULL; it has either recorded a general
  error at the offending token (ordinal 0 at the end of the tokens) or, for
  `parser_parse_value` at the end of the tokens and the failure branch of
  `parser_expected`, recorded nothing.
 */
module Parser {
  import opened Chars
  import opened Types
  import opened TokenCursor
  import opened Syntax

  /**
    What a parse function returns: a node, or NULL with the ordinal of the
    general error it recorded, if it recorded one.
   */
  datatype Parsed = Done(node: Node, cur: Cursor) | Failed(recorded: Option<nat>, cur: Cursor)

  /** `enum state` of `parser_parse_array`. */
  datatype ArrayState = AfterBeginArray | AfterValue | AfterValueSep

  /** `enum state` of `parser_parse_object`, with the pending member name where there is one. */
  datatype ObjectState =
    | AfterBeginObject
    | AfterName(name: seq<Byte>)
    | AfterNameSep(name: seq<Byte>)
    | AfterMember
    | AfterMemberSep

  /** `parser_set_general_error`: the error's ordinal is the token's, or 0 for NULL. */
  function ErrorAt(t: Option<Token>): nat {
    if t.Some? then t.value.ordinal else 0
  }

  /** What every parse function leaves behind: the slot empty, and no more tokens pending than before. */
  predicate Leaves(cur: Cursor, r: Parsed)
    requires CursorValid(cur)
  {
    && CursorValid(r.cur) && r.cur.tokens == cur.tokens && r.cur.slot.None?
    && Remaining(r.cur) <= Remaining(cur)
    && (r.Done? ==> Remaining(r.cur) < Remaining(cur))
  }

  /** The first four arms of `parser_parse_value`'s switch: the node a scalar token stands for. */
  function Scalar(tok: Token): Option<Node> {
    match tok.kind
    case NullToken => Some(NullNode(tok.ordinal))
    case BoolToken(b) => Some(BoolNode(tok.ordinal, b))
    case NumberToken(lexeme) => Some(NumberNode(tok.ordinal, lexeme))
    case StringToken(text) => Some(StringNode(tok.ordinal, text))
    case _ => None
  }

  /** `parser_parse_value`. */
  function ParseValue(cur: Cursor): (r: Parsed)
    requires CursorValid(cur)
    ensures Leaves(cur, r)
    decreases Remaining(cur), 1
  {
    var (t, c1) := ReadToken(cur);
    if t.Some? && t.value.kind.BeginArray? then ParseArray(UnreadToken(c1, t.value))
    else if t.Some? && t.value.kind.BeginObject? then ParseObject(UnreadToken(c1, t.value))
    else Leaf(t, c1)
  }

  /**
    The other arms of `parser_parse_value`: NULL at the end of the list sets
    no error; a scalar token is its node; any other token fails with its
    ordinal recorded.
   */
  function Leaf(t: Option<Token>, c1: Cursor): (r: Parsed)
    ensures r.cur == c1
  {
    if t.None? then Failed(None, c1)
    else if Scalar(t.value).Some? then Done(Scalar(t.value).value, c1)
    else Failed(Some(ErrorAt(t)), c1)
  }

  /** The next token has the given tag: `parser_expected` cannot fail. */
  predicate NextIs(cur: Cursor, k: TokenKind)
    requires CursorValid(cur)
  {
    Pending(cur) != [] && Pending(cur)[0].kind == k
  }

  /**
    `parser_parse_array`: `parser_expected` on `[`, then the loop. Its
    only caller has just pushed the `[` back, so the failure branch of
    `parser_expected` is excluded by the precondition.
   */
  function ParseArray(cur: Cursor): (r: Parsed)
    requires CursorValid(cur) && NextIs(cur, BeginArray)
    ensures Leaves(cur, r)
    decreases Remaining(cur), 0
  {
    var (t, c1) := ReadToken(cur);
    ArrayLoop(c1, AfterBeginArray, t.value.ordinal, [])
  }

  /** What the array loop does with a token in a state. */
  datatype ArrayAction = CloseArray | ArrayValue | ArrayGoto(next: ArrayState) | ArrayReject

  /** The two-level switch of the array loop: on the state, then on the token's tag. */
  function ArrayStep(st: ArrayState, k: TokenKind): ArrayAction {
    match st
    case AfterBeginArray =>
      if k.EndArray? then CloseArray else if IsValueStart(k) then ArrayValue else ArrayReject
    case AfterValue =>
      if k.EndArray? then CloseArray else if k.ValueSep? then ArrayGoto(AfterValueSep) else ArrayReject
    case AfterValueSep =>
      if IsValueStart(k) then ArrayValue else ArrayReject
  }

  /** The `for (;;)` loop of `parser_parse_array` in state `st`, with the elements so far. */
  function ArrayLoop(cur: Cursor, st: ArrayState, ordinal: nat, elems: seq<ArrayElem>): (r: Parsed)
    requires CursorValid(cur) && cur.slot.None?
    ensures Leaves(cur, r)
    decreases Remaining(cur), 3
  {
    var (t, c1) := ReadToken(cur);
    if t.None? then Failed(Some(ErrorAt(None)), c1)
    else
      match ArrayStep(st, t.value.kind)
      case CloseArray => Done(ArrayNode(ordinal, elems), c1)
      case ArrayValue => ArrayElement(c1, t.value, ordinal, elems)
      case ArrayGoto(st1) => ArrayLoop(c1, st1, ordinal, elems)
      case ArrayReject => Failed(Some(ErrorAt(t)), c1)
  }

  /**
    The `case_token_tag_like_value` arm of the array loop: push the token
    back, parse a value, append an element with the next index and the
    token's ordinal, and go on after the value.
   */
  function ArrayElement(c1: Cursor, tok: Token, ordinal: nat, elems: seq<ArrayElem>): (r: Parsed)
    requires CursorValid(c1) && c1.slot.None? && c1.ordinal > 0
    ensures Leaves(UnreadToken(c1, tok), r)
    decreases Remaining(c1) + 1, 2
  {
    var v := ParseValue(UnreadToken(c1, tok));
    if v.Failed? then v
    else ArrayLoop(v.cur, AfterValue, ordinal, elems + [ArrayElem(tok.ordinal, |elems|, v.node)])
  }

  /** `parser_parse_object`: `parser_expected` on `{`, then the loop; as for arrays, the `{` is known to be next. */
  function ParseObject(cur: Cursor): (r: Parsed)
    requires CursorValid(cur) && NextIs(cur, BeginObject)
    ensures Leaves(cur, r)
    decreases Remaining(cur), 0
  {
    var (t, c1) := ReadToken(cur);
    ObjectLoop(c1, AfterBeginObject, t.value.ordinal, [])
  }

  /** What the object loop does with a token in a state. */
  datatype ObjectAction = CloseObject | ObjectValue(name: seq<Byte>) | ObjectGoto(next: ObjectState) | ObjectReject

  /** The two-level switch of the object loop; a string token read as a name is remembered in the state. */
  function ObjectStep(st: ObjectState, k: TokenKind): ObjectAction {
    match st
    case AfterBeginObject =>
      if k.EndObject? then CloseObject
      else if k.StringToken? then ObjectGoto(AfterName(k.text))
      else ObjectReject
    case AfterName(name) =>
      if k.NameSep? then ObjectGoto(AfterNameSep(name)) else ObjectReject
    case AfterNameSep(name) =>
      if IsValueStart(k) then ObjectValue(name) else ObjectReject
    case AfterMember =>
      if k.EndObject? then CloseObject
      else if k.ValueSep? then ObjectGoto(AfterMemberSep)
      else ObjectReject
    case AfterMemberSep =>
      if k.StringToken? then ObjectGoto(AfterName(k.text)) else ObjectReject
  }

  /** The `for (;;)` loop of `parser_parse_object` in state `st`, with the members so far. */
  function ObjectLoop(cur: Cursor, st: ObjectState, ordinal: nat, members: seq<ObjectElem>): (r: Parsed)
    requires CursorValid(cur) && cur.slot.None?
    ensures Leaves(cur, r)
    decreases Remaining(cur), 3
  {
    var (t, c1) := ReadToken(cur);
    if t.None? then Failed(Some(ErrorAt(None)), c1)
    else
      match ObjectStep(st, t.value.kind)
      case CloseObject => Done(ObjectNode(ordinal, members), c1)
      case ObjectValue(name) => ObjectMember(c1, t.value, name, ordinal, members)
      case ObjectGoto(st1) => ObjectLoop(c1, st1, ordinal, members)
      case ObjectReject => Failed(Some(ErrorAt(t)), c1)
  }

  /**
    The value arm of the object loop: push the token back, parse a value,
    append a member with the pending name and the value token's ordinal.
   */
  function ObjectMember(c1: Cursor, tok: Token, name: seq<Byte>, ordinal: nat, members: seq<ObjectElem>): (r: Parsed)
    requires CursorValid(c1) && c1.slot.None? && c1.ordinal > 0
    ensures Leaves(UnreadToken(c1, tok), r)
    decreases Remaining(c1) + 1, 2
  {
    var v := ParseValue(UnreadToken(c1, tok));
    if v.Failed? then v
    else ObjectLoop(v.cur, AfterMember, ordinal, members + [ObjectElem(tok.ordinal, name, v.node)])
  }

  // Soundness: a node built consumed exactly the tokens of its value.

  /** The kinds of the pending tokens. */
  function Next(c: Cursor): seq<TokenKind>
    requires CursorValid(c)
  {
    Kinds(Pending(c))
  }

  lemma ReadNext(c: Cursor)
    requires CursorValid(c)
    ensures ReadToken(c).0.Some? ==> Next(c) == [ReadToken(c).0.value.kind] + Next(ReadToken(c).1)
    ensures ReadToken(c).0.None? ==> Next(c) == [] && Next(ReadToken(c).1) == []
  {
    var (t, c1) := ReadToken(c);
    if t.Some? {
      KindsCons(t.value, Pending(c1));
    }
  }

  lemma UnreadNext(c: Cursor, t: Token)
    requires CursorValid(c) && c.slot.None? && c.ordinal > 0
    ensures Next(UnreadToken(c, t)) == [t.kind] + Next(c)
  {
    KindsCons(t, Pending(c));
  }

  /** The tokens an array loop in state `st` still has to read for the elements `vs` and the closing bracket. */
  function ArrayRest(st: ArrayState, vs: seq<Value>): seq<TokenKind> {
    match st
    case AfterBeginArray => Elements(vs) + [EndArray]
    case AfterValue => MoreElements(vs) + [EndArray]
    case AfterValueSep => Elements(vs) + [EndArray]
  }

  /** A finished array loop: the elements so far kept, the new ones read off the tokens. */
  predicate ArrayLoopSound(cur: Cursor, st: ArrayState, ordinal: nat, elems: seq<ArrayElem>, r: Parsed)
    requires CursorValid(cur) && CursorValid(r.cur)
  {
    r.Done? ==>
      && r.node.ArrayNode? && r.node.ordinal == ordinal && elems <= r.node.elems
      && (st.AfterValueSep? ==> |r.node.elems| > |elems|)
      && ElemsFormed(r.node.elems, |elems|)
      && Next(cur) == ArrayRest(st, StripElems(r.node.elems[|elems|..])) + Next(r.cur)
      && ArrayRestPlaced(st, r.node.elems[|elems|..], Pending(cur))
  }

  /** Where the remaining elements' values sit among the tokens an array loop in state `st` still reads. */
  predicate ArrayRestPlaced(st: ArrayState, es: seq<ArrayElem>, ts: seq<Token>) {
    if st.AfterValue? then MoreElemsPlaced(es, ts) else ElemsPlaced(es, ts)
  }

  /** A finished object loop, likewise. */
  function ObjectRest(st: ObjectState, ms: seq<Member>): seq<TokenKind>
    requires (st.AfterName? || st.AfterNameSep?) ==> ms != [] && ms[0].name == st.name
  {
    match st
    case AfterBeginObject => Members(ms) + [EndObject]
    case AfterName(_) => [NameSep] + Emit(ms[0].val) + MoreMembers(ms[1..]) + [EndObject]
    case AfterNameSep(_) => Emit(ms[0].val) + MoreMembers(ms[1..]) + [EndObject]
    case AfterMember => MoreMembers(ms) + [EndObject]
    case AfterMemberSep => Members(ms) + [EndObject]
  }

  predicate ObjectLoopSound(cur: Cursor, st: ObjectState, ordinal: nat, members: seq<ObjectElem>, r: Parsed)
    requires CursorValid(cur) && CursorValid(r.cur)
  {
    r.Done? ==>
      && r.node.ObjectNode? && r.node.ordinal == ordinal && members <= r.node.members
      && ((st.AfterName? || st.AfterNameSep? || st.AfterMemberSep?) ==> |r.node.members| > |members|)
      && ((st.AfterName? || st.AfterNameSep?) ==> r.node.members[|members|].name == st.name)
      && MembersFormed(r.node.members, |members|)
      && Next(cur) == ObjectRest(st, StripMembers(r.node.members[|members|..])) + Next(r.cur)
      && ObjectRestPlaced(st, r.node.members[|members|..], Pending(cur))
  }

  /** Where the remaining members' values sit among the tokens an object loop in state `st` still reads. */
  predicate ObjectRestPlaced(st: ObjectState, ms: seq<ObjectElem>, ts: seq<Token>) {
    match st
    case AfterBeginObject => MembersPlaced(ms, ts)
    case AfterName(_) => ms != [] && ts != [] && MemberValuePlaced(ms, ts[1..])
    case AfterNameSep(_) => ms != [] && MemberValuePlaced(ms, ts)
    case AfterMember => MoreMembersPlaced(ms, ts)
    case AfterMemberSep => MembersPlaced(ms, ts)
  }

  /**
    The shape `node_new_aelem` / `node_new_oelem` give a tree: array
    elements carry their list index, and every element wrapper carries the
    ordinal of its value's first token, which is its value's own ordinal.
   */
  predicate WellFormed(n: Node) {
    match n
    case ArrayNode(_, es) =>
      forall i :: 0 <= i < |es| ==> es[i].index == i && es[i].ordinal == es[i].val.ordinal && WellFormed(es[i].val)
    case ObjectNode(_, ms) =>
      forall i :: 0 <= i < |ms| ==> ms[i].ordinal == ms[i].val.ordinal && WellFormed(ms[i].val)
    case _ => true
  }

  /** The elements from index `k` on are well formed. */
  predicate ElemsFormed(es: seq<ArrayElem>, k: nat) {
    forall i :: k <= i < |es| ==> es[i].index == i && es[i].ordinal == es[i].val.ordinal && WellFormed(es[i].val)
  }

  predicate MembersFormed(ms: seq<ObjectElem>, k: nat) {
    forall i :: k <= i < |ms| ==> ms[i].ordinal == ms[i].val.ordinal && WellFormed(ms[i].val)
  }

  lemma ElemsFormedStep(es: seq<ArrayElem>, k: nat)
    requires k < |es| && es[k].index == k && es[k].ordinal == es[k].val.ordinal && WellFormed(es[k].val)
    requires ElemsFormed(es, k + 1)
    ensures ElemsFormed(es, k)
  {
  }

  lemma MembersFormedStep(ms: seq<ObjectElem>, k: nat)
    requires k < |ms| && ms[k].ordinal == ms[k].val.ordinal && WellFormed(ms[k].val)
    requires MembersFormed(ms, k + 1)
    ensures MembersFormed(ms, k)
  {
  }

  lemma FormedNodes(ordinal: nat, es: seq<ArrayElem>, ms: seq<ObjectElem>)
    ensures ElemsFormed(es, 0) ==> WellFormed(ArrayNode(ordinal, es))
    ensures MembersFormed(ms, 0) ==> WellFormed(ObjectNode(ordinal, ms))
  {
  }

  /**
    A parse function that built a node consumed exactly its tokens, and the
    node, every node inside it and every element wrapper sit at the first
    token of what they stand for.
   */
  predicate ValueBuilt(cur: Cursor, r: Parsed)
    requires CursorValid(cur) && CursorValid(r.cur)
  {
    r.Done? ==>
      && Next(cur) == Emit(Strip(r.node)) + Next(r.cur) && WellFormed(r.node)
      && ReadToken(cur).0.Some? && r.node.ordinal == ReadToken(cur).0.value.ordinal
      && Placed(r.node, Pending(cur))
  }

  /** What a parse that built a node leaves pending is what follows that node's tokens. */
  lemma PendingAfter(cur: Cursor, r: Parsed, ks: seq<TokenKind>)
    requires CursorValid(cur) && Leaves(cur, r) && r.Done? && Next(cur) == ks + Next(r.cur)
    ensures |ks| <= |Pending(cur)| && Pending(cur)[|ks|..] == Pending(r.cur)
  {
    var p, q := Pending(cur), Pending(r.cur);
    assert |Next(cur)| == |p| && |Next(r.cur)| == |q|;
    assert r.cur.pos >= cur.pos;
    if cur.slot.Some? {
      assert p == [cur.slot.value] + cur.tokens[cur.pos..];
    }
    assert p[|ks|..] == cur.tokens[r.cur.pos..];
  }

  /** `parser_parse_value` consumed exactly the tokens of the value it built. */
  lemma {:induction false} ValueSound(cur: Cursor)
    requires CursorValid(cur)
    ensures ValueBuilt(cur, ParseValue(cur))
    decreases Remaining(cur), 1
  {
    var (t, c1) := ReadToken(cur);
    if t.Some? && t.value.kind.BeginArray? {
      assert ParseValue(cur) == ParseArray(UnreadToken(c1, t.value));
      ReadNext(cur);
      UnreadNext(c1, t.value);
      ArraySound(UnreadToken(c1, t.value));
    } else if t.Some? && t.value.kind.BeginObject? {
      assert ParseValue(cur) == ParseObject(UnreadToken(c1, t.value));
      ReadNext(cur);
      UnreadNext(c1, t.value);
      ObjectSound(UnreadToken(c1, t.value));
    } else {
      assert ParseValue(cur) == Leaf(t, c1);
      LeafSound(cur);
    }
  }

  /** A scalar token is its own value. */
  lemma ScalarEmits(tok: Token)
    ensures Scalar(tok).Some? <==> IsValueStart(tok.kind) && !tok.kind.BeginArray? && !tok.kind.BeginObject?
    ensures Scalar(tok).Some? ==> Scalar(tok).value.ordinal == tok.ordinal && Emit(Strip(Scalar(tok).value)) == [tok.kind]
    ensures Scalar(tok).Some? ==> WellFormed(Scalar(tok).value)
  {
  }

  lemma LeafSound(cur: Cursor)
    requires CursorValid(cur)
    ensures ValueBuilt(cur, Leaf(ReadToken(cur).0, ReadToken(cur).1))
  {
    var (t, c1) := ReadToken(cur);
    if t.Some? && Scalar(t.value).Some? {
      ScalarBuilt(cur);
    }
  }

  /** A scalar token read off the cursor is a node built from exactly that token. */
  lemma ScalarBuilt(cur: Cursor)
    requires CursorValid(cur) && ReadToken(cur).0.Some? && Scalar(ReadToken(cur).0.value).Some?
    ensures ValueBuilt(cur, Done(Scalar(ReadToken(cur).0.value).value, ReadToken(cur).1))
  {
    var (t, c1) := ReadToken(cur);
    ReadNext(cur);
    ScalarEmits(t.value);
  }

  lemma {:induction false} ArraySound(cur: Cursor)
    requires CursorValid(cur) && NextIs(cur, BeginArray)
    ensures ValueBuilt(cur, ParseArray(cur))
    decreases Remaining(cur), 0
  {
    ReadNext(cur);
    var (t, c1) := ReadToken(cur);
    var r := ArrayLoop(c1, AfterBeginArray, t.value.ordinal, []);
    ArrayLoopSoundness(c1, AfterBeginArray, t.value.ordinal, []);
    if r.Done? {
      var es := r.node.elems;
      assert es[0..] == es;
      var vs := StripElems(es);
      assert Next(c1) == Elements(vs) + [EndArray] + Next(r.cur);
      Regroup([BeginArray], Elements(vs), [EndArray], Next(r.cur));
      assert Emit(Strip(r.node)) == [BeginArray] + Elements(vs) + [EndArray];
      FormedNodes(t.value.ordinal, es, []);
    }
  }

  lemma {:induction false} ArrayLoopSoundness(cur: Cursor, st: ArrayState, ordinal: nat, elems: seq<ArrayElem>)
    requires CursorValid(cur) && cur.slot.None?
    ensures ArrayLoopSound(cur, st, ordinal, elems, ArrayLoop(cur, st, ordinal, elems))
    decreases Remaining(cur), 3
  {
    var (t, c1) := ReadToken(cur);
    if t.Some? {
      ReadNext(cur);
      var tok := t.value;
      match ArrayStep(st, tok.kind)
      case CloseArray =>
        CloseArraySound(cur, st, ordinal, elems);
      case ArrayValue =>
        UnreadNext(c1, tok);
        ArrayElementSound(c1, tok, ordinal, elems);
      case ArrayGoto(st1) =>
        ValueSepSound(cur, st, ordinal, elems);
      case ArrayReject =>
    }
  }

  /** The closing bracket, at the start or after an element. */
  lemma CloseArraySound(cur: Cursor, st: ArrayState, ordinal: nat, elems: seq<ArrayElem>)
    requires CursorValid(cur) && cur.slot.None? && !st.AfterValueSep?
    requires ReadToken(cur).0.Some? && ReadToken(cur).0.value.kind.EndArray?
    ensures ArrayLoopSound(cur, st, ordinal, elems, ArrayLoop(cur, st, ordinal, elems))
  {
    ReadNext(cur);
    assert elems[|elems|..] == [];
  }

  /** The comma after an element. */
  lemma {:induction false} ValueSepSound(cur: Cursor, st: ArrayState, ordinal: nat, elems: seq<ArrayElem>)
    requires CursorValid(cur) && cur.slot.None? && st.AfterValue?
    requires ReadToken(cur).0.Some? && ReadToken(cur).0.value.kind.ValueSep?
    ensures ArrayLoopSound(cur, st, ordinal, elems, ArrayLoop(cur, st, ordinal, elems))
    decreases Remaining(cur), 2
  {
    ReadNext(cur);
    var (t, c1) := ReadToken(cur);
    ArrayLoopSoundness(c1, AfterValueSep, ordinal, elems);
    var r := ArrayLoop(c1, AfterValueSep, ordinal, elems);
    if r.Done? {
      var vs := StripElems(r.node.elems[|elems|..]);
      MoreElementsStep(vs);
      Regroup([ValueSep], Elements(vs), [EndArray], Next(r.cur));
    }
  }

  lemma {:induction false} ArrayElementSound(c1: Cursor, tok: Token, ordinal: nat, elems: seq<ArrayElem>)
    requires CursorValid(c1) && c1.slot.None? && c1.ordinal > 0
    ensures ArrayLoopSound(UnreadToken(c1, tok), AfterValueSep, ordinal, elems, ArrayElement(c1, tok, ordinal, elems))
    decreases Remaining(c1) + 1, 2
  {
    var c2 := UnreadToken(c1, tok);
    ValueSound(c2);
    var v := ParseValue(c2);
    if v.Done? {
      var e := ArrayElem(tok.ordinal, |elems|, v.node);
      ArrayLoopSoundness(v.cur, AfterValue, ordinal, elems + [e]);
      var r := ArrayLoop(v.cur, AfterValue, ordinal, elems + [e]);
      if r.Done? {
        var es := r.node.elems;
        assert es[|elems|] == (elems + [e])[|elems|];
        StripElemsAt(es, |elems|);
        Regroup(Emit(Strip(v.node)), MoreElements(StripElems(es[|elems| + 1..])), [EndArray], Next(r.cur));
        ElemsFormedStep(es, |elems|);
        PendingAfter(c2, v, Emit(Strip(v.node)));
        assert es[|elems|..][0] == e && es[|elems|..][1..] == es[|elems| + 1..];
        ElemsPlacedStep(es[|elems|..], Pending(c2), Pending(v.cur));
      }
    }
  }

  /** An element placed at the front of the tokens, and the rest placed after its value's tokens. */
  lemma ElemsPlacedStep(es: seq<ArrayElem>, ts: seq<Token>, after: seq<Token>)
    requires es != [] && Placed(es[0].val, ts)
    requires |Emit(Strip(es[0].val))| <= |ts| && ts[|Emit(Strip(es[0].val))|..] == after
    requires MoreElemsPlaced(es[1..], after)
    ensures ElemsPlaced(es, ts)
  {
  }

  lemma {:induction false} ObjectSound(cur: Cursor)
    requires CursorValid(cur) && NextIs(cur, BeginObject)
    ensures ValueBuilt(cur, ParseObject(cur))
    decreases Remaining(cur), 0
  {
    ReadNext(cur);
    var (t, c1) := ReadToken(cur);
    var r := ObjectLoop(c1, AfterBeginObject, t.value.ordinal, []);
    ObjectLoopSoundness(c1, AfterBeginObject, t.value.ordinal, []);
    if r.Done? {
      var es := r.node.members;
      assert es[0..] == es;
      var ms := StripMembers(es);
      assert Next(c1) == Members(ms) + [EndObject] + Next(r.cur);
      Regroup([BeginObject], Members(ms), [EndObject], Next(r.cur));
      assert Emit(Strip(r.node)) == [BeginObject] + Members(ms) + [EndObject];
      FormedNodes(t.value.ordinal, [], es);
    }
  }

  lemma {:induction false} ObjectLoopSoundness(cur: Cursor, st: ObjectState, ordinal: nat, members: seq<ObjectElem>)
    requires CursorValid(cur) && cur.slot.None?
    ensures ObjectLoopSound(cur, st, ordinal, members, ObjectLoop(cur, st, ordinal, members))
    decreases Remaining(cur), 3
  {
    var (t, c1) := ReadToken(cur);
    if t.Some? {
      var tok := t.value;
      match ObjectStep(st, tok.kind)
      case CloseObject =>
        CloseObjectSound(cur, st, ordinal, members);
      case ObjectValue(name) =>
        assert st == AfterNameSep(name);
        ReadNext(cur);
        UnreadNext(c1, tok);
        ObjectMemberSound(c1, tok, name, ordinal, members);
      case ObjectGoto(st1) =>
        if st1.AfterName? {
          NameSound(cur, st, ordinal, members);
        } else if st1.AfterNameSep? {
          NameSepSound(cur, st, ordinal, members);
        } else {
          MemberSepSound(cur, st, ordinal, members);
        }
      case ObjectReject =>
    }
  }

  /** The closing brace, at the start or after a member. */
  lemma CloseObjectSound(cur: Cursor, st: ObjectState, ordinal: nat, members: seq<ObjectElem>)
    requires CursorValid(cur) && cur.slot.None? && (st.AfterBeginObject? || st.AfterMember?)
    requires ReadToken(cur).0.Some? && ReadToken(cur).0.value.kind.EndObject?
    ensures ObjectLoopSound(cur, st, ordinal, members, ObjectLoop(cur, st, ordinal, members))
  {
    ReadNext(cur);
    assert members[|members|..] == [];
  }

  /** The colon after a member name. */
  lemma {:induction false} NameSepSound(cur: Cursor, st: ObjectState, ordinal: nat, members: seq<ObjectElem>)
    requires CursorValid(cur) && cur.slot.None? && st.AfterName?
    requires ReadToken(cur).0.Some? && ReadToken(cur).0.value.kind.NameSep?
    ensures ObjectLoopSound(cur, st, ordinal, members, ObjectLoop(cur, st, ordinal, members))
    decreases Remaining(cur), 2
  {
    ReadNext(cur);
    var (t, c1) := ReadToken(cur);
    ObjectLoopSoundness(c1, AfterNameSep(st.name), ordinal, members);
    var r := ObjectLoop(c1, AfterNameSep(st.name), ordinal, members);
    if r.Done? {
      var ms := StripMembers(r.node.members[|members|..]);
      Regroup([NameSep], Emit(ms[0].val) + MoreMembers(ms[1..]), [EndObject], Next(r.cur));
      Assoc([NameSep], Emit(ms[0].val), MoreMembers(ms[1..]));
    }
  }

  /** The comma after a member. */
  lemma {:induction false} MemberSepSound(cur: Cursor, st: ObjectState, ordinal: nat, members: seq<ObjectElem>)
    requires CursorValid(cur) && cur.slot.None? && st.AfterMember?
    requires ReadToken(cur).0.Some? && ReadToken(cur).0.value.kind.ValueSep?
    ensures ObjectLoopSound(cur, st, ordinal, members, ObjectLoop(cur, st, ordinal, members))
    decreases Remaining(cur), 2
  {
    ReadNext(cur);
    var (t, c1) := ReadToken(cur);
    ObjectLoopSoundness(c1, AfterMemberSep, ordinal, members);
    var r := ObjectLoop(c1, AfterMemberSep, ordinal, members);
    if r.Done? {
      var ms := StripMembers(r.node.members[|members|..]);
      MoreMembersStep(ms);
      Regroup([ValueSep], Members(ms), [EndObject], Next(r.cur));
    }
  }

  /** A member name read at the start of a member: the recursion goes on after it. */
  lemma {:induction false} NameSound(cur: Cursor, st: ObjectState, ordinal: nat, members: seq<ObjectElem>)
    requires CursorValid(cur) && cur.slot.None? && (st.AfterBeginObject? || st.AfterMemberSep?)
    requires ReadToken(cur).0.Some? && ReadToken(cur).0.value.kind.StringToken?
    ensures ObjectLoopSound(cur, st, ordinal, members, ObjectLoop(cur, st, ordinal, members))
    decreases Remaining(cur), 2
  {
    ReadNext(cur);
    var (t, c1) := ReadToken(cur);
    var name := t.value.kind.text;
    ObjectLoopSoundness(c1, AfterName(name), ordinal, members);
    var r := ObjectLoop(c1, AfterName(name), ordinal, members);
    if r.Done? {
      var es := r.node.members;
      StripMembersAt(es, |members|);
      var ms := StripMembers(es[|members|..]);
      assert ms[0].name == name;
      assert Members(ms) == MemberTokens(ms[0]) + MoreMembers(ms[1..]);
      RegroupName(StringToken(name), NameSep, Emit(ms[0].val), MoreMembers(ms[1..]), [EndObject], Next(r.cur));
    }
  }

  lemma {:induction false} ObjectMemberSound(c1: Cursor, tok: Token, name: seq<Byte>, ordinal: nat, members: seq<ObjectElem>)
    requires CursorValid(c1) && c1.slot.None? && c1.ordinal > 0
    ensures ObjectLoopSound(UnreadToken(c1, tok), AfterNameSep(name), ordinal, members,
                            ObjectMember(c1, tok, name, ordinal, members))
    decreases Remaining(c1) + 1, 2
  {
    var c2 := UnreadToken(c1, tok);
    ValueSound(c2);
    var v := ParseValue(c2);
    if v.Done? {
      var e := ObjectElem(tok.ordinal, name, v.node);
      ObjectLoopSoundness(v.cur, AfterMember, ordinal, members + [e]);
      var r := ObjectLoop(v.cur, AfterMember, ordinal, members + [e]);
      if r.Done? {
        var es := r.node.members;
        assert es[|members|] == (members + [e])[|members|];
        StripMembersAt(es, |members|);
        Regroup(Emit(Strip(v.node)), MoreMembers(StripMembers(es[|members| + 1..])), [EndObject], Next(r.cur));
        MembersFormedStep(es, |members|);
        PendingAfter(c2, v, Emit(Strip(v.node)));
        assert es[|members|..][0] == e && es[|members|..][1..] == es[|members| + 1..];
      }
    }
  }

  // Completeness: the tokens of a value are parsed back into that value.

  /** An array loop that finished with exactly the elements `vs` after `elems`, leaving `rest`. */
  predicate ArrayLoopBuilt(ordinal: nat, elems: seq<ArrayElem>, vs: seq<Value>, rest: seq<TokenKind>, r: Parsed)
    requires CursorValid(r.cur)
  {
    && r.Done? && r.node.ArrayNode? && r.node.ordinal == ordinal && elems <= r.node.elems
    && StripElems(r.node.elems[|elems|..]) == vs && Next(r.cur) == rest
  }

  predicate ObjectLoopBuilt(ordinal: nat, members: seq<ObjectElem>, ms: seq<Member>, rest: seq<TokenKind>, r: Parsed)
    requires CursorValid(r.cur)
  {
    && r.Done? && r.node.ObjectNode? && r.node.ordinal == ordinal && members <= r.node.members
    && StripMembers(r.node.members[|members|..]) == ms && Next(r.cur) == rest
  }

  /** `parser_parse_value` reads back any value from its tokens, and stops right after them. */
  lemma {:induction false} ValueComplete(cur: Cursor, v: Value, rest: seq<TokenKind>)
    requires CursorValid(cur) && Next(cur) == Emit(v) + rest
    ensures ParseValue(cur).Done? && Strip(ParseValue(cur).node) == v && Next(ParseValue(cur).cur) == rest
    decreases Remaining(cur), 1
  {
    ReadNext(cur);
    var (t, c1) := ReadToken(cur);
    HeadOf(t.value.kind, Next(c1), Emit(v), rest);
    match v
    case VArray(items) =>
      assert ParseValue(cur) == ParseArray(UnreadToken(c1, t.value));
      UnreadNext(c1, t.value);
      ArrayComplete(UnreadToken(c1, t.value), items, rest);
    case VObject(ms) =>
      assert ParseValue(cur) == ParseObject(UnreadToken(c1, t.value));
      UnreadNext(c1, t.value);
      ObjectComplete(UnreadToken(c1, t.value), ms, rest);
    case _ =>
      LeafComplete(cur, v, rest);
  }

  lemma LeafComplete(cur: Cursor, v: Value, rest: seq<TokenKind>)
    requires CursorValid(cur) && Next(cur) == Emit(v) + rest && !v.VArray? && !v.VObject?
    ensures ParseValue(cur).Done? && Strip(ParseValue(cur).node) == v && Next(ParseValue(cur).cur) == rest
  {
    ReadNext(cur);
    var (t, c1) := ReadToken(cur);
    ConsInjective(t.value.kind, Next(c1), Emit(v)[0], rest);
    ScalarEmits(t.value);
    assert ParseValue(cur) == Leaf(t, c1);
  }

  lemma {:induction false} ArrayComplete(cur: Cursor, items: seq<Value>, rest: seq<TokenKind>)
    requires CursorValid(cur) && NextIs(cur, BeginArray) && Next(cur) == Emit(VArray(items)) + rest
    ensures ParseArray(cur).Done? && Strip(ParseArray(cur).node) == VArray(items) && Next(ParseArray(cur).cur) == rest
    decreases Remaining(cur), 0
  {
    Assoc([BeginArray], Elements(items), [EndArray]);
    OpenHead(cur, Emit(VArray(items)), Elements(items) + [EndArray], rest);
    var (t, c1) := ReadToken(cur);
    ArrayLoopComplete(c1, AfterBeginArray, t.value.ordinal, [], items, rest);
  }

  /** Reading the first token of a value leaves the rest of its tokens. */
  lemma OpenHead(cur: Cursor, x: seq<TokenKind>, tail: seq<TokenKind>, rest: seq<TokenKind>)
    requires CursorValid(cur) && Next(cur) == x + rest && x != [] && x == [x[0]] + tail
    ensures ReadToken(cur).0.Some? && ReadToken(cur).0.value.kind == x[0]
    ensures Next(ReadToken(cur).1) == tail + rest
  {
    ReadNext(cur);
    var (t, c1) := ReadToken(cur);
    Assoc([x[0]], tail, rest);
    ConsInjective(t.value.kind, Next(c1), x[0], tail + rest);
  }

  lemma {:induction false} ArrayLoopComplete(cur: Cursor, st: ArrayState, ordinal: nat, elems: seq<ArrayElem>,
                                             vs: seq<Value>, rest: seq<TokenKind>)
    requires CursorValid(cur) && cur.slot.None?
    requires st.AfterValueSep? ==> vs != []
    requires Next(cur) == ArrayRest(st, vs) + rest
    ensures ArrayLoopBuilt(ordinal, elems, vs, rest, ArrayLoop(cur, st, ordinal, elems))
    decreases Remaining(cur), 3
  {
    if vs == [] {
      CloseArrayComplete(cur, st, ordinal, elems, rest);
    } else if st.AfterValue? {
      ValueSepComplete(cur, st, ordinal, elems, vs, rest);
    } else {
      ReadNext(cur);
      var (t, c1) := ReadToken(cur);
      Regroup(Emit(vs[0]), MoreElements(vs[1..]), [EndArray], rest);
      HeadOf(t.value.kind, Next(c1), Emit(vs[0]), MoreElements(vs[1..]) + [EndArray] + rest);
      assert ArrayStep(st, t.value.kind) == ArrayValue;
      UnreadNext(c1, t.value);
      ArrayElementComplete(c1, t.value, ordinal, elems, vs, rest);
    }
  }

  lemma CloseArrayComplete(cur: Cursor, st: ArrayState, ordinal: nat, elems: seq<ArrayElem>, rest: seq<TokenKind>)
    requires CursorValid(cur) && cur.slot.None? && !st.AfterValueSep?
    requires Next(cur) == ArrayRest(st, []) + rest
    ensures ArrayLoopBuilt(ordinal, elems, [], rest, ArrayLoop(cur, st, ordinal, elems))
  {
    ReadNext(cur);
    var (t, c1) := ReadToken(cur);
    ConsInjective(t.value.kind, Next(c1), EndArray, rest);
    assert elems[|elems|..] == [];
  }

  lemma {:induction false} ValueSepComplete(cur: Cursor, st: ArrayState, ordinal: nat, elems: seq<ArrayElem>,
                                            vs: seq<Value>, rest: seq<TokenKind>)
    requires CursorValid(cur) && cur.slot.None? && st.AfterValue? && vs != []
    requires Next(cur) == ArrayRest(st, vs) + rest
    ensures ArrayLoopBuilt(ordinal, elems, vs, rest, ArrayLoop(cur, st, ordinal, elems))
    decreases Remaining(cur), 2
  {
    ReadNext(cur);
    var (t, c1) := ReadToken(cur);
    MoreElementsStep(vs);
    Regroup([ValueSep], Elements(vs), [EndArray], rest);
    ConsInjective(t.value.kind, Next(c1), ValueSep, Elements(vs) + [EndArray] + rest);
    ArrayLoopComplete(c1, AfterValueSep, ordinal, elems, vs, rest);
  }

  lemma {:induction false} ArrayElementComplete(c1: Cursor, tok: Token, ordinal: nat, elems: seq<ArrayElem>,
                                                vs: seq<Value>, rest: seq<TokenKind>)
    requires CursorValid(c1) && c1.slot.None? && c1.ordinal > 0 && vs != []
    requires Next(UnreadToken(c1, tok)) == Elements(vs) + [EndArray] + rest
    ensures ArrayLoopBuilt(ordinal, elems, vs, rest, ArrayElement(c1, tok, ordinal, elems))
    decreases Remaining(c1) + 1, 2
  {
    var c2 := UnreadToken(c1, tok);
    var tail := MoreElements(vs[1..]);
    Regroup(Emit(vs[0]), tail, [EndArray], rest);
    ValueComplete(c2, vs[0], tail + [EndArray] + rest);
    var v := ParseValue(c2);
    var e := ArrayElem(tok.ordinal, |elems|, v.node);
    ArrayLoopComplete(v.cur, AfterValue, ordinal, elems + [e], vs[1..], rest);
    var r := ArrayLoop(v.cur, AfterValue, ordinal, elems + [e]);
    assert ArrayElement(c1, tok, ordinal, elems) == r;
    ElemsJoin(elems, e, r.node.elems, vs);
  }

  /** The element just built, followed by the ones the loop built after it, strip to the whole list. */
  lemma ElemsJoin(elems: seq<ArrayElem>, e: ArrayElem, es: seq<ArrayElem>, vs: seq<Value>)
    requires vs != [] && elems + [e] <= es && Strip(e.val) == vs[0]
    requires StripElems(es[|elems| + 1..]) == vs[1..]
    ensures elems <= es && StripElems(es[|elems|..]) == vs
  {
    assert es[|elems|] == (elems + [e])[|elems|];
    StripElemsAt(es, |elems|);
    ConsSplit(vs);
  }

  lemma {:induction false} ObjectComplete(cur: Cursor, ms: seq<Member>, rest: seq<TokenKind>)
    requires CursorValid(cur) && NextIs(cur, BeginObject) && Next(cur) == Emit(VObject(ms)) + rest
    ensures ParseObject(cur).Done? && Strip(ParseObject(cur).node) == VObject(ms) && Next(ParseObject(cur).cur) == rest
    decreases Remaining(cur), 0
  {
    Assoc([BeginObject], Members(ms), [EndObject]);
    OpenHead(cur, Emit(VObject(ms)), Members(ms) + [EndObject], rest);
    var (t, c1) := ReadToken(cur);
    ObjectLoopComplete(c1, AfterBeginObject, t.value.ordinal, [], ms, rest);
  }

  lemma {:induction false} ObjectLoopComplete(cur: Cursor, st: ObjectState, ordinal: nat, members: seq<ObjectElem>,
                                              ms: seq<Member>, rest: seq<TokenKind>)
    requires CursorValid(cur) && cur.slot.None?
    requires (st.AfterName? || st.AfterNameSep?) ==> ms != [] && ms[0].name == st.name
    requires st.AfterMemberSep? ==> ms != []
    requires Next(cur) == ObjectRest(st, ms) + rest
    ensures ObjectLoopBuilt(ordinal, members, ms, rest, ObjectLoop(cur, st, ordinal, members))
    decreases Remaining(cur), 3
  {
    match st
    case AfterName(name) =>
      NameSepComplete(cur, st, ordinal, members, ms, rest);
    case AfterNameSep(name) =>
      ReadNext(cur);
      var (t, c1) := ReadToken(cur);
      Regroup(Emit(ms[0].val), MoreMembers(ms[1..]), [EndObject], rest);
      HeadOf(t.value.kind, Next(c1), Emit(ms[0].val), MoreMembers(ms[1..]) + [EndObject] + rest);
      assert ObjectStep(st, t.value.kind) == ObjectValue(name);
      UnreadNext(c1, t.value);
      ObjectMemberComplete(c1, t.value, name, ordinal, members, ms, rest);
    case AfterBeginObject =>
      if ms == [] {
        CloseObjectComplete(cur, st, ordinal, members, rest);
      } else {
        NameComplete(cur, st, ordinal, members, ms, rest);
      }
    case AfterMember =>
      if ms == [] {
        CloseObjectComplete(cur, st, ordinal, members, rest);
      } else {
        MemberSepComplete(cur, st, ordinal, members, ms, rest);
      }
    case AfterMemberSep =>
      NameComplete(cur, st, ordinal, members, ms, rest);
  }

  lemma CloseObjectComplete(cur: Cursor, st: ObjectState, ordinal: nat, members: seq<ObjectElem>, rest: seq<TokenKind>)
    requires CursorValid(cur) && cur.slot.None? && (st.AfterBeginObject? || st.AfterMember?)
    requires Next(cur) == ObjectRest(st, []) + rest
    ensures ObjectLoopBuilt(ordinal, members, [], rest, ObjectLoop(cur, st, ordinal, members))
  {
    ReadNext(cur);
    var (t, c1) := ReadToken(cur);
    ConsInjective(t.value.kind, Next(c1), EndObject, rest);
    assert members[|members|..] == [];
  }

  lemma {:induction false} NameComplete(cur: Cursor, st: ObjectState, ordinal: nat, members: seq<ObjectElem>,
                                        ms: seq<Member>, rest: seq<TokenKind>)
    requires CursorValid(cur) && cur.slot.None? && (st.AfterBeginObject? || st.AfterMemberSep?) && ms != []
    requires Next(cur) == ObjectRest(st, ms) + rest
    ensures ObjectLoopBuilt(ordinal, members, ms, rest, ObjectLoop(cur, st, ordinal, members))
    decreases Remaining(cur), 2
  {
    NameHead(cur, st, ms, rest);
    var (t, c1) := ReadToken(cur);
    assert ObjectStep(st, t.value.kind) == ObjectGoto(AfterName(ms[0].name));
    ObjectLoopComplete(c1, AfterName(ms[0].name), ordinal, members, ms, rest);
  }

  /** The tokens of a member start with its name. */
  lemma NameHead(cur: Cursor, st: ObjectState, ms: seq<Member>, rest: seq<TokenKind>)
    requires CursorValid(cur) && (st.AfterBeginObject? || st.AfterMemberSep?) && ms != []
    requires Next(cur) == ObjectRest(st, ms) + rest
    ensures ReadToken(cur).0.Some? && ReadToken(cur).0.value.kind == StringToken(ms[0].name)
    ensures Next(ReadToken(cur).1) == ObjectRest(AfterName(ms[0].name), ms) + rest
  {
    ReadNext(cur);
    var (t, c1) := ReadToken(cur);
    var name := ms[0].name;
    var e := Emit(ms[0].val);
    var tail := MoreMembers(ms[1..]);
    assert Members(ms) == [StringToken(name), NameSep] + e + tail;
    RegroupName(StringToken(name), NameSep, e, tail, [EndObject], rest);
    ConsInjective(t.value.kind, Next(c1), StringToken(name), [NameSep] + e + tail + [EndObject] + rest);
  }

  lemma {:induction false} NameSepComplete(cur: Cursor, st: ObjectState, ordinal: nat, members: seq<ObjectElem>,
                                           ms: seq<Member>, rest: seq<TokenKind>)
    requires CursorValid(cur) && cur.slot.None? && st.AfterName? && ms != [] && ms[0].name == st.name
    requires Next(cur) == ObjectRest(st, ms) + rest
    ensures ObjectLoopBuilt(ordinal, members, ms, rest, ObjectLoop(cur, st, ordinal, members))
    decreases Remaining(cur), 2
  {
    ReadNext(cur);
    var (t, c1) := ReadToken(cur);
    var e := Emit(ms[0].val);
    var tail := MoreMembers(ms[1..]);
    Regroup4([NameSep], e, tail, [EndObject], rest);
    ConsInjective(t.value.kind, Next(c1), NameSep, e + tail + [EndObject] + rest);
    ObjectLoopComplete(c1, AfterNameSep(st.name), ordinal, members, ms, rest);
  }

  lemma {:induction false} MemberSepComplete(cur: Cursor, st: ObjectState, ordinal: nat, members: seq<ObjectElem>,
                                             ms: seq<Member>, rest: seq<TokenKind>)
    requires CursorValid(cur) && cur.slot.None? && st.AfterMember? && ms != []
    requires Next(cur) == ObjectRest(st, ms) + rest
    ensures ObjectLoopBuilt(ordinal, members, ms, rest, ObjectLoop(cur, st, ordinal, members))
    decreases Remaining(cur), 2
  {
    ReadNext(cur);
    var (t, c1) := ReadToken(cur);
    MoreMembersStep(ms);
    Regroup([ValueSep], Members(ms), [EndObject], rest);
    ConsInjective(t.value.kind, Next(c1), ValueSep, Members(ms) + [EndObject] + rest);
    ObjectLoopComplete(c1, AfterMemberSep, ordinal, members, ms, rest);
  }

  lemma {:induction false} ObjectMemberComplete(c1: Cursor, tok: Token, name: seq<Byte>, ordinal: nat,
                                                members: seq<ObjectElem>, ms: seq<Member>, rest: seq<TokenKind>)
    requires CursorValid(c1) && c1.slot.None? && c1.ordinal > 0 && ms != [] && ms[0].name == name
    requires Next(UnreadToken(c1, tok)) == ObjectRest(AfterNameSep(name), ms) + rest
    ensures ObjectLoopBuilt(ordinal, members, ms, rest, ObjectMember(c1, tok, name, ordinal, members))
    decreases Remaining(c1) + 1, 2
  {
    var c2 := UnreadToken(c1, tok);
    var tail := MoreMembers(ms[1..]);
    Regroup(Emit(ms[0].val), tail, [EndObject], rest);
    ValueComplete(c2, ms[0].val, tail + [EndObject] + rest);
    var v := ParseValue(c2);
    var e := ObjectElem(tok.ordinal, name, v.node);
    ObjectLoopComplete(v.cur, AfterMember, ordinal, members + [e], ms[1..], rest);
    var r := ObjectLoop(v.cur, AfterMember, ordinal, members + [e]);
    var es := r.node.members;
    assert es[|members|] == (members + [e])[|members|];
    StripMembersAt(es, |members|);
    ConsSplit(ms);
  }

  // Regrouping the token sequences the grammar lemmas above split and join.

  /** Regrouping a token sequence that continues after a closing token. */
  lemma Regroup(x: seq<TokenKind>, m: seq<TokenKind>, z: seq<TokenKind>, n: seq<TokenKind>)
    ensures x + (m + z + n) == x + m + z + n
  {
  }

  lemma Assoc(x: seq<TokenKind>, y: seq<TokenKind>, z: seq<TokenKind>)
    ensures x + (y + z) == x + y + z
  {
  }

  /** Regrouping a member name and colon in front of the rest of an object. */
  lemma RegroupName(a: TokenKind, b: TokenKind, e: seq<TokenKind>, m: seq<TokenKind>, z: seq<TokenKind>, n: seq<TokenKind>)
    ensures [a] + ([b] + e + m + z + n) == [a, b] + e + m + z + n
  {
  }

  lemma Regroup4(x: seq<TokenKind>, e: seq<TokenKind>, m: seq<TokenKind>, z: seq<TokenKind>, n: seq<TokenKind>)
    ensures x + (e + m + z + n) == x + e + m + z + n
  {
  }

  /** Two token sequences that agree start with the same token and agree after it. */
  lemma ConsInjective(k: TokenKind, a: seq<TokenKind>, j: TokenKind, b: seq<TokenKind>)
    requires [k] + a == [j] + b
    ensures k == j && a == b
  {
    assert ([k] + a)[1..] == a;
    assert ([j] + b)[1..] == b;
  }

  lemma HeadOf(k: TokenKind, a: seq<TokenKind>, x: seq<TokenKind>, y: seq<TokenKind>)
    requires [k] + a == x + y && x != []
    ensures k == x[0]
  {
    assert ([k] + a)[0] == (x + y)[0];
  }

  lemma ConsSplit<T>(xs: seq<T>)
    requires xs != []
    ensures [xs[0]] + xs[1..] == xs
  {
  }
}

=== FILE: reader.dfy ===
/**
  `parser_parse` (jsonmodoki.c:1293-1307): lex the whole text, then parse
  one value from the token list, then decide the error.

  As written, the error kind becomes SUCCESS whenever the token list is used
  up, whether or not a value was built: `[1,]` comes out as SUCCESS with no
  root. `ParseTokens` and `Parse` model that; `ParseTokensStrict` and
  `ParseStrict` are the corrected decision (SUCCESS exactly when a value was
  built from all the tokens), and they are what the correctness lemmas are
  about.
 */
module Reader {
  import opened Chars
  import opened Types
  import opened TokenCursor
  import opened Syntax
  import opened Lexer
  import opened Parser

  /** The `noderoot` and `error` fields of `parser_t` after `parser_parse`. */
  datatype Outcome = Outcome(root: Option<Node>, error: Error)

  /** `p->error` after the parse: a failure's recorded error, or the initial GENERAL/0. */
  function Recorded(r: Parsed): Error {
    Error(ErrorGeneral, if r.Failed? && r.recorded.Some? then r.recorded.value else 0)
  }

  /** The node `parser_parse_value` returned, or NULL. */
  function Root(r: Parsed): Option<Node> {
    if r.Done? then Some(r.node) else None
  }

  /** `parser_parse` after a successful lex, as written. */
  function ParseTokens(tokens: seq<Token>): Outcome {
    var r := ParseValue(Open(tokens));
    var e := Recorded(r);
    if ListLeft(r.cur) then Outcome(Root(r), e) else Outcome(Root(r), Error(Success, e.ordinal))
  }

  /** `parser_parse`, as written: a lexer error is copied and nothing is parsed. */
  function Parse(conv: seq<Byte> -> bool, text: seq<Byte>): Outcome {
    var l := Lex(conv, text);
    if l.error.kind != Success then Outcome(None, l.error) else ParseTokens(l.tokens)
  }

  /** The corrected decision: SUCCESS only for a value built from all the tokens. */
  function ParseTokensStrict(tokens: seq<Token>): Outcome {
    var r := ParseValue(Open(tokens));
    if r.Done? && !ListLeft(r.cur) then Outcome(Some(r.node), Error(Success, 0))
    else Outcome(Root(r), Recorded(r))
  }

  function ParseStrict(conv: seq<Byte> -> bool, text: seq<Byte>): Outcome {
    var l := Lex(conv, text);
    if l.error.kind != Success then Outcome(None, l.error) else ParseTokensStrict(l.tokens)
  }

  /** After a whole parse, no token is pending exactly when the list is used up. */
  lemma UsedUp(r: Parsed, tokens: seq<Token>)
    requires r == ParseValue(Open(tokens))
    ensures !ListLeft(r.cur) <==> Next(r.cur) == []
  {
    ListLeftPending(r.cur);
    assert |Next(r.cur)| == |Pending(r.cur)|;
  }

  /** Whenever the parse built a root, the as-written and corrected decisions agree; otherwise they differ exactly on a SUCCESS without a root. */
  lemma StrictAgrees(tokens: seq<Token>)
    ensures ParseTokens(tokens).root == ParseTokensStrict(tokens).root
    ensures ParseTokens(tokens) != ParseTokensStrict(tokens)
            <==> ParseTokens(tokens).root.None? && ParseTokens(tokens).error.kind == Success
  {
  }

  /** A SUCCESS of the corrected parse is a value whose tokens are the whole list. */
  lemma StrictSound(tokens: seq<Token>)
    ensures var o := ParseTokensStrict(tokens);
            o.error.kind == Success ==> o.root.Some? && Kinds(tokens) == Emit(Strip(o.root.value))
  {
    var c := Open(tokens);
    var r := ParseValue(c);
    ValueSound(c);
    UsedUp(r, tokens);
  }

  /** The tokens of any value parse back to that value, with SUCCESS. */
  lemma StrictComplete(tokens: seq<Token>, v: Value)
    requires Kinds(tokens) == Emit(v)
    ensures var o := ParseTokensStrict(tokens);
            o.root.Some? && Strip(o.root.value) == v && o.error == Error(Success, 0)
  {
    var c := Open(tokens);
    ValueComplete(c, v, []);
    UsedUp(ParseValue(c), tokens);
  }

  /** The as-written parse also reads every value back from its tokens. */
  lemma ParseTokensComplete(tokens: seq<Token>, v: Value)
    requires Kinds(tokens) == Emit(v)
    ensures ParseTokens(tokens) == ParseTokensStrict(tokens)
    ensures ParseTokens(tokens).root.Some? && Strip(ParseTokens(tokens).root.value) == v
    ensures ParseTokens(tokens).error == Error(Success, 0)
  {
    StrictComplete(tokens, v);
    StrictAgrees(tokens);
  }

  /** The tokens of `[1,]`: ordinals are the positions of their first characters. */
  function TrailingComma(): seq<Token> {
    [Token(1, BeginArray), Token(2, NumberToken([0x31])), Token(3, ValueSep), Token(4, EndArray)]
  }

  /** After `[1`, the array loop reads `,` and then fails at `]`. */
  lemma TrailingCommaLoop()
    ensures ArrayLoop(Cursor(TrailingComma(), 2, None, 2), AfterValue, 1, [ArrayElem(2, 0, NumberNode(2, [0x31]))])
            == Failed(Some(4), Cursor(TrailingComma(), 4, None, 4))
  {
    var ts := TrailingComma();
    var one := [ArrayElem(2, 0, NumberNode(2, [0x31]))];
    assert ArrayLoop(Cursor(ts, 3, None, 3), AfterValueSep, 1, one) == Failed(Some(4), Cursor(ts, 4, None, 4));
  }

  /** After `[`, the array loop parses `1` as its first element and goes on. */
  lemma TrailingCommaElement()
    ensures ArrayLoop(Cursor(TrailingComma(), 1, None, 1), AfterBeginArray, 1, [])
            == Failed(Some(4), Cursor(TrailingComma(), 4, None, 4))
  {
    var ts := TrailingComma();
    var c2 := Cursor(ts, 2, None, 2);
    TrailingCommaLoop();
    assert ParseValue(UnreadToken(c2, ts[1])) == Done(NumberNode(2, [0x31]), c2);
  }

  /** Parsing `[1,]` stops at `]`, where a value was expected, with every token read. */
  lemma TrailingCommaFails()
    ensures ParseValue(Open(TrailingComma())) == Failed(Some(4), Cursor(TrailingComma(), 4, None, 4))
  {
    var ts := TrailingComma();
    TrailingCommaElement();
    assert ParseValue(Open(ts)) == ParseArray(UnreadToken(Cursor(ts, 1, None, 1), ts[0]));
  }

  /** As written, `[1,]` is a SUCCESS at ordinal 4 with no root; the corrected parse reports the error at `]`. */
  lemma TrailingCommaSucceeds()
    ensures ParseTokens(TrailingComma()) == Outcome(None, Error(Success, 4))
    ensures ParseTokensStrict(TrailingComma()) == Outcome(None, Error(ErrorGeneral, 4))
  {
    TrailingCommaFails();
  }

  /** A lexer error is reported as is, with no root. */
  lemma LexErrorReported(conv: seq<Byte> -> bool, text: seq<Byte>)
    ensures var t := Tokenize(conv, text[..CStrLen(text)], 0);
            t.None? ==> Parse(conv, text) == Outcome(None, Lex(conv, text).error) && Parse(conv, text).error.kind == ErrorGeneral
  {
    LexTokenizes(conv, text);
  }

  /**
    The corrected reader accepts a text exactly when the text up to its NUL
    splits into tokens and those tokens are the tokens of a value, and then
    gives that value back.
   */
  lemma ParseStrictSound(conv: seq<Byte> -> bool, text: seq<Byte>)
    ensures var o := ParseStrict(conv, text);
            var t := Tokenize(conv, text[..CStrLen(text)], 0);
            o.error.kind == Success ==> t.Some? && o.root.Some? && Kinds(t.value) == Emit(Strip(o.root.value))
  {
    LexTokenizes(conv, text);
    StrictSound(Lex(conv, text).tokens);
  }

  lemma ParseStrictComplete(conv: seq<Byte> -> bool, text: seq<Byte>, v: Value)
    requires var t := Tokenize(conv, text[..CStrLen(text)], 0); t.Some? && Kinds(t.value) == Emit(v)
    ensures ParseStrict(conv, text).error == Error(Success, 0)
    ensures ParseStrict(conv, text).root.Some? && Strip(ParseStrict(conv, text).root.value) == v
  {
    LexTokenizes(conv, text);
    StrictComplete(Lex(conv, text).tokens, v);
  }
}

=== FILE: scan.dfy ===
/**
  The two character-level macros every sub-lexer shares (jsonmodoki.c:102-148):
  `lexer_expected` consumes one given character, and `lexer_peek_end_value`
  checks that the next character ends a value and pushes it back. Both record
  a general error at the ordinal after the offending read.
 */
module Scan {
  import opened Chars
  import opened Types
  import opened ByteSource

  /** `lexer_expected(l, want)`. */
  function Expect(s: Source, want: Char): (r: Result<Source>)
    requires SourceValid(s)
    ensures r.Ok? <==> HeadOrEof(Upcoming(s)) == want
    ensures r.Ok? ==> && SourceValid(r.value) && r.value.input == s.input
                      && r.value.ordinal == s.ordinal + 1 && r.value.slot.None?
                      && (want != EOF ==> Advances(s, r.value) && Upcoming(s) == [want as Byte] + Upcoming(r.value))
    ensures r.Err? ==> r.error == Error(ErrorGeneral, s.ordinal + 1)
  {
    var (c, s1) := Read(s);
    ReadSplits(s);
    ReadAdvances(s);
    if c != want then Err(Error(ErrorGeneral, s1.ordinal)) else Ok(s1)
  }

  /** `lexer_peek_end_value`: the character is looked at, then pushed back. */
  function PeekEndValue(s: Source): (r: Result<Source>)
    requires SourceValid(s)
    ensures r.Ok? <==> EndValueNext(Upcoming(s))
    ensures r.Ok? ==> Advances(s, r.value) && Upcoming(r.value) == Upcoming(s) && r.value.ordinal == s.ordinal
    ensures r.Err? ==> r.error == Error(ErrorGeneral, s.ordinal + 1)
  {
    var (c, s1) := Read(s);
    ReadAdvances(s);
    if IsEndValue(c) then Ok(Unread(s1, c)) else Err(Error(ErrorGeneral, s1.ordinal))
  }
}

=== FILE: stringbuf.dfy ===
/**
  The growable, NUL-terminated byte buffer of string.c. `cells` is the
  allocated storage (`capacity` octets), `len` the number of content octets;
  the octet at `len` is the terminating NUL. Storage that `xrealloc` adds is
  uninitialised in C; the model fills it with zeros.
 */
module StringBuf {
  import opened Chars

  datatype Buf = Buf(cells: seq<Byte>, len: nat, capacity: nat)

  /** What every `string_t` keeps: room for the content and its terminator. */
  predicate BufValid(b: Buf) {
    |b.cells| == b.capacity && b.len < b.capacity && b.cells[b.len] == 0
  }

  /** The content octets, `bytes[0..len-1]`. */
  function Content(b: Buf): seq<Byte>
    requires b.len <= |b.cells|
  {
    b.cells[..b.len]
  }

  const InitialCapacity: nat := 16

  /** `string_new`. */
  function New(): (b: Buf)
    ensures BufValid(b)
    ensures Content(b) == []
    ensures b.len == 0 && b.capacity == InitialCapacity && b.cells[0] == 0
  {
    Buf(seq(InitialCapacity, _ => 0), 0, InitialCapacity)
  }

  /** `xrealloc` to twice the capacity; the old storage is kept. */
  function Grow(b: Buf): (r: Buf)
    requires |b.cells| == b.capacity
    ensures |r.cells| == r.capacity == 2 * b.capacity
    ensures r.len == b.len
    ensures r.cells[..b.capacity] == b.cells
  {
    Buf(b.cells + seq(b.capacity, _ => 0), b.len, 2 * b.capacity)
  }

  /**
    `string_add_char`: the argument is an `int` stored into a `char`, so only
    its low octet is kept.
   */
  function AddChar(b: Buf, c: int): (r: Buf)
    requires BufValid(b)
    ensures BufValid(r)
    ensures r.len == b.len + 1
    ensures Content(r) == Content(b) + [c % 0x100]
    ensures r.cells[b.len] == c % 0x100 && r.cells[r.len] == 0
    ensures b.len + 1 >= b.capacity ==> r.capacity == 2 * b.capacity
    ensures b.len + 1 < b.capacity ==> r.capacity == b.capacity
  {
    var g := if b.len + 1 >= b.capacity then Grow(b) else b;
    Buf(g.cells[b.len := c % 0x100][b.len + 1 := 0], b.len + 1, g.capacity)
  }

  /** The `for` loops of the string lexer that append each octet of `bs`. */
  function AddChars(b: Buf, bs: seq<Byte>): (r: Buf)
    requires BufValid(b)
    ensures BufValid(r)
    ensures Content(r) == Content(b) + bs
    ensures r.len == b.len + |bs|
    decreases |bs|
  {
    if |bs| == 0 then b else AddChars(AddChar(b, bs[0]), bs[1..])
  }

  /** A fresh buffer after appending `bs` holds exactly `bs`. */
  lemma FreshAddChars(bs: seq<Byte>)
    ensures Content(AddChars(New(), bs)) == bs
  {
    assert Content(New()) + bs == bs;
  }

  /** `string_add_string`: appends the C string `str`, up to its NUL. */
  method AddString(b: Buf, str: seq<Byte>) returns (r: Buf)
    requires BufValid(b)
    ensures BufValid(r)
    ensures Content(r) == Content(b) + str[..CStrLen(str)]
    ensures r.len == b.len + CStrLen(str)
    ensures r.capacity >= b.capacity
  {
    var n := CStrLen(str);
    r := b;
    var i := 0;
    while i < n
      invariant 0 <= i <= n
      invariant BufValid(r)
      invariant Content(r) == Content(b) + str[..i]
      invariant r.len == b.len + i
      invariant r.capacity >= b.capacity
    {
      assert str[..i + 1] == str[..i] + [str[i]];
      r := AddChar(r, str[i]);
      i := i + 1;
    }
  }

  /** The buffer `string_new` followed by one `string_add_char` per octet builds. */
  function Build(bs: seq<Byte>): (b: Buf)
    ensures BufValid(b)
  {
    if |bs| == 0 then New() else AddChar(Build(bs[..|bs| - 1]), bs[|bs| - 1])
  }

  /** 16 * 2^k. */
  function Doubled(k: nat): (n: nat)
    ensures n >= InitialCapacity
  {
    if k == 0 then InitialCapacity else 2 * Doubled(k - 1)
  }

  /**
    Appending never disturbs earlier octets, and the doubling rule keeps the
    capacity a power-of-two multiple of 16 that is never more than twice what
    the content needs.
   */
  lemma {:induction false} BuildShape(bs: seq<Byte>)
    ensures Content(Build(bs)) == bs
    ensures Build(bs).len == |bs|
    ensures exists k: nat :: Build(bs).capacity == Doubled(k)
    ensures Build(bs).capacity <= if |bs| < InitialCapacity then InitialCapacity else 2 * |bs|
  {
    if |bs| == 0 {
      assert Build(bs).capacity == Doubled(0);
    } else {
      var init, last := bs[..|bs| - 1], bs[|bs| - 1];
      BuildShape(init);
      var b0 := Build(init);
      var b := AddChar(b0, last);
      assert Build(bs) == b;
      assert last % 0x100 == last;
      assert init + [last] == bs;
      var k: nat :| b0.capacity == Doubled(k);
      if b0.len + 1 >= b0.capacity {
        assert b.capacity == Doubled(k + 1);
      } else {
        assert b.capacity == Doubled(k);
      }
    }
  }
}

=== FILE: stringlexer.dfy ===
/**
  `lexer_lex_string` (jsonmodoki.c:552-816): a twelve-state machine over the
  string syntax of section 7 of RFC 8259. Raw octets are range-checked one by
  one and copied; the two-character escapes append one octet; a `\uXXXX`
  escape is accumulated into a UTF-16 unit and appended as UTF-8, a high
  surrogate waiting for a `\uXXXX` low surrogate right after it.

  The machine is stated three times: `Loop` reads from the byte source as the
  C code does, `Run` runs the same steps over the text by index, and `Body`
  is the string grammar written without any machine. `LoopRuns` and
  `RunMatchesBody` tie the three together.
 */
module StringLexer {
  import opened Chars
  import opened Types
  import opened ByteSource
  import opened Unicode
  import opened Scan

  /** `enum state` of `lexer_lex_string`; `k` is the hex digit about to be read (1 to 4). */
  datatype State =
    | Normal
    | Escape
    | EscapeUnicode(k: nat)
    | SurrogateNormal
    | SurrogateEscape
    | SurrogateEscapeUnicode(k: nat)

  /**
    What one arm of `switch (st)` does with a character: move to a state with
    new `utf16_high` / `utf16_low` values after appending `out`, reach the
    closing quote, or fail.
   */
  datatype Move = Next(st: State, high: U16, low: U16, out: seq<Byte>) | Close | Reject

  /** The octets `STATE_NORMAL` copies verbatim (jsonmodoki.c:591-598). */
  predicate IsRawByte(c: int) {
    c == 0x20 || c == 0x21 || 0x23 <= c <= 0x5B || 0x5D <= c <= 0xBF || 0xC2 <= c <= 0xF4
  }

  /** The two-character escapes of `STATE_ESCAPE` and the one octet each appends. */
  function SimpleEscape(c: int): Option<Byte> {
    if c == '"' as int then Some(QUOTE)
    else if c == '\\' as int then Some(BACKSLASH)
    else if c == '/' as int then Some('/' as int)
    else if c == 'b' as int then Some(0x08)
    else if c == 'f' as int then Some(0x0C)
    else if c == 'n' as int then Some(0x0A)
    else if c == 'r' as int then Some(0x0D)
    else if c == 't' as int then Some(0x09)
    else None
  }

  /** `1 << shift` for the k-th hex digit: shifts 12, 8, 4 and 0. */
  function Weight(k: nat): nat {
    if k == 1 then 0x1000 else if k == 2 then 0x100 else if k == 3 then 0x10 else 1
  }

  /** Before the k-th digit the unit holds only the bits of the earlier digits. */
  predicate Partial(k: nat, v: U16) {
    1 <= k <= 4 && (k > 1 ==> v % Weight(k - 1) == 0)
  }

  /** The values the accumulators keep in each state. */
  predicate StateInv(st: State, high: U16, low: U16) {
    match st
    case EscapeUnicode(k) => Partial(k, high)
    case SurrogateNormal => IsHighSurrogate(high)
    case SurrogateEscape => IsHighSurrogate(high)
    case SurrogateEscapeUnicode(k) => IsHighSurrogate(high) && Partial(k, low)
    case _ => true
  }

  /**
    The k-th digit: `v = 0` before the first, then `v |= hex << shift`. The
    bits a digit sets are still zero, so the `|` is an addition.
   */
  function Accumulate(v: U16, k: nat, hex: int): (r: U16)
    requires Partial(k, v) && 0 <= hex < 16
    ensures k < 4 ==> Partial(k + 1, r)
  {
    AccumulateFits(v, k, hex);
    (if k == 1 then 0 else v) + hex * Weight(k)
  }

  /** The digit's bits land below the earlier digits' and above the later ones', inside 16 bits. */
  lemma AccumulateFits(v: U16, k: nat, hex: int)
    requires Partial(k, v) && 0 <= hex < 16
    ensures 0 <= (if k == 1 then 0 else v) + hex * Weight(k) < 0x10000
    ensures k < 4 ==> Partial(k + 1, (if k == 1 then 0 else v) + hex * Weight(k))
  {
    if k == 1 {
      assert Weight(1) == 0x1000;
      DigitShift(0, hex, 0x1000, 0x1000);
    } else if k == 2 {
      assert Weight(1) == 0x1000 && Weight(2) == 0x100;
      DigitShift(v, hex, 0x100, 0x1000);
    } else if k == 3 {
      assert Weight(2) == 0x100 && Weight(3) == 0x10;
      DigitShift(v, hex, 0x10, 0x100);
    } else {
      assert Weight(3) == 0x10 && Weight(4) == 1;
      DigitShift(v, hex, 1, 0x10);
    }
  }

  /** A multiple of `above` below 0x10000, plus a digit times `w == above / 16`: a multiple of `w`, still below 0x10000. */
  lemma DigitShift(v: int, hex: int, w: int, above: int)
    requires (w, above) in {(0x1000, 0x1000), (0x100, 0x1000), (0x10, 0x100), (1, 0x10)}
    requires 0 <= v < 0x10000 && v % above == 0 && 0 <= hex < 16
    requires w == 0x1000 ==> v == 0
    ensures 0 <= v + hex * w < 0x10000 && (v + hex * w) % w == 0
  {
    var q := v / above;
    assert v == above * q;
    if w == 0x1000 {
      assert hex * w == 0x1000 * hex;
    } else if w == 0x100 {
      assert 0 <= q < 16 && hex * w == 0x100 * hex;
      assert v + hex * w == 0x100 * (16 * q + hex);
    } else if w == 0x10 {
      assert 0 <= q < 0x100 && hex * w == 0x10 * hex;
      assert v + hex * w == 0x10 * (16 * q + hex);
    }
  }

  /** One pass of the `for (;;)` body on a character other than EOF. */
  function Step(st: State, high: U16, low: U16, c: Byte): (m: Move)
    requires StateInv(st, high, low)
    ensures m.Next? ==> StateInv(m.st, m.high, m.low)
  {
    match st
    case Normal =>
      if IsRawByte(c) then Next(Normal, high, low, [c])
      else if c == BACKSLASH then Next(Escape, high, low, [])
      else if c == QUOTE then Close
      else Reject
    case Escape =>
      if SimpleEscape(c).Some? then Next(Normal, high, low, [SimpleEscape(c).value])
      else if c == 'u' as int then Next(EscapeUnicode(1), high, low, []) else Reject
    case EscapeUnicode(k) =>
      var hex := HexToInt(c);
      if hex == -1 then Reject
      else
        var h := Accumulate(high, k, hex);
        if k < 4 then Next(EscapeUnicode(k + 1), h, low, [])
        else if IsHighSurrogate(h) then Next(SurrogateNormal, h, low, [])
        else if Utf16ToUtf8(h, 0).None? then Reject
        else Next(Normal, h, low, Utf16ToUtf8(h, 0).value)
    case SurrogateNormal =>
      if c == BACKSLASH then Next(SurrogateEscape, high, low, []) else Reject
    case SurrogateEscape =>
      if c == 'u' as int then Next(SurrogateEscapeUnicode(1), high, low, []) else Reject
    case SurrogateEscapeUnicode(k) =>
      var hex := HexToInt(c);
      if hex == -1 then Reject
      else
        var l := Accumulate(low, k, hex);
        if k < 4 then Next(SurrogateEscapeUnicode(k + 1), high, l, [])
        else if Utf16ToUtf8(high, l).None? then Reject
        else Next(Normal, high, l, Utf16ToUtf8(high, l).value)
  }

  /**
    The `for (;;)` loop: EOF in any state fails, the closing quote ends the
    loop, and every other character is handed to `Step`. The result holds
    the octets appended to the token buffer.
   */
  function Loop(s: Source, st: State, high: U16, low: U16): (r: Result<(seq<Byte>, Source)>)
    requires SourceValid(s) && StateInv(st, high, low)
    ensures r.Ok? ==> Advances(s, r.value.1) && Consumed(r.value.1) > Consumed(s) && r.value.1.slot.None?
    ensures r.Err? ==> r.error.kind == ErrorGeneral && s.ordinal < r.error.ordinal <= s.ordinal + |Upcoming(s)| + 1
    decreases |Upcoming(s)|
  {
    var (c, s1) := Read(s);
    ReadAdvances(s);
    if c == EOF then Err(Error(ErrorGeneral, s1.ordinal))
    else match Step(st, high, low, c)
      case Close => Ok(([], s1))
      case Reject => Err(Error(ErrorGeneral, s1.ordinal))
      case Next(st1, h1, l1, o) =>
        var r := Loop(s1, st1, h1, l1);
        if r.Ok? then
          AdvancesTrans(s, s1, r.value.1);
          Ok((o + r.value.0, r.value.1))
        else r
  }

  /**
    How decoding a string body over a text ends: at a closing quote, with
    the octets decoded and the index just past the quote, or stuck on the
    character at index `at` (`at` is the text's length when the text runs
    out first).
   */
  datatype Decoded = Closed(out: seq<Byte>, next: nat) | Stuck(at: nat)

  /** Appends `o` in front of the octets of a closed outcome. */
  function Prepend(o: seq<Byte>, r: Decoded): Decoded {
    match r
    case Closed(o2, j) => Closed(o + o2, j)
    case Stuck(k) => Stuck(k)
  }

  /**
    The machine run over the text `u` from index `i`: the octets appended
    and the index just past the closing quote, or the index of the
    character (EOF at `|u|`) on which `Loop` fails.
   */
  function Run(st: State, high: U16, low: U16, u: seq<Byte>, i: nat): (r: Decoded)
    requires i <= |u| && StateInv(st, high, low)
    ensures r.Stuck? ==> i <= r.at <= |u|
    decreases |u| - i
  {
    if i == |u| then Stuck(|u|)
    else match Step(st, high, low, u[i])
      case Close => Closed([], i + 1)
      case Reject => Stuck(i)
      case Next(st1, h1, l1, o) => Prepend(o, Run(st1, h1, l1, u, i + 1))
  }

  /**
    A source outcome and an index outcome say the same: both fail, on the
    same character, or both hold the same octets and stop at the same place.
   */
  predicate Agrees(s: Source, r: Result<(seq<Byte>, Source)>, run: Decoded)
    requires SourceValid(s)
  {
    && (r.Ok? <==> run.Closed?)
    && (r.Ok? ==> SourceValid(r.value.1) && r.value.0 == run.out && Consumed(r.value.1) == run.next)
    && (r.Err? ==> r.error.ordinal == s.ordinal + 1 + run.at - Consumed(s))
  }

  /** Reading from the source and running over its text agree, step for step. */
  lemma {:induction false} LoopRuns(s: Source, st: State, high: U16, low: U16)
    requires SourceValid(s) && StateInv(st, high, low)
    ensures Agrees(s, Loop(s, st, high, low), Run(st, high, low, s.input, Consumed(s)))
    decreases |Upcoming(s)|
  {
    var (c, s1) := Read(s);
    var i := Consumed(s);
    UpcomingLength(s);
    if i < |s.input| {
      assert c == s.input[i];
      match Step(st, high, low, c)
      case Close =>
      case Reject =>
      case Next(st1, h1, l1, o) => LoopRuns(s1, st1, h1, l1);
    }
  }

  // The string grammar of section 7 of RFC 8259, restricted to the raw octets
  // the C code admits, over the text `u` from index `i`. Where the text does
  // not fit, the grammar names the character at which the code stops.

  /** Four hex digits of either case start at `j`. */
  predicate HexAt(u: seq<Byte>, j: nat) {
    j + 4 <= |u| && forall m :: j <= m < j + 4 ==> HexToInt(u[m]) != -1
  }

  /** The character at `j` exists and is a hex digit. */
  predicate HexDigitAt(u: seq<Byte>, j: nat) {
    j < |u| && HexToInt(u[j]) != -1
  }

  /** The first of the four places from `j` that holds no hex digit (`j + 4` when all four do). */
  function HexStop(u: seq<Byte>, j: nat): (k: nat)
    ensures j <= k <= j + 4 && (j <= |u| ==> k <= |u|)
  {
    if !HexDigitAt(u, j) then j
    else if !HexDigitAt(u, j + 1) then j + 1
    else if !HexDigitAt(u, j + 2) then j + 2
    else if !HexDigitAt(u, j + 3) then j + 3
    else j + 4
  }

  /** The UTF-16 unit four hex digits spell. */
  function Hex4(u: seq<Byte>, j: nat): U16
    requires HexAt(u, j)
  {
    HexToInt(u[j]) * 0x1000 + HexToInt(u[j + 1]) * 0x100 + HexToInt(u[j + 2]) * 0x10 + HexToInt(u[j + 3])
  }

  /**
    One character of a string body (anything but the closing quote) at `i`:
    the octets it stands for and the index after it, or where it goes wrong.
   */
  function Unit(u: seq<Byte>, i: nat): (r: Decoded)
    requires i < |u|
    ensures r.Closed? ==> i < r.next <= |u|
    ensures r.Stuck? ==> i <= r.at <= |u|
  {
    if IsRawByte(u[i]) then Closed([u[i]], i + 1)
    else if u[i] != BACKSLASH then Stuck(i)
    else if i + 1 == |u| then Stuck(i + 1)
    else Escaped(u, i)
  }

  /** An escape sequence whose backslash is at `i`. */
  function Escaped(u: seq<Byte>, i: nat): (r: Decoded)
    requires i + 1 < |u|
    ensures r.Closed? ==> i < r.next <= |u|
    ensures r.Stuck? ==> i <= r.at <= |u|
  {
    if SimpleEscape(u[i + 1]).Some? then Closed([SimpleEscape(u[i + 1]).value], i + 2)
    else if u[i + 1] != 'u' as int then Stuck(i + 1)
    else if !HexAt(u, i + 2) then Stuck(HexStop(u, i + 2))
    else UnicodeEscape(u, i, Hex4(u, i + 2))
  }

  /**
    A `\\uXXXX` escape at `i` spelling the unit `hi`: a unit outside the
    surrogates is the UTF-8 encoding of itself; a high surrogate needs a
    second `\\uXXXX` spelling a low one, and the pair is encoded as one code
    point. A lone low surrogate is refused at its last digit; a high one
    with no low one after it, at the first character that does not fit.
   */
  function UnicodeEscape(u: seq<Byte>, i: nat, hi: U16): (r: Decoded)
    requires i + 6 <= |u|
    ensures r.Closed? ==> i < r.next <= |u|
    ensures r.Stuck? ==> i <= r.at <= |u|
  {
    if !IsHighSurrogate(hi) then
      if Utf32ToUtf8(hi).None? then Stuck(i + 5) else Closed(Utf32ToUtf8(hi).value, i + 6)
    else if i + 6 == |u| || u[i + 6] != BACKSLASH then Stuck(i + 6)
    else if i + 7 == |u| || u[i + 7] != 'u' as int then Stuck(i + 7)
    else if !HexAt(u, i + 8) then Stuck(HexStop(u, i + 8))
    else if !IsLowSurrogate(Hex4(u, i + 8)) then Stuck(i + 11)
    else Closed(Utf32ToUtf8(PairValue(hi, Hex4(u, i + 8))).value, i + 12)
  }

  /**
    A string body up to and including its closing quote: the decoded octets
    and the index after the quote, or the character where the text stops
    being a string.
   */
  function Body(u: seq<Byte>, i: nat): (r: Decoded)
    requires i <= |u|
    ensures r.Closed? ==> i < r.next <= |u| && u[r.next - 1] == QUOTE
    ensures r.Stuck? ==> i <= r.at <= |u|
    decreases |u| - i
  {
    if i == |u| then Stuck(|u|)
    else if u[i] == QUOTE then Closed([], i + 1)
    else match Unit(u, i)
      case Stuck(k) => Stuck(k)
      case Closed(o, j) => Prepend(o, Body(u, j))
  }

  lemma PrependEmpty(r: Decoded)
    ensures Prepend([], r) == r
  {
    if r.Closed? {
      assert [] + r.out == r.out;
    }
  }

  /** The escape family `second` selects: the high unit's or the low unit's. */
  function Quad(second: bool, k: nat): State {
    if second then SurrogateEscapeUnicode(k) else EscapeUnicode(k)
  }

  /** A hex digit before the last one only moves the machine to the next digit; anything else stops it there. */
  lemma DigitStep(second: bool, high: U16, low: U16, u: seq<Byte>, j: nat, k: nat)
    requires j <= |u| && k < 4 && StateInv(Quad(second, k), high, low)
    ensures !HexDigitAt(u, j) ==> Run(Quad(second, k), high, low, u, j) == Stuck(j)
    ensures HexDigitAt(u, j) ==>
              && StateInv(Quad(second, k + 1), if second then high else Accumulate(high, k, HexToInt(u[j])),
                          if second then Accumulate(low, k, HexToInt(u[j])) else low)
              && Run(Quad(second, k), high, low, u, j)
                 == Run(Quad(second, k + 1), if second then high else Accumulate(high, k, HexToInt(u[j])),
                        if second then Accumulate(low, k, HexToInt(u[j])) else low, u, j + 1)
  {
    if HexDigitAt(u, j) {
      PrependEmpty(Run(Quad(second, k + 1), if second then high else Accumulate(high, k, HexToInt(u[j])),
                       if second then Accumulate(low, k, HexToInt(u[j])) else low, u, j + 1));
    }
  }

  /** Three hex digits start at `j`. */
  predicate Hex3At(u: seq<Byte>, j: nat) {
    HexDigitAt(u, j) && HexDigitAt(u, j + 1) && HexDigitAt(u, j + 2)
  }

  /** The unit after three digits: the top three nibbles, the last still zero. */
  function Hex3(u: seq<Byte>, j: nat): (p: U16)
    requires Hex3At(u, j)
    ensures Partial(4, p)
  {
    HexToInt(u[j]) * 0x1000 + HexToInt(u[j + 1]) * 0x100 + HexToInt(u[j + 2]) * 0x10
  }

  /** The first three digits of a `\uXXXX` escape fill the top three nibbles of the unit. */
  lemma Digits3(second: bool, high: U16, low: U16, u: seq<Byte>, j: nat)
    requires j <= |u| && StateInv(Quad(second, 1), high, low)
    ensures !Hex3At(u, j) ==> Run(Quad(second, 1), high, low, u, j) == Stuck(HexStop(u, j))
    ensures Hex3At(u, j) ==>
              && StateInv(Quad(second, 4), if second then high else Hex3(u, j), if second then Hex3(u, j) else low)
              && Run(Quad(second, 1), high, low, u, j)
                 == Run(Quad(second, 4), if second then high else Hex3(u, j), if second then Hex3(u, j) else low, u, j + 3)
  {
    DigitStep(second, high, low, u, j, 1);
    if HexDigitAt(u, j) {
      var v1 := Accumulate(if second then low else high, 1, HexToInt(u[j]));
      var h1, l1 := if second then high else v1, if second then v1 else low;
      DigitStep(second, h1, l1, u, j + 1, 2);
      if HexDigitAt(u, j + 1) {
        var v2 := Accumulate(v1, 2, HexToInt(u[j + 1]));
        var h2, l2 := if second then high else v2, if second then v2 else low;
        DigitStep(second, h2, l2, u, j + 2, 3);
        if HexDigitAt(u, j + 2) {
          assert Accumulate(v2, 3, HexToInt(u[j + 2])) == Hex3(u, j);
        }
      }
    }
  }

  /** Four hex digits are three and one more. */
  lemma HexAtDigits(u: seq<Byte>, j: nat)
    ensures HexAt(u, j) <==> Hex3At(u, j) && HexDigitAt(u, j + 3)
    ensures HexAt(u, j) ==> Hex4(u, j) == Hex3(u, j) + HexToInt(u[j + 3])
    ensures Hex3At(u, j) && !HexDigitAt(u, j + 3) ==> HexStop(u, j) == j + 3
  {
    if HexAt(u, j) {
      assert HexToInt(u[j]) != -1 && HexToInt(u[j + 1]) != -1 && HexToInt(u[j + 2]) != -1 && HexToInt(u[j + 3]) != -1;
    }
    if Hex3At(u, j) && HexDigitAt(u, j + 3) {
      forall m | j <= m < j + 4
        ensures HexToInt(u[m]) != -1
      {
        assert m == j || m == j + 1 || m == j + 2 || m == j + 3;
      }
    }
  }

  /** The machine once the first unit of a `\uXXXX` escape is complete, at index `k`, just past its last digit. */
  function AfterHigh(v: U16, low: U16, u: seq<Byte>, k: nat): Decoded
    requires 0 < k <= |u|
  {
    if IsHighSurrogate(v) then Run(SurrogateNormal, v, low, u, k)
    else if Utf16ToUtf8(v, 0).None? then Stuck(k - 1)
    else Prepend(Utf16ToUtf8(v, 0).value, Run(Normal, v, low, u, k))
  }

  /** The machine once the low unit after a high surrogate is complete, at index `k`, just past its last digit. */
  function AfterLow(high: U16, low: U16, u: seq<Byte>, k: nat): Decoded
    requires 0 < k <= |u|
  {
    if Utf16ToUtf8(high, low).None? then Stuck(k - 1)
    else Prepend(Utf16ToUtf8(high, low).value, Run(Normal, high, low, u, k))
  }

  /** `utf16_to_utf8` on a high unit: the pair's code point when a low unit follows, else failure. */
  lemma PairToUtf8(high: U16, low: U16)
    requires IsHighSurrogate(high)
    ensures Utf16ToUtf8(high, low) == if IsLowSurrogate(low) then Some(Utf32ToUtf8(PairValue(high, low)).value) else None
  {
  }

  /** `utf16_to_utf8` on a unit outside the high surrogates, with a zero second unit. */
  lemma SingleToUtf8(v: U16)
    requires !IsHighSurrogate(v)
    ensures Utf16ToUtf8(v, 0) == Utf32ToUtf8(v)
  {
  }

  /** The last digit of a second `\uXXXX` completes the low unit and encodes the pair. */
  lemma LastLowDigit(high: U16, p: U16, u: seq<Byte>, k: nat)
    requires k <= |u| && IsHighSurrogate(high) && Partial(4, p)
    ensures !HexDigitAt(u, k) ==> Run(SurrogateEscapeUnicode(4), high, p, u, k) == Stuck(k)
    ensures HexDigitAt(u, k) ==>
              && p + HexToInt(u[k]) < 0x10000
              && Run(SurrogateEscapeUnicode(4), high, p, u, k) == AfterLow(high, p + HexToInt(u[k]), u, k + 1)
  {
    if HexDigitAt(u, k) {
      var v := p + HexToInt(u[k]);
      assert Accumulate(p, 4, HexToInt(u[k])) == v;
    }
  }

  /** The last digit of a first `\uXXXX` completes the unit and acts on it. */
  lemma LastHighDigit(p: U16, low: U16, u: seq<Byte>, k: nat)
    requires k <= |u| && Partial(4, p)
    ensures !HexDigitAt(u, k) ==> Run(EscapeUnicode(4), p, low, u, k) == Stuck(k)
    ensures HexDigitAt(u, k) ==>
              && p + HexToInt(u[k]) < 0x10000
              && Run(EscapeUnicode(4), p, low, u, k) == AfterHigh(p + HexToInt(u[k]), low, u, k + 1)
  {
    if HexDigitAt(u, k) {
      var v := p + HexToInt(u[k]);
      assert Accumulate(p, 4, HexToInt(u[k])) == v;
      if IsHighSurrogate(v) {
        PrependEmpty(Run(SurrogateNormal, v, low, u, k + 1));
      }
    }
  }

  /** A second `\uXXXX` after a high surrogate: the machine reaches `AfterLow` at `i + 12`, or stops on a missing digit. */
  lemma LowEscapeRuns(high: U16, low: U16, u: seq<Byte>, i: nat)
    requires i + 8 <= |u| && IsHighSurrogate(high) && u[i + 6] == BACKSLASH && u[i + 7] == 'u' as int
    ensures !HexAt(u, i + 8) ==> Run(SurrogateNormal, high, low, u, i + 6) == Stuck(HexStop(u, i + 8))
    ensures HexAt(u, i + 8) ==> Run(SurrogateNormal, high, low, u, i + 6) == AfterLow(high, Hex4(u, i + 8), u, i + 12)
  {
    var j := i + 8;
    PrependEmpty(Run(SurrogateEscape, high, low, u, i + 7));
    PrependEmpty(Run(SurrogateEscapeUnicode(1), high, low, u, j));
    Digits3(true, high, low, u, j);
    HexAtDigits(u, j);
    if Hex3At(u, j) {
      LastLowDigit(high, Hex3(u, j), u, j + 3);
    }
  }

  /**
    A high surrogate spelled at `i + 2`: from STATE_SURROGATE_NORMAL at
    `i + 6` the machine does what `UnicodeEscape` says.
   */
  lemma PairRuns(high: U16, low: U16, u: seq<Byte>, i: nat) returns (h2: U16, l2: U16)
    requires i + 6 <= |u| && IsHighSurrogate(high)
    ensures UnicodeEscape(u, i, high).Stuck? ==> Run(SurrogateNormal, high, low, u, i + 6) == UnicodeEscape(u, i, high)
    ensures UnicodeEscape(u, i, high).Closed? ==>
              Run(SurrogateNormal, high, low, u, i + 6)
              == Prepend(UnicodeEscape(u, i, high).out, Run(Normal, h2, l2, u, UnicodeEscape(u, i, high).next))
  {
    h2, l2 := high, low;
    if i + 6 < |u| && u[i + 6] == BACKSLASH {
      if i + 7 < |u| && u[i + 7] == 'u' as int {
        LowEscapeRuns(high, low, u, i);
        if HexAt(u, i + 8) {
          l2 := Hex4(u, i + 8);
          PairToUtf8(high, l2);
        }
      } else {
        PrependEmpty(Run(SurrogateEscape, high, low, u, i + 7));
      }
    }
  }

  /** A `\uXXXX` escape at `i`: the machine in STATE_ESCAPE_UNICODE_1 does what `Escaped` says. */
  lemma UnicodeRuns(high: U16, low: U16, u: seq<Byte>, i: nat) returns (h2: U16, l2: U16)
    requires i + 2 <= |u| && u[i + 1] == 'u' as int
    ensures Escaped(u, i).Stuck? ==> Run(EscapeUnicode(1), high, low, u, i + 2) == Escaped(u, i)
    ensures Escaped(u, i).Closed? ==>
              Run(EscapeUnicode(1), high, low, u, i + 2) == Prepend(Escaped(u, i).out, Run(Normal, h2, l2, u, Escaped(u, i).next))
  {
    h2, l2 := high, low;
    var j := i + 2;
    assert SimpleEscape(u[i + 1]).None?;
    Digits3(false, high, low, u, j);
    HexAtDigits(u, j);
    if Hex3At(u, j) {
      LastHighDigit(Hex3(u, j), low, u, j + 3);
      if HexAt(u, j) {
        var v := Hex4(u, j);
        assert Escaped(u, i) == UnicodeEscape(u, i, v);
        assert Run(EscapeUnicode(1), high, low, u, i + 2) == AfterHigh(v, low, u, i + 6);
        if IsHighSurrogate(v) {
          h2, l2 := PairRuns(v, low, u, i);
        } else {
          h2 := v;
          SingleToUtf8(v);
        }
      }
    }
  }

  /** One character of the body at `i`: the machine in STATE_NORMAL does what `Unit` says. */
  lemma UnitRuns(high: U16, low: U16, u: seq<Byte>, i: nat) returns (h2: U16, l2: U16)
    requires i < |u| && u[i] != QUOTE
    ensures Unit(u, i).Stuck? ==> Run(Normal, high, low, u, i) == Unit(u, i)
    ensures Unit(u, i).Closed? ==>
              Run(Normal, high, low, u, i) == Prepend(Unit(u, i).out, Run(Normal, h2, l2, u, Unit(u, i).next))
  {
    h2, l2 := high, low;
    if !IsRawByte(u[i]) && u[i] == BACKSLASH {
      PrependEmpty(Run(Escape, high, low, u, i + 1));
      if i + 1 < |u| && SimpleEscape(u[i + 1]).None? && u[i + 1] == 'u' as int {
        PrependEmpty(Run(EscapeUnicode(1), high, low, u, i + 2));
        h2, l2 := UnicodeRuns(high, low, u, i);
      }
    }
  }

  /** The machine decodes exactly the string grammar, and stops where the grammar does, from any accumulator values. */
  lemma {:induction false} RunMatchesBody(high: U16, low: U16, u: seq<Byte>, i: nat)
    requires i <= |u|
    ensures Run(Normal, high, low, u, i) == Body(u, i)
    decreases |u| - i
  {
    if i < |u| && u[i] != QUOTE {
      var h2, l2 := UnitRuns(high, low, u, i);
      if Unit(u, i).Closed? {
        RunMatchesBody(h2, l2, u, Unit(u, i).next);
      }
    }
  }

  /** What `lexer_lex_string` does once the body is read: peek for a character that ends a value. */
  function AfterBody(s1: Source, body: (seq<Byte>, Source)): (r: Result<(Token, Source)>)
    requires SourceValid(body.1)
    ensures r.Ok? ==> && Advances(body.1, r.value.1) && r.value.0 == Token(s1.ordinal, StringToken(body.0))
                      && EndValueNext(Upcoming(r.value.1))
    ensures r.Err? ==> r.error == Error(ErrorGeneral, body.1.ordinal + 1)
  {
    var p := PeekEndValue(body.1);
    if p.Err? then Err(p.error) else Ok((Token(s1.ordinal, StringToken(body.0)), p.value))
  }

  /**
    `lexer_lex_string`: the opening quote, the body up to the closing quote,
    then a character that ends a value, which is pushed back. The token's
    ordinal is that of the opening quote.
   */
  function LexString(s: Source): (r: Result<(Token, Source)>)
    requires SourceValid(s)
    ensures r.Ok? ==>
              && Advances(s, r.value.1)
              && r.value.0.ordinal == s.ordinal + 1 && r.value.0.kind.StringToken?
              && HeadOrEof(Upcoming(s)) == QUOTE && Consumed(r.value.1) >= Consumed(s) + 2
              && EndValueNext(Upcoming(r.value.1))
    ensures r.Err? ==> r.error.kind == ErrorGeneral && s.ordinal < r.error.ordinal <= s.ordinal + |Upcoming(s)| + 1
    ensures r.Err? ==> r.error == Error(ErrorGeneral, s.ordinal + 1 + StringStop(s) - Consumed(s))
  {
    var e := Expect(s, QUOTE);
    if e.Err? then Err(e.error)
    else
      var body := Loop(e.value, Normal, 0, 0);
      BodyStops(s, e.value, body);
      if body.Err? then Err(body.error)
      else
        var r := AfterBody(e.value, body.value);
        if r.Ok? then AdvancesTrans(s, e.value, body.value.1); AdvancesTrans(s, body.value.1, r.value.1); r
        else r
  }

  /**
    The string the grammar reads at the front of `s`: the decoded octets and
    the index in the text just after the closing quote, or the index where
    the text stops being a string (the first character, if it is no quote).
   */
  function StringAt(s: Source): (g: Decoded)
    requires SourceValid(s)
    ensures g.Closed? ==> Consumed(s) + 2 <= g.next <= |s.input|
    ensures g.Stuck? ==> Consumed(s) <= g.at <= |s.input|
  {
    if HeadOrEof(Upcoming(s)) != QUOTE then Stuck(Consumed(s)) else Body(s.input, Consumed(s) + 1)
  }

  /**
    The index of the character on which lexing a string at `s` fails: where
    the grammar gets stuck, or the character after the closing quote when
    that does not end a value.
   */
  function StringStop(s: Source): nat
    requires SourceValid(s)
  {
    var g := StringAt(s);
    if g.Stuck? then g.at else g.next
  }

  /**
    `r` is what lexing a string at `s` should give: a token exactly when the
    grammar reads a string and a character that ends a value follows it;
    the token holds the decoded octets at the ordinal of the opening quote,
    and the source is left just after the closing quote. Otherwise the error
    names the character at `StringStop`.
   */
  predicate LexedString(r: Result<(Token, Source)>, s: Source)
    requires SourceValid(s)
  {
    var g := StringAt(s);
    && (r.Ok? <==> g.Closed? && EndValueNext(s.input[g.next..]))
    && (r.Ok? ==>
          && SourceValid(r.value.1)
          && r.value.0 == Token(s.ordinal + 1, StringToken(g.out))
          && Upcoming(r.value.1) == s.input[g.next..])
    && (r.Err? ==> r.error == Error(ErrorGeneral, s.ordinal + 1 + StringStop(s) - Consumed(s)))
  }

  /** `LexString` decodes exactly the string grammar, and fails on the character where the grammar does. */
  lemma LexStringMatchesBody(s: Source)
    requires SourceValid(s)
    ensures LexedString(LexString(s), s)
  {
    var e := Expect(s, QUOTE);
    if e.Ok? {
      var s1 := e.value;
      assert Consumed(s1) == Consumed(s) + 1;
      var body := Loop(s1, Normal, 0, 0);
      LoopRuns(s1, Normal, 0, 0);
      RunMatchesBody(0, 0, s.input, Consumed(s1));
      BodyAgrees(s, s1, body, StringAt(s));
      assert LexString(s) == if body.Err? then Err(body.error) else AfterBody(s1, body.value);
      BodyEnds(s, s1, body, LexString(s));
    }
  }

  /** The loop past the opening quote fails where the grammar gets stuck, or stops where the grammar's string ends. */
  lemma BodyStops(s: Source, s1: Source, body: Result<(seq<Byte>, Source)>)
    requires Advances(s, s1) && Consumed(s1) == Consumed(s) + 1 && HeadOrEof(Upcoming(s)) == QUOTE
    requires body == Loop(s1, Normal, 0, 0)
    ensures body.Err? ==> body.error == Error(ErrorGeneral, s.ordinal + 1 + StringStop(s) - Consumed(s))
    ensures body.Ok? ==> StringAt(s).Closed? && StringStop(s) == Consumed(body.value.1)
  {
    LoopRuns(s1, Normal, 0, 0);
    RunMatchesBody(0, 0, s.input, Consumed(s1));
    BodyAgrees(s, s1, body, StringAt(s));
  }

  /** Past the opening quote, what the loop reads is what the grammar reads. */
  lemma BodyAgrees(s: Source, s1: Source, body: Result<(seq<Byte>, Source)>, g: Decoded)
    requires Advances(s, s1) && Consumed(s1) == Consumed(s) + 1 && Agrees(s1, body, g)
    requires body.Ok? ==> Advances(s1, body.value.1)
    ensures body.Ok? ==> g.Closed? && g.out == body.value.0 && Upcoming(body.value.1) == s.input[g.next..]
    ensures body.Err? ==> g.Stuck? && body.error.ordinal == s.ordinal + 1 + g.at - Consumed(s)
  {
  }

  lemma BodyEnds(s: Source, s1: Source, body: Result<(seq<Byte>, Source)>, r: Result<(Token, Source)>)
    requires Advances(s, s1) && HeadOrEof(Upcoming(s)) == QUOTE && s1.ordinal == s.ordinal + 1
    requires var g := StringAt(s);
             && (body.Ok? ==> && Advances(s1, body.value.1) && body.value.1.slot.None?
                              && g.Closed? && g.out == body.value.0 && Upcoming(body.value.1) == s.input[g.next..])
             && (body.Err? ==> g.Stuck? && body.error.ordinal == s.ordinal + 1 + g.at - Consumed(s) && body.error.kind == ErrorGeneral)
    requires r == if body.Err? then Err(body.error) else AfterBody(s1, body.value)
    ensures LexedString(r, s)
  {
    if body.Ok? {
      UpcomingLength(s);
      UpcomingLength(body.value.1);
    }
  }
}

=== FILE: syntax.dfy ===
/**
  JSON values without positions, and the token sequence each one is
  written as (the value, array and object rules of sections 3 to 5 of
  RFC 8259, over tokens). This is the reference the parser is held to:
  parsing the tokens of a value gives that value back, and a successful
  parse consumed exactly the tokens of what it built.
 */
module Syntax {
  import opened Chars
  import opened Types

  datatype Value =
    | VNull
    | VBool(truth: bool)
    | VNumber(lexeme: seq<Byte>)
    | VString(text: seq<Byte>)
    | VArray(items: seq<Value>)
    | VObject(members: seq<Member>)

  /** An object member; duplicate names are kept, in order. */
  datatype Member = Member(name: seq<Byte>, val: Value)

  /** The tokens of a value. */
  function Emit(v: Value): (ks: seq<TokenKind>)
    ensures |ks| > 0 && IsValueStart(ks[0])
    decreases v, 2
  {
    match v
    case VNull => [NullToken]
    case VBool(b) => [BoolToken(b)]
    case VNumber(lexeme) => [NumberToken(lexeme)]
    case VString(text) => [StringToken(text)]
    case VArray(items) => [BeginArray] + Elements(items) + [EndArray]
    case VObject(members) => [BeginObject] + Members(members) + [EndObject]
  }

  /** Array elements separated by commas. */
  function Elements(vs: seq<Value>): seq<TokenKind>
    decreases vs, 1
  {
    if vs == [] then [] else Emit(vs[0]) + MoreElements(vs[1..])
  }

  /** Further array elements, each after a comma. */
  function MoreElements(vs: seq<Value>): seq<TokenKind>
    decreases vs, 0
  {
    if vs == [] then [] else [ValueSep] + Emit(vs[0]) + MoreElements(vs[1..])
  }

  /** One member: its name as a string token, a colon, its value. */
  function MemberTokens(m: Member): seq<TokenKind>
    decreases m, 2
  {
    [StringToken(m.name), NameSep] + Emit(m.val)
  }

  /** Object members separated by commas. */
  function Members(ms: seq<Member>): seq<TokenKind>
    decreases ms, 1
  {
    if ms == [] then [] else MemberTokens(ms[0]) + MoreMembers(ms[1..])
  }

  /** Further object members, each after a comma. */
  function MoreMembers(ms: seq<Member>): seq<TokenKind>
    decreases ms, 0
  {
    if ms == [] then [] else [ValueSep] + MemberTokens(ms[0]) + MoreMembers(ms[1..])
  }

  /** Past the first element, the list is a comma and then a list again. */
  lemma MoreElementsStep(vs: seq<Value>)
    requires vs != []
    ensures MoreElements(vs) == [ValueSep] + Elements(vs)
  {
  }

  lemma MoreMembersStep(ms: seq<Member>)
    requires ms != []
    ensures MoreMembers(ms) == [ValueSep] + Members(ms)
  {
  }

  /** The value a tree node stands for, positions dropped. */
  function Strip(n: Node): Value
    decreases n, 1
  {
    match n
    case NullNode(_) => VNull
    case BoolNode(_, b) => VBool(b)
    case NumberNode(_, lexeme) => VNumber(lexeme)
    case StringNode(_, text) => VString(text)
    case ArrayNode(_, elems) => VArray(StripElems(elems))
    case ObjectNode(_, members) => VObject(StripMembers(members))
  }

  function StripElems(es: seq<ArrayElem>): (vs: seq<Value>)
    ensures |vs| == |es|
    decreases es, 0
  {
    if es == [] then [] else assert es[0] in es && es[0].val < es[0]; [Strip(es[0].val)] + StripElems(es[1..])
  }

  function StripMembers(es: seq<ObjectElem>): (ms: seq<Member>)
    ensures |ms| == |es|
    decreases es, 0
  {
    if es == [] then [] else assert es[0] in es; [Member(es[0].name, Strip(es[0].val))] + StripMembers(es[1..])
  }

  /** Stripping the elements from index `k` on: the `k`-th, then the rest. */
  lemma StripElemsAt(es: seq<ArrayElem>, k: nat)
    requires k < |es|
    ensures StripElems(es[k..]) == [Strip(es[k].val)] + StripElems(es[k + 1..])
    ensures StripElems(es[k..])[0] == Strip(es[k].val) && StripElems(es[k..])[1..] == StripElems(es[k + 1..])
  {
    assert es[k..][1..] == es[k + 1..];
  }

  lemma StripMembersAt(es: seq<ObjectElem>, k: nat)
    requires k < |es|
    ensures StripMembers(es[k..]) == [Member(es[k].name, Strip(es[k].val))] + StripMembers(es[k + 1..])
    ensures StripMembers(es[k..])[0] == Member(es[k].name, Strip(es[k].val))
    ensures StripMembers(es[k..])[1..] == StripMembers(es[k + 1..])
  {
    assert es[k..][1..] == es[k + 1..];
  }

  /**
    The node `n`, written as its tokens at the front of `ts`, sits at the
    ordinal of its first token, and so does every value inside it, each at
    the offset its tokens take within the tokens of `n`.
   */
  predicate Placed(n: Node, ts: seq<Token>)
    decreases n, 3
  {
    && ts != [] && n.ordinal == ts[0].ordinal
    && match n
       case ArrayNode(_, es) => ElemsPlaced(es, ts[1..])
       case ObjectNode(_, ms) => MembersPlaced(ms, ts[1..])
       case _ => true
  }

  /** The elements `es`, written as in `Elements`, are placed from the front of `ts` on. */
  predicate ElemsPlaced(es: seq<ArrayElem>, ts: seq<Token>)
    decreases es, 0
  {
    es != [] ==>
      assert es[0] in es && es[0].val < es[0];
      var k := |Emit(Strip(es[0].val))|;
      && Placed(es[0].val, ts) && k <= |ts| && MoreElemsPlaced(es[1..], ts[k..])
  }

  /** Further elements, each after a comma, as in `MoreElements`. */
  predicate MoreElemsPlaced(es: seq<ArrayElem>, ts: seq<Token>)
    decreases es, 1
  {
    es != [] ==> ts != [] && ElemsPlaced(es, ts[1..])
  }

  /** The first member's value, after its name and colon, and the members after it. */
  predicate MemberValuePlaced(ms: seq<ObjectElem>, ts: seq<Token>)
    requires ms != []
    decreases ms, 0
  {
    assert ms[0] in ms && ms[0].val < ms[0];
    var k := |Emit(Strip(ms[0].val))|;
    && Placed(ms[0].val, ts) && k <= |ts| && MoreMembersPlaced(ms[1..], ts[k..])
  }

  /** The members `ms`, written as in `Members`, are placed from the front of `ts` on. */
  predicate MembersPlaced(ms: seq<ObjectElem>, ts: seq<Token>)
    decreases ms, 1
  {
    ms != [] ==> |ts| >= 2 && MemberValuePlaced(ms, ts[2..])
  }

  /** Further members, each after a comma, as in `MoreMembers`. */
  predicate MoreMembersPlaced(ms: seq<ObjectElem>, ts: seq<Token>)
    decreases ms, 2
  {
    ms != [] ==> ts != [] && MembersPlaced(ms, ts[1..])
  }

  /** The kinds of a token list, ordinals dropped. */
  function Kinds(ts: seq<Token>): (ks: seq<TokenKind>)
    ensures |ks| == |ts|
  {
    if ts == [] then [] else [ts[0].kind] + Kinds(ts[1..])
  }

  lemma KindsCons(t: Token, ts: seq<Token>)
    ensures Kinds([t] + ts) == [t.kind] + Kinds(ts)
  {
    assert ([t] + ts)[1..] == ts;
  }

}

=== FILE: tokencursor.dfy ===
/**
  The parser's view of the token list (jsonmodoki.c:900-923): `lexer_read`
  takes the pushed-back token if there is one and otherwise the token at
  `tokencurr`, advancing it; past the end it yields NULL. `lexer_unread`
  pushes one token back. Both keep the counter `ordinal` of tokens handed
  out and not pushed back.
 */
module TokenCursor {
  import opened Types

  /** The `tokencurr` / `buf` / `ordinal` part of `lexer_t`, with the list as a sequence. */
  datatype Cursor = Cursor(tokens: seq<Token>, pos: nat, slot: Option<Token>, ordinal: nat)

  predicate CursorValid(c: Cursor) {
    c.pos <= |c.tokens|
  }

  /** The tokens the next reads hand out, in order, before NULL. */
  function Pending(c: Cursor): seq<Token>
    requires CursorValid(c)
  {
    (if c.slot.Some? then [c.slot.value] else []) + c.tokens[c.pos..]
  }

  /** How many tokens are pending, counted without building them. */
  function Remaining(c: Cursor): nat
    requires CursorValid(c)
  {
    (if c.slot.Some? then 1 else 0) + |c.tokens| - c.pos
  }

  lemma RemainingPending(c: Cursor)
    requires CursorValid(c)
    ensures Remaining(c) == |Pending(c)|
  {
  }

  /** The token list as `lexer_lex` leaves it, with `tokencurr` at its head. */
  function Open(tokens: seq<Token>): (c: Cursor)
    ensures CursorValid(c) && Pending(c) == tokens && c.slot.None? && c.ordinal == 0
  {
    assert tokens[0..] == tokens;
    Cursor(tokens, 0, None, 0)
  }

  /**
    `lexer_read`: the next pending token, or None (NULL) once there is none;
    the counter goes up by one in every case.
   */
  function ReadToken(c: Cursor): (r: (Option<Token>, Cursor))
    requires CursorValid(c)
    ensures CursorValid(r.1) && r.1.tokens == c.tokens && r.1.slot.None? && r.1.ordinal == c.ordinal + 1
    ensures Remaining(r.1) == if r.0.Some? then Remaining(c) - 1 else 0
    ensures Pending(c) == [] <==> r.0.None?
    ensures r.0.Some? ==> Pending(c) == [r.0.value] + Pending(r.1)
    ensures r.0.None? ==> Pending(r.1) == []
  {
    match c.slot
    case Some(t) =>
      assert Pending(c) == [t] + c.tokens[c.pos..];
      (Some(t), c.(slot := None, ordinal := c.ordinal + 1))
    case None =>
      if c.pos == |c.tokens| then (None, c.(ordinal := c.ordinal + 1))
      else
        assert c.tokens[c.pos..] == [c.tokens[c.pos]] + c.tokens[c.pos + 1..];
        (Some(c.tokens[c.pos]), c.(pos := c.pos + 1, ordinal := c.ordinal + 1))
  }

  /**
    `lexer_unread`. Its BUG guards (the one-token stack is full; nothing has
    been read) are the precondition, so the parser is proved never to trip
    them. Reading straight after hands the same token back.
   */
  function UnreadToken(c: Cursor, t: Token): (r: Cursor)
    requires CursorValid(c) && c.slot.None? && c.ordinal > 0
    ensures CursorValid(r) && r.tokens == c.tokens && r.pos == c.pos
    ensures Pending(r) == [t] + Pending(c) && r.ordinal + 1 == c.ordinal
    ensures Remaining(r) == Remaining(c) + 1
    ensures ReadToken(r) == (Some(t), c)
  {
    c.(slot := Some(t), ordinal := c.ordinal - 1)
  }

  /** `tokencurr != NULL`: the list itself still has tokens, whatever the pushback slot holds. */
  predicate ListLeft(c: Cursor) {
    c.pos < |c.tokens|
  }

  /** With the slot empty, the list has tokens left exactly when some token is pending. */
  lemma ListLeftPending(c: Cursor)
    requires CursorValid(c) && c.slot.None?
    ensures ListLeft(c) <==> Pending(c) != []
  {
  }
}

=== FILE: types.dfy ===
/**
  The records of jsonmodoki.h: tokens, tree nodes and the error record,
  together with the optional and result wrappers the model threads through
  the lexer and the parser in place of NULL returns.
 */
module Types {
  import opened Chars

  datatype Option<T> = None | Some(value: T)

  /** `enum error` (jsonmodoki.h:143-146). */
  datatype ErrorKind = ErrorGeneral | Success

  /** `error_t`: a kind and the ordinal where it was recorded. */
  datatype Error = Error(kind: ErrorKind, ordinal: nat)

  /** A lexer step either yields a value or records an error and stops. */
  datatype Result<T> = Ok(value: T) | Err(error: Error) {
    predicate IsFailure() {
      Err?
    }

    function PropagateFailure<U>(): Result<U>
      requires Err?
    {
      Err(error)
    }

    function Extract(): T
      requires Ok?
    {
      value
    }
  }

  /**
    `enum token_tag` with the payloads of `token_t`: a Bool token holds its
    truth value, a Number token the accepted lexeme (the double `strtod`
    makes of it is not modelled), a String token the decoded octets.
   */
  datatype TokenKind =
    | NullToken
    | BoolToken(truth: bool)
    | NumberToken(lexeme: seq<Byte>)
    | StringToken(text: seq<Byte>)
    | BeginArray
    | BeginObject
    | EndArray
    | EndObject
    | NameSep
    | ValueSep

  /** `token_t`: a kind and the 1-based position where the token begins. */
  datatype Token = Token(ordinal: nat, kind: TokenKind)

  /** `case_token_tag_like_value` (jsonmodoki.c:1036-1042). */
  predicate IsValueStart(k: TokenKind) {
    k.NullToken? || k.BoolToken? || k.NumberToken? || k.StringToken?
    || k.BeginArray? || k.BeginObject?
  }

  /**
    `node_t` for values. Arrays and objects own their element wrappers in
    list order; an empty sequence plays the part of a NULL `head`.
   */
  datatype Node =
    | NullNode(ordinal: nat)
    | BoolNode(ordinal: nat, truth: bool)
    | NumberNode(ordinal: nat, lexeme: seq<Byte>)
    | StringNode(ordinal: nat, text: seq<Byte>)
    | ArrayNode(ordinal: nat, elems: seq<ArrayElem>)
    | ObjectNode(ordinal: nat, members: seq<ObjectElem>)

  /** `NODE_TAG_ARRAY_ELEM`: a zero-based index and the element's value. */
  datatype ArrayElem = ArrayElem(ordinal: nat, index: nat, val: Node)

  /** `NODE_TAG_OBJECT_ELEM`: the key's octets and the member's value. */
  datatype ObjectElem = ObjectElem(ordinal: nat, name: seq<Byte>, val: Node)
}

=== FILE: unicode.dfy ===
/**
  The Unicode helpers of jsonmodoki.c (jsonmodoki.c:461-551): hex digits,
  UTF-16 surrogates (RFC 2781) and the UTF-8 encoder (RFC 3629).

  The C code combines bit fields with `&`, `<<`, `>>` and `|`. On the values
  that reach these functions every mask is a remainder, every shift a
  multiplication or division by a power of two and every `|` joins disjoint
  bit fields, so the model writes them with `%`, `*`, `/` and `+`.
 */
module Unicode {
  import opened Chars
  import opened Types

  /** `uint16_t`. */
  type U16 = x: int | 0 <= x < 0x10000

  /** `uint32_t`. */
  type U32 = x: int | 0 <= x < 0x1_0000_0000

  function LowerHexDigit(v: nat): Byte
    requires v < 16
  {
    if v < 10 then '0' as int + v else 'a' as int + (v - 10)
  }

  function UpperHexDigit(v: nat): Byte
    requires v < 16
  {
    if v < 10 then '0' as int + v else 'A' as int + (v - 10)
  }

  /** `hexctoi`: the value of a hex digit of either case, -1 for anything else. */
  function HexToInt(c: int): (r: int)
    ensures -1 <= r < 16
  {
    if '0' as int <= c <= '9' as int then c - '0' as int
    else if 'a' as int <= c <= 'f' as int then c - 'a' as int + 10
    else if 'A' as int <= c <= 'F' as int then c - 'A' as int + 10
    else -1
  }

  /**
    `hexctoi` inverts both digit spellings: a character has a value exactly
    when it spells that value in lower or upper case, and -1 exactly when it
    spells none.
   */
  lemma HexToIntInverts(c: int)
    ensures HexToInt(c) >= 0 ==> c == LowerHexDigit(HexToInt(c)) || c == UpperHexDigit(HexToInt(c))
    ensures HexToInt(c) == -1 <==> forall v: nat :: v < 16 ==> c != LowerHexDigit(v) && c != UpperHexDigit(v)
  {
    if HexToInt(c) >= 0 {
      var v := HexToInt(c);
      assert c == LowerHexDigit(v) || c == UpperHexDigit(v);
    }
  }

  /** `is_high_surrogate`. */
  predicate IsHighSurrogate(u: int) {
    0xD800 <= u <= 0xDBFF
  }

  /** `is_low_surrogate`. */
  predicate IsLowSurrogate(u: int) {
    0xDC00 <= u <= 0xDFFF
  }

  /** The code point a surrogate pair stands for (section 2.2 of RFC 2781). */
  function PairValue(hi: int, lo: int): int {
    0x10000 + (hi - 0xD800) * 0x400 + (lo - 0xDC00)
  }

  /** The high unit encoding a supplementary code point (section 2.1 of RFC 2781). */
  function HighUnit(cp: int): U16
    requires 0x10000 <= cp <= 0x10FFFF
  {
    0xD800 + (cp - 0x10000) / 0x400
  }

  /** The low unit encoding a supplementary code point (section 2.1 of RFC 2781). */
  function LowUnit(cp: int): U16
    requires 0x10000 <= cp <= 0x10FFFF
  {
    0xDC00 + (cp - 0x10000) % 0x400
  }

  /**
    `utf16_to_utf32`: the first component is the C return value (units
    used, or -1), the second the code point it stores (0 when it stores
    none).
   */
  function Utf16ToUtf32(hi: U16, lo: U16): (r: (int, U32))
    ensures !IsHighSurrogate(hi) ==> r == (1, hi)
    ensures IsHighSurrogate(hi) && !IsLowSurrogate(lo) ==> r.0 == -1
    ensures IsHighSurrogate(hi) && IsLowSurrogate(lo) ==>
              && r.0 == 2
              && r.1 == PairValue(hi, lo)
              && 0x10000 <= r.1 <= 0x10FFFF
              && HighUnit(r.1) == hi && LowUnit(r.1) == lo
  {
    if !IsHighSurrogate(hi) then (1, hi)
    else if !IsLowSurrogate(lo) then (-1, 0)
    else (2, (hi % 0x400) * 0x400 + lo % 0x400 + 0x10000)
  }

  /** Every supplementary code point is recovered from its surrogate pair. */
  lemma Utf16PairRoundTrip(cp: int)
    requires 0x10000 <= cp <= 0x10FFFF
    ensures IsHighSurrogate(HighUnit(cp)) && IsLowSurrogate(LowUnit(cp))
    ensures Utf16ToUtf32(HighUnit(cp), LowUnit(cp)) == (2, cp)
  {
    var q, m := (cp - 0x10000) / 0x400, (cp - 0x10000) % 0x400;
    assert cp - 0x10000 == q * 0x400 + m;
    assert PairValue(HighUnit(cp), LowUnit(cp)) == 0x10000 + q * 0x400 + m;
  }

  predicate IsTail(b: int) {
    0x80 <= b <= 0xBF
  }

  /** One UTF8-char of the syntax in section 4 of RFC 3629. */
  predicate WellFormedUtf8(bs: seq<Byte>) {
    || (|bs| == 1 && bs[0] <= 0x7F)
    || (|bs| == 2 && 0xC2 <= bs[0] <= 0xDF && IsTail(bs[1]))
    || (|bs| == 3 && IsTail(bs[2])
        && (|| (bs[0] == 0xE0 && 0xA0 <= bs[1] <= 0xBF)
            || (0xE1 <= bs[0] <= 0xEC && IsTail(bs[1]))
            || (bs[0] == 0xED && 0x80 <= bs[1] <= 0x9F)
            || (0xEE <= bs[0] <= 0xEF && IsTail(bs[1]))))
    || (|bs| == 4 && IsTail(bs[2]) && IsTail(bs[3])
        && (|| (bs[0] == 0xF0 && 0x90 <= bs[1] <= 0xBF)
            || (0xF1 <= bs[0] <= 0xF3 && IsTail(bs[1]))
            || (bs[0] == 0xF4 && 0x80 <= bs[1] <= 0x8F)))
  }

  /** The code point a UTF-8 sequence of one to four octets carries (section 3 of RFC 3629). */
  function DecodeUtf8(bs: seq<Byte>): int
    requires 1 <= |bs| <= 4
  {
    var b := seq(|bs|, i requires 0 <= i < |bs| => bs[i] as int);
    if |b| == 1 then b[0]
    else if |b| == 2 then (b[0] - 0xC0) * 0x40 + (b[1] - 0x80)
    else if |b| == 3 then (b[0] - 0xE0) * 0x1000 + (b[1] - 0x80) * 0x40 + (b[2] - 0x80)
    else (b[0] - 0xF0) * 0x40000 + (b[1] - 0x80) * 0x1000 + (b[2] - 0x80) * 0x40 + (b[3] - 0x80)
  }

  /** `x >> 12` is `(x >> 6) >> 6`, and `x >> 18` is `(x >> 12) >> 6`. */
  lemma ShiftsCompose(x: nat)
    ensures x / 0x1000 == (x / 0x40) / 0x40
    ensures x / 0x40000 == (x / 0x1000) / 0x40
  {
    var a := x / 0x40;
    assert x == a * 0x40 + x % 0x40;
    assert a == (a / 0x40) * 0x40 + a % 0x40;
    assert x == (a / 0x40) * 0x1000 + (a % 0x40) * 0x40 + x % 0x40;
    var c := x / 0x1000;
    assert x == c * 0x1000 + x % 0x1000;
    assert c == (c / 0x40) * 0x40 + c % 0x40;
    assert x == (c / 0x40) * 0x40000 + (c % 0x40) * 0x1000 + x % 0x1000;
  }

  /** The two-octet branch of `utf32_to_utf8`. */
  function Encode2(cp: int): (bs: seq<Byte>)
    requires 0x80 <= cp <= 0x7FF
    ensures |bs| == 2
  {
    [0xC0 + cp / 0x40, 0x80 + cp % 0x40]
  }

  /** The three-octet branch of `utf32_to_utf8`. */
  function Encode3(cp: int): (bs: seq<Byte>)
    requires 0x800 <= cp <= 0xFFFF
    ensures |bs| == 3
  {
    ShiftsCompose(cp);
    [0xE0 + cp / 0x1000, 0x80 + (cp / 0x40) % 0x40, 0x80 + cp % 0x40]
  }

  /** The four-octet branch of `utf32_to_utf8`. */
  function Encode4(cp: int): (bs: seq<Byte>)
    requires 0x10000 <= cp <= 0x10FFFF
    ensures |bs| == 4
  {
    ShiftsCompose(cp);
    [0xF0 + cp / 0x40000, 0x80 + (cp / 0x1000) % 0x40, 0x80 + (cp / 0x40) % 0x40, 0x80 + cp % 0x40]
  }

  lemma Encode2Decodes(cp: int)
    requires 0x80 <= cp <= 0x7FF
    ensures WellFormedUtf8(Encode2(cp)) && DecodeUtf8(Encode2(cp)) == cp
  {
    assert cp == (cp / 0x40) * 0x40 + cp % 0x40;
  }

  lemma Encode3Decodes(cp: int)
    requires 0x800 <= cp <= 0xFFFF && !IsHighSurrogate(cp) && !IsLowSurrogate(cp)
    ensures WellFormedUtf8(Encode3(cp)) && DecodeUtf8(Encode3(cp)) == cp
  {
    ShiftsCompose(cp);
    var a := cp / 0x40;
    assert cp == a * 0x40 + cp % 0x40;
    assert a == (cp / 0x1000) * 0x40 + a % 0x40;
  }

  lemma Encode4Decodes(cp: int)
    requires 0x10000 <= cp <= 0x10FFFF
    ensures WellFormedUtf8(Encode4(cp)) && DecodeUtf8(Encode4(cp)) == cp
  {
    ShiftsCompose(cp);
    var a := cp / 0x40;
    var c := cp / 0x1000;
    assert cp == a * 0x40 + cp % 0x40;
    assert a == c * 0x40 + a % 0x40;
    assert c == (cp / 0x40000) * 0x40 + c % 0x40;
  }

  /**
    `utf32_to_utf8`: None stands for the -1 return; otherwise the octets
    written, whose count is the return value.
   */
  function Utf32ToUtf8(cp: U32): (r: Option<seq<Byte>>)
    ensures r.None? <==> IsHighSurrogate(cp) || IsLowSurrogate(cp) || cp > 0x10FFFF
    ensures r.Some? ==> |r.value| == (if cp <= 0x7F then 1 else if cp <= 0x7FF then 2 else if cp <= 0xFFFF then 3 else 4)
  {
    if cp <= 0x7F then
      Some([cp])
    else if 0x80 <= cp <= 0x7FF then
      Some(Encode2(cp))
    else if 0x800 <= cp <= 0xFFFF then
      if IsHighSurrogate(cp) || IsLowSurrogate(cp) then None
      else Some(Encode3(cp))
    else if 0x10000 <= cp <= 0x10FFFF then
      Some(Encode4(cp))
    else
      None
  }

  /** Whatever `utf32_to_utf8` writes is one well-formed UTF-8 character carrying the code point. */
  lemma Utf32ToUtf8Decodes(cp: U32)
    ensures Utf32ToUtf8(cp).Some? ==> WellFormedUtf8(Utf32ToUtf8(cp).value) && DecodeUtf8(Utf32ToUtf8(cp).value) == cp
  {
    if 0x80 <= cp <= 0x7FF {
      Encode2Decodes(cp);
    } else if 0x800 <= cp <= 0xFFFF && !IsHighSurrogate(cp) && !IsLowSurrogate(cp) {
      Encode3Decodes(cp);
    } else if 0x10000 <= cp <= 0x10FFFF {
      Encode4Decodes(cp);
    }
  }

  lemma Utf8Canonical2(bs: seq<Byte>)
    requires |bs| == 2 && WellFormedUtf8(bs)
    ensures 0x80 <= DecodeUtf8(bs) <= 0x7FF && Encode2(DecodeUtf8(bs)) == bs
  {
    var e := Encode2(DecodeUtf8(bs));
    assert e[0] == bs[0] && e[1] == bs[1];
  }

  lemma Utf8Canonical3(bs: seq<Byte>)
    requires |bs| == 3 && WellFormedUtf8(bs)
    ensures 0x800 <= DecodeUtf8(bs) <= 0xFFFF
    ensures !IsHighSurrogate(DecodeUtf8(bs)) && !IsLowSurrogate(DecodeUtf8(bs))
    ensures Encode3(DecodeUtf8(bs)) == bs
  {
    var e := Encode3(DecodeUtf8(bs));
    assert e[0] == bs[0] && e[1] == bs[1] && e[2] == bs[2];
  }

  lemma Utf8Canonical4(bs: seq<Byte>)
    requires |bs| == 4 && WellFormedUtf8(bs)
    ensures 0x10000 <= DecodeUtf8(bs) <= 0x10FFFF && Encode4(DecodeUtf8(bs)) == bs
  {
    var cp := DecodeUtf8(bs);
    var b0: int, b1: int, b2: int, b3: int := bs[0] - 0xF0, bs[1] - 0x80, bs[2] - 0x80, bs[3] - 0x80;
    assert cp == b0 * 0x40000 + b1 * 0x1000 + b2 * 0x40 + b3;
    assert cp / 0x40000 == b0;
    assert cp / 0x1000 == b0 * 0x40 + b1;
    assert cp / 0x40 == (b0 * 0x40 + b1) * 0x40 + b2;
    var e := Encode4(cp);
    assert e[0] == bs[0] && e[1] == bs[1] && e[2] == bs[2] && e[3] == bs[3];
  }

  /** Every well-formed UTF-8 character is the encoding of the code point it decodes to. */
  lemma Utf8Canonical(bs: seq<Byte>)
    requires WellFormedUtf8(bs)
    ensures 0 <= DecodeUtf8(bs) <= 0x10FFFF
    ensures Utf32ToUtf8(DecodeUtf8(bs)) == Some(bs)
  {
    if |bs| == 2 {
      Utf8Canonical2(bs);
    } else if |bs| == 3 {
      Utf8Canonical3(bs);
    } else if |bs| == 4 {
      Utf8Canonical4(bs);
    } else {
      assert [DecodeUtf8(bs)] == bs;
    }
  }

  /**
    `utf16_to_utf8`: a unit outside the surrogates is encoded by itself, a
    high unit followed by a low one is encoded as the pair's code point, and
    every other combination fails.
   */
  function Utf16ToUtf8(hi: U16, lo: U16): (r: Option<seq<Byte>>)
    ensures !IsHighSurrogate(hi) ==> r == Utf32ToUtf8(hi)
    ensures IsLowSurrogate(hi) ==> r.None?
    ensures IsHighSurrogate(hi) && !IsLowSurrogate(lo) ==> r.None?
    ensures IsHighSurrogate(hi) && IsLowSurrogate(lo) ==>
              && 0x10000 <= PairValue(hi, lo) <= 0x10FFFF
              && r.Some? && r == Utf32ToUtf8(PairValue(hi, lo)) && |r.value| == 4
  {
    var (n, cp) := Utf16ToUtf32(hi, lo);
    if n == -1 then None else Utf32ToUtf8(cp)
  }

  /** What `utf16_to_utf8` writes is well-formed UTF-8 for the unit, or for the pair's code point. */
  lemma Utf16ToUtf8Decodes(hi: U16, lo: U16)
    ensures !IsHighSurrogate(hi) && !IsLowSurrogate(hi) ==>
              Utf16ToUtf8(hi, lo).Some? && WellFormedUtf8(Utf16ToUtf8(hi, lo).value) && DecodeUtf8(Utf16ToUtf8(hi, lo).value) == hi
    ensures IsHighSurrogate(hi) && IsLowSurrogate(lo) ==>
              WellFormedUtf8(Utf16ToUtf8(hi, lo).value) && DecodeUtf8(Utf16ToUtf8(hi, lo).value) == PairValue(hi, lo)
  {
    if !IsHighSurrogate(hi) {
      Utf32ToUtf8Decodes(hi);
    } else if IsLowSurrogate(lo) {
      Utf32ToUtf8Decodes(PairValue(hi, lo));
    }
  }
}
